=== FILE: README.md ===
# Call management: a Dafny model of its core

The system lets users open calls, tag them and attach tasks to them. An
admin keeps a catalogue of tags and of "suggested" tasks, and links
suggested tasks to tags, so that a call's tags propose tasks for it. An
Express server stores calls, tags, tasks and three junction tables
(call–tag, call–task with a status, tag–task) behind per-route handlers, and
broadcasts some changes over Socket.IO. A React client caches the server's
answers under cache tags, and drops them when a mutation or a broadcast
invalidates those tags. It also holds a few self-contained pieces of
logic: the session slice, the route guard, the form validators, the
error-message classifier, the modal flags and the task-status sort.

The model has three parts.

* **Server handlers over a relational store.**
  - `Schema` gives the tables as a value, with the key, foreign-key and
    unique-name constraints and the cascading deletes.
  - `Store.Database` is the store as a class whose fields the writes update
    in place. It has a transaction snapshot and a rollback, and
    auto-increment sequences that a rollback does not give back.
  - `Sockets.SocketService` records every broadcast in an event log.
  - Each handler of the controller files is a method. It runs the
    handler's checks in their order and returns the HTTP response: 200/201
    with data, 400 or 404 with the handler's message, or 500 for an
    exception that the error middleware turns into a response.
  - The contracts state the new tables, the new event log and the
    unchanged sequences on every path. They also state that the consistency
    invariant is kept.
  - A failing datastore write is a parameter of the handler that names the
    write that throws.
* **The client cache.**
  - `CacheKeys` gives the cache tags and the matching rule the client
    relies on. A tag with an id stales the entries providing that id, and
    ids compare as JavaScript property keys, so `5` and `"5"` are the same
    key. A tag without an id stales every entry of its type.
  - `CallsApi`, `TagsApi`, `TasksApi` and `AdminApi` are the endpoint
    tables: what each query provides and what each mutation invalidates.
  - `QueryCache` works out, for every mutation, exactly which cached
    queries it stales.
  - `SocketIntegration` maps each of the nine broadcast events to the tags
    it invalidates, and compares each event with the matching mutation.
    It also models the listener registry of the socket, with the
    set-up/clean-up pair of the hook.
* **Client utilities.** `TasksSection` (the status sort), `ModalState`,
  `ErrorHandler`, `Validation`, `AuthSlice` and `ProtectedRoute`.

Where the declared types and the code disagree, the model follows the code:

- The `Task` model declares only `id` and `name`, but the handlers read and
  write `isSuggested`, so a task carries that flag.
- The client's `AuthState` type has no token fields, but the slice stores
  both tokens, so the model's state holds them.
- `getErrorMessage` is typed to return a string, but on a serialized
  error it returns `error.message` whenever that value is truthy, whatever
  its type. The model returns a JavaScript value.

## Model

| member | source | states |
|---|---|---|
| Schema.ParseTaskStatus | apps/server/src/models/CallTask.ts:43 | a status text is accepted exactly when it is one of the three enum values, and it parses back to the status named by that text |
| Schema.ParseStatusName | apps/server/src/models/CallTask.ts:43 | every status parses back from its stored name |
| Schema.CallTaskRows | apps/server/src/models/CallTask.ts:24-41 | the call–task rows are exactly the keyed entries, and two rows with the same (callId, taskId) are the same row (composite primary key) |
| Schema.LinkTagsKeepsRows | apps/server/src/controllers/callTagController.ts:55 | `call.addTags` only adds call–tag rows, adding the same tags again changes nothing, and linking existing tags to an existing call keeps every row's foreign keys |
| Schema.ConsistentWhenLinksKept | apps/server/src/controllers/tagTaskController.ts:69-75 | a write that keeps the schema, the tag–task rows and every task's suggested flag keeps "tags link only suggested tasks" |
| Schema.SchemaAdmitsUnsuggestedLink | apps/server/src/models/TagTask.ts:14-33 | the schema alone admits a tag–task row whose task is not suggested; only the handler forbids it |
| Schema.DestroyCall | apps/server/src/models/CallTask.ts:27-31 | deleting a call removes it and exactly its call–tag and call–task rows, changes nothing else, and keeps the schema and the invariant |
| Schema.DestroyTag | apps/server/src/models/CallTag.ts:35-40 | deleting a tag removes it and exactly its call–tag and tag–task rows, changes nothing else, and keeps the schema and the invariant |
| Schema.DestroyTask | apps/server/src/models/CallTask.ts:36-40 | deleting a task removes it and exactly its call–task and tag–task rows, keeps every other status, and keeps the schema and the invariant |
| Store.Database.Transaction | apps/server/src/controllers/callTagController.ts:25 | opening a transaction takes a snapshot of all tables |
| Store.Database.Rollback | apps/server/src/controllers/callTagController.ts:70 | a rollback restores the snapshot exactly and leaves the id sequences where they are |
| Store.Database.CreateCall | apps/server/src/controllers/callController.ts:66 | `Call.create` adds one call under the next sequence id, which was free, and changes no other table |
| Store.Database.CreateTag | apps/server/src/models/tag.ts:27-30 | `Tag.create` fails exactly when another tag already has that name (unique column); otherwise it adds one tag under a fresh id; the sequence advances either way |
| Store.Database.CreateTask | apps/server/src/controllers/taskController.ts:85-88 | `Task.create` adds one task with the given name and flag under a fresh id, and changes no other table |
| Store.Database.AddCallTags | apps/server/src/controllers/callTagController.ts:55 | the call–tag rows become the link of the given tags to the call |
| Store.Database.AddCallTask | apps/server/src/controllers/callTaskController.ts:124-129 | the call–task row of the key is set to the given status and no other row changes |
| Store.Database.SetCallTaskStatus | apps/server/src/controllers/callTaskController.ts:192 | `callTask.update` overwrites the status of an existing row and nothing else |
| Store.Database.AddTagTask | apps/server/src/controllers/tagTaskController.ts:104 | `tag.addSuggestedTask` adds exactly that tag–task row |
| Store.Database.RenameTask | apps/server/src/controllers/taskController.ts:136 | `task.update({ name })` changes that task's name and nothing else |
| Store.Database.RenameTag | apps/server/src/controllers/tagController.ts:120 | `tag.update({ name })` succeeds exactly when no other tag holds the name, and then changes that tag's name alone |
| Store.Database.DestroyTask | apps/server/src/controllers/taskController.ts:175 | `task.destroy` leaves the tables as the cascading delete of the task |
| Sockets.SocketService.Emit | apps/server/src/sockets/socket.ts:100-148 | each broadcast appends exactly its event to the log |
| Events.NameIdentifiesKind | apps/server/src/sockets/socket.ts:100-148 | every event travels under one of the nine names, and two events share a name exactly when they are of the same kind |
| CallController.GetAllCalls | apps/server/src/controllers/callController.ts:7-21 | the answer is 200 with exactly the stored calls |
| CallController.GetCallById | apps/server/src/controllers/callController.ts:25-47 | 404 "Call not found" exactly when the id is absent; otherwise 200 with the stored call of that id |
| CallController.CreateCall | apps/server/src/controllers/callController.ts:51-76 | a falsy name gives 400 and changes nothing; otherwise exactly one call with that name is created under the next id; no event is ever broadcast |
| CallTagController.FoundAllIffDistinctAndPresent | apps/server/src/controllers/callTagController.ts:39-53 | the number of tags found equals the length of `tagIds` exactly when the ids are pairwise distinct and all exist, so duplicates trip the 400 |
| CallTagController.NewTagIdsSuffice | apps/server/src/controllers/callTagController.ts:55 | inserting only the tags not yet linked leaves the same rows as linking every requested tag, and there is nothing to insert exactly when all are linked already |
| CallTagController.AddTagsToCall | apps/server/src/controllers/callTagController.ts:9-73 | a missing or empty array gives 400; an absent call gives 404; a missing or repeated tag id gives 400; a failing insert gives 500; otherwise the call's tags become old ∪ requested with no "already linked" check; every failure leaves the tables as they were and no event is broadcast |
| CallTagController.LinkTagsToCall | apps/server/src/controllers/callTagController.ts:55-72 | the insert-then-commit step either links every tag or rolls back to the snapshot with 500 |
| CallTagController.GetCallTags | apps/server/src/controllers/callTagController.ts:77-101 | 404 for an absent call; otherwise exactly the tags linked to the call |
| CallTaskController.RequestedStatus | apps/server/src/controllers/callTaskController.ts:56 | an absent status defaults to Open; a given status is accepted exactly when it is one of the enum values, and it keeps its text |
| CallTaskController.AddTaskToCall | apps/server/src/controllers/callTaskController.ts:50-148 | an absent call gives 404; with a truthy taskId: an absent task gives 404, an existing link gives 400 with the old status kept, and otherwise the link is added with the requested status; without one: a falsy name gives 400, and otherwise one unsuggested task is created and linked; a bad status or a failing write gives 500 after rollback; `callTaskAdded` is broadcast after commit and only on success |
| CallTaskController.AttachExistingTask | apps/server/src/controllers/callTaskController.ts:75-103 | the existing-task branch: 404 for an absent task, 400 for an existing link, otherwise the link is added and announced |
| CallTaskController.AttachNewTask | apps/server/src/controllers/callTaskController.ts:104-122 | the new-task branch: 400 for a falsy name, otherwise one task with isSuggested false is created and linked; the sequence keeps the id of a task that a rollback removes |
| CallTaskController.LinkTask | apps/server/src/controllers/callTaskController.ts:124-137 | the link-commit-broadcast step fails with 500 exactly when the status is outside the enum or the insert throws, and then restores the snapshot without broadcasting |
| CallTaskController.UpdateCallTaskStatus | apps/server/src/controllers/callTaskController.ts:150-200 | a status outside the three values gives 400; a missing row gives 404 and no event; otherwise the event, carrying the row as read, is broadcast before the write, and the status is then overwritten whatever it was |
| CallTaskController.GetCallTasks | apps/server/src/controllers/callTaskController.ts:11-46 | 404 for an absent call; otherwise exactly the call's rows, each with its status and the `id`/`name` projection of its task |
| TagTaskController.GetTagSuggestedTasks | apps/server/src/controllers/tagTaskController.ts:11-35 | 404 for an absent tag; otherwise exactly the tasks linked to it; nothing changes |
| TagTaskController.TagTasksAreSuggested | apps/server/src/controllers/tagTaskController.ts:69-84 | in a consistent store every task a tag lists is a suggested one |
| TagTaskController.AddSuggestedTaskToTag | apps/server/src/controllers/tagTaskController.ts:39-122 | a falsy taskId gives 400; an absent tag gives 404; an absent or unsuggested task gives 404; an existing link gives 400; a failing insert gives 500; otherwise exactly that pair is added and `tagSuggestedTaskAdded` is broadcast after commit; every failure leaves the tables as they were |
| TagTaskController.LinkingTwiceIsRefused | apps/server/src/controllers/tagTaskController.ts:87-102 | a first request that succeeds adds exactly the pair and its event; a second request for the same pair then gets 400 "Task is already linked to this tag" and leaves the tables and the event log as the first left them |
| TagTaskController.InsertionOrder | apps/server/src/controllers/tagTaskController.ts:154-162 | the keys of the deduplicating map, in insertion order, are pairwise distinct and are exactly the ids visited |
| TagTaskController.InsertionOrderByFirstOccurrence | apps/server/src/controllers/tagTaskController.ts:154-162 | the map keeps its keys ordered by each id's first visit |
| TagTaskController.GetSuggestedTasksForTags | apps/server/src/controllers/tagTaskController.ts:126-169 | a missing or empty array gives 400; otherwise the found tags are visited once each, all the tasks of one tag before the next tag, and the answer is the `id`/`name` of the visited tasks in the key order of the deduplicating map |
| TagTaskController.FirstTagFirst | apps/server/src/controllers/tagTaskController.ts:154-162 | the tasks of the first tag visited open the answer, in that tag's order, so tasks of different tags are never interleaved before the first tag is done |
| TagTaskController.SetTasksOfTag | apps/server/src/controllers/tagTaskController.ts:157-159 | the inner loop keeps the map equal to the insertion order of the ids visited so far, each mapped to its task's projection |
| TagTaskController.SuggestedTasksForTagsShape | apps/server/src/controllers/tagTaskController.ts:154-162 | the answer has pairwise-distinct ids, lists every task reachable from the tags and nothing else, and orders them by first visit |
| TagTaskController.GetAllTagTaskAssociations | apps/server/src/controllers/tagTaskController.ts:173-200 | exactly the tag–task rows whose task is suggested, each with its tag and the `id`/`name` projection of its task |
| TagTaskController.AllAssociationsListed | apps/server/src/controllers/tagTaskController.ts:178-193 | in a consistent store the inner join on suggested tasks drops no row |
| TaskController.BlankNameMeansWhitespace | apps/server/src/controllers/taskController.ts:77 | `!name \|\| name.trim() === ""` holds exactly when the name is missing or whitespace only |
| TaskController.GetSuggestedTasks | apps/server/src/controllers/taskController.ts:49-66 | exactly the tasks with isSuggested true |
| TaskController.CreateSuggestedTask | apps/server/src/controllers/taskController.ts:70-98 | a missing or blank name gives 400 and changes nothing; otherwise one suggested task with the name as given is created and `taskCreated` is broadcast |
| TaskController.UpdateSuggestedTask | apps/server/src/controllers/taskController.ts:102-146 | checks in order blank name (400), absent task (404), unsuggested task (400); otherwise only the name changes and `taskUpdated` is broadcast |
| TaskController.DeleteSuggestedTask | apps/server/src/controllers/taskController.ts:150-182 | 404 for an absent task, 400 for an unsuggested one, otherwise the task is deleted with its rows; no event is broadcast |
| TaskController.DeleteLeavesNoDanglingRows | apps/server/src/controllers/taskController.ts:175 | after the cascading delete no call–task or tag–task row names the task, every other row and status is kept, and the schema holds |
| TagController.CreateTag | apps/server/src/controllers/tagController.ts:51-76 | a falsy name gives 400 with no trim check; a name already taken gives 500 from the unique column; otherwise one tag is created; no event is broadcast |
| TagController.UpdateTag | apps/server/src/controllers/tagController.ts:80-132 | checks in order blank name (400), absent tag (404), another tag holding the trimmed name (400); stores the untrimmed name, which the unique column can still refuse (500); no event is broadcast |
| TagController.RenameToOwnNameAllowed | apps/server/src/controllers/tagController.ts:106-111 | with unique names no other tag holds a tag's own name, so renaming a tag to its name passes the check |
| TagController.TrimmedCheckMissesUntrimmedClash | apps/server/src/controllers/tagController.ts:106-120 | the trimmed-name check can pass while the stored untrimmed name clashes with another tag |
| JsText.Trim | apps/client/src/utils/validation.ts:15 | `trim` returns the middle slice of its input and drops only whitespace, which it drops at both ends |
| JsText.TrimEmptyIffBlank | apps/client/src/utils/validation.ts:15-23 | the trimmed text is empty exactly when the text is whitespace only |
| JsText.TrimIdempotent | apps/server/src/controllers/tagController.ts:108 | trimming twice is trimming once |
| JsText.Utf16Length | apps/client/src/utils/validation.ts:34-41 | `length` counts UTF-16 units: between one and two per character, and one per character exactly when none lies above U+FFFF |
| JsText.NatToString | apps/client/src/store/api/adminApi.ts:17 | the decimal text of a number is a non-empty digit string, one digit long exactly below ten |
| JsText.NatToStringInjective | apps/client/src/store/api/adminApi.ts:17 | two numbers with the same decimal text are equal |
| CacheKeys.NumKeys | apps/client/src/store/api/callsApi.ts:22-23 | two numeric ids are the same key exactly when they are equal, and no numeric id is the key "LIST" |
| CacheKeys.ListWithItems | apps/client/src/store/api/callsApi.ts:19-25 | a list query provides one tag per item plus LIST, and a tag stales it exactly when it names LIST, the whole type, or one of its items |
| CacheKeys.Single | apps/client/src/store/api/callsApi.ts:32 | a by-id query is staled exactly by the whole type or by its own id |
| AdminApi.AssociationId | apps/client/src/store/api/adminApi.ts:17 | the id `${tagId}-${taskId}` is text with a '-' right after the tag's digits |
| AdminApi.AssociationIdInjective | apps/client/src/store/api/adminApi.ts:15-18 | two associations get the same id exactly when they are the same pair |
| AdminApi.AssociationIdIsNoOtherKey | apps/client/src/store/api/adminApi.ts:17 | an association id is never a numeric key and never LIST |
| AdminApi.GetAllTagTaskAssociations | apps/client/src/store/api/adminApi.ts:12-21 | the query provides n+1 tags, pairwise distinct for distinct pairs; LIST always stales it, no numeric TagTaskAssociation id ever does, and no other type does |
| QueryCache.ListTagHits | apps/client/src/store/api/tasksApi.ts:16-22 | a type's LIST tag stales exactly the list queries of that type |
| QueryCache.NumTagHits | apps/client/src/store/api/tasksApi.ts:29 | a numeric tag stales exactly the by-id queries of its type and id and the lists of its type that contain the id |
| QueryCache.WholeHits | apps/client/src/hooks/useSocketIntegration.ts:30 | a tag without an id stales exactly the queries of its type |
| QueryCache.CreateCallStales | apps/client/src/store/api/callsApi.ts:43 | `createCall` stales exactly the call list |
| QueryCache.AddTagsToCallStales | apps/client/src/store/api/callsApi.ts:65-68 | `addTagsToCall(c)` stales exactly c's tags, c itself and the call lists that contain c |
| QueryCache.AddTaskToCallStales | apps/client/src/store/api/callsApi.ts:90-93 | `addTaskToCall(c)` stales exactly c's tasks, c itself and the call lists that contain c |
| QueryCache.UpdateCallTaskStatusStales | apps/client/src/store/api/callsApi.ts:107-110 | the id-less CallTask tag stales the task lists of every call, plus c itself and the call lists that contain c |
| QueryCache.UnprovidedListsStaleNothing | apps/client/src/store/api/callsApi.ts:50-52 | no query provides CallTag LIST or CallTask LIST, so invalidating them stales nothing |
| QueryCache.CreateTagStales | apps/client/src/store/api/tagsApi.ts:34-37 | `createTag` stales exactly the tag lists; its CallTag part reaches nothing |
| QueryCache.UpdateTagStales | apps/client/src/store/api/tagsApi.ts:48-53 | `updateTag(id)` stales exactly that tag, the tag lists and the call lists, and no call's tags |
| QueryCache.AddSuggestedTaskToTagStales | apps/client/src/store/api/tagsApi.ts:75-79 | `addSuggestedTaskToTag(g)` stales exactly g's suggested tasks, the association list and the suggested-task lists |
| QueryCache.DeleteTagStales | apps/client/src/store/api/tagsApi.ts:88-92 | `deleteTag(id)` stales exactly that tag and the tag lists |
| QueryCache.CreateSuggestedTaskStales | apps/client/src/store/api/tasksApi.ts:56-59 | `createSuggestedTask` stales exactly the suggested-task and task lists |
| QueryCache.UpdateSuggestedTaskStales | apps/client/src/store/api/tasksApi.ts:73-79 | `updateSuggestedTask(id)` stales exactly the suggested-task lists, the task lists and that task; its CallTask part reaches nothing |
| QueryCache.GetSuggestedTasksForTagsStalesNothing | apps/client/src/store/api/tasksApi.ts:84-94 | the by-tags request invalidates nothing |
| SocketIntegration.TagCreatedStales | apps/client/src/hooks/useSocketIntegration.ts:21-25 | `tagCreated` stales exactly the tag lists |
| SocketIntegration.TagUpdatedStales | apps/client/src/hooks/useSocketIntegration.ts:27-31 | `tagUpdated` stales every Tag, CallTag and Call entry |
| SocketIntegration.TaskCreatedStales | apps/client/src/hooks/useSocketIntegration.ts:34-43 | `taskCreated` stales exactly the task and suggested-task lists |
| SocketIntegration.TaskUpdatedStales | apps/client/src/hooks/useSocketIntegration.ts:45-56 | `taskUpdated` stales exactly the task lists, the suggested-task lists and that task |
| SocketIntegration.TaskUpdatedMatchesMutation | apps/client/src/hooks/useSocketIntegration.ts:45-56 | the `taskUpdated` broadcast stales the same queries as the `updateSuggestedTask` mutation |
| SocketIntegration.CallCreatedStales | apps/client/src/hooks/useSocketIntegration.ts:59-63 | `callCreated` stales exactly the call lists |
| SocketIntegration.CallTagsAddedStales | apps/client/src/hooks/useSocketIntegration.ts:65-76 | `callTagsAdded(c)` stales the same queries as `addTagsToCall(c)`: c's tags, c and the call lists containing c |
| SocketIntegration.CallTaskAddedStales | apps/client/src/hooks/useSocketIntegration.ts:78-88 | `callTaskAdded(c)` stales the same queries as `addTaskToCall(c)` |
| SocketIntegration.CallTaskStatusUpdatedStales | apps/client/src/hooks/useSocketIntegration.ts:90-104 | `callTaskStatusUpdated(c)` stales exactly c's tasks, c and the call lists containing c, all of which the mutation also stales |
| SocketIntegration.StatusEventNarrowerThanMutation | apps/client/src/hooks/useSocketIntegration.ts:98-103 | another call's task list is staled by the status mutation but not by the status broadcast |
| SocketIntegration.TagSuggestedTaskAddedStales | apps/client/src/hooks/useSocketIntegration.ts:107-122 | `tagSuggestedTaskAdded(g)` stales exactly g's suggested tasks and the association list, all of which the mutation also stales |
| SocketIntegration.AdminListReachedOnlyThroughList | apps/client/src/hooks/useSocketIntegration.ts:115-121 | the association list is staled by the event through LIST, never through the numeric tag id |
| SocketIntegration.Registered | apps/client/src/hooks/useSocketIntegration.ts:125-133 | set-up registers nine listeners, one per event name in order, each with that run's handler for the name |
| SocketIntegration.ClientSocket.On | apps/client/src/hooks/useSocketIntegration.ts:125 | `on` appends the listener |
| SocketIntegration.ClientSocket.Off | apps/client/src/hooks/useSocketIntegration.ts:140 | `off` removes the first equal listener and nothing else |
| SocketIntegration.ListenersFor | apps/client/src/hooks/useSocketIntegration.ts:125-133 | the handlers an event reaches are exactly those registered under its name |
| SocketIntegration.SetUp | apps/client/src/hooks/useSocketIntegration.ts:15-133 | listeners are registered exactly when a socket exists and is connected, and then all nine are appended |
| SocketIntegration.CleanUp | apps/client/src/hooks/useSocketIntegration.ts:138-149 | clean-up removes each of the nine registered listeners in turn |
| SocketIntegration.SetUpCleanUpRestores | apps/client/src/hooks/useSocketIntegration.ts:125-149 | set-up followed by clean-up leaves the socket's listeners exactly as they were |
| SocketIntegration.OneHandlerPerEvent | apps/client/src/hooks/useSocketIntegration.ts:125-133 | after set-up an event reaches that run's handler for its name and no other |
| TasksSection.Rank | apps/client/src/components/TasksSection/TasksSection.tsx:22-24 | a rank is 0, 1 or 2 |
| TasksSection.RankOrder | apps/client/src/components/TasksSection/TasksSection.tsx:22-24 | a missing status or Open ranks 0, In Progress 1, Completed 2 |
| TasksSection.SortedTasksIsBuckets | apps/client/src/components/TasksSection/TasksSection.tsx:21-26 | the stable sort gives the Open tasks, then the In Progress ones, then the Completed ones, each group in input order |
| TasksSection.SortedTasksPermutation | apps/client/src/components/TasksSection/TasksSection.tsx:21 | the sorted copy holds exactly the input's tasks, with their multiplicities |
| TasksSection.BucketsSorted | apps/client/src/components/TasksSection/TasksSection.tsx:22-25 | the groups in rank order are sorted by the comparator |
| TasksSection.SortedTasksCorrect | apps/client/src/components/TasksSection/TasksSection.tsx:21-26 | the result is sorted by rank, is a permutation of the input, and keeps the input order within each rank |
| ModalState.IsOpenIn | apps/client/src/hooks/useModalState.ts:18-20 | a name is open exactly when it has an entry and that entry is true |
| ModalState.Modals.constructor | apps/client/src/hooks/useModalState.ts:4 | initially every name is closed |
| ModalState.Modals.OpenModal | apps/client/src/hooks/useModalState.ts:6-8 | the name becomes open and every other name keeps its state |
| ModalState.Modals.CloseModal | apps/client/src/hooks/useModalState.ts:10-12 | the name becomes closed and every other name keeps its state |
| ModalState.Modals.CloseAllModals | apps/client/src/hooks/useModalState.ts:14-16 | every name becomes closed |
| ModalState.OpenCloseIdempotent | apps/client/src/hooks/useModalState.ts:6-12 | opening twice is opening once, closing twice is closing once, and neither touches another name |
| ModalState.CloseUndoesOpen | apps/client/src/hooks/useModalState.ts:6-12 | closing after opening answers like closing alone, and like nothing at all for a name that had no entry |
| ErrorHandler.GuardsExclusive | apps/client/src/utils/errorHandler.ts:5-18 | no value passes both guards, and every object with a `message` passes one of them |
| ErrorHandler.FalsyIsUnknown | apps/client/src/utils/errorHandler.ts:23 | a falsy error gives "An unknown error occurred" |
| ErrorHandler.TransportFailures | apps/client/src/utils/errorHandler.ts:26-31 | FETCH_ERROR gives the network message and TIMEOUT_ERROR the timeout message, whatever else the error holds |
| ErrorHandler.ServerMessageWins | apps/client/src/utils/errorHandler.ts:32-39 | any other status with a string message in the body gives that message |
| ErrorHandler.NonTextMessageIgnored | apps/client/src/utils/errorHandler.ts:32-40 | a body message that is not a string is ignored and the status is reported |
| ErrorHandler.NumericStatusReported | apps/client/src/utils/errorHandler.ts:40 | without a body a numeric status gives "Server error: " and the decimal status |
| ErrorHandler.SerializedMessage | apps/client/src/utils/errorHandler.ts:43-45 | a serialized error gives its message, or "An error occurred" when the message is empty |
| ErrorHandler.UnrecognisedIsUnknown | apps/client/src/utils/errorHandler.ts:47 | an object with neither `status` nor `message` gives "An unknown error occurred" |
| ErrorHandler.MessageIsText | apps/client/src/utils/errorHandler.ts:20-48 | the result is text except for a truthy non-text message of a serialized error, and it is empty only when the server sent an empty message |
| Validation.EmailDecision | apps/client/src/utils/validation.ts:3 | the positional email test accepts exactly the language of `^[^\s@]+@[^\s@]+\.[^\s@]+$` |
| Validation.EmailExamples | apps/client/src/utils/validation.ts:3 | "ana@example.com" passes; a second '@', a space, an empty local part, an empty label before the '.' or an empty suffix fails |
| Validation.LoginIff | apps/client/src/utils/validation.ts:14-26 | login passes exactly when neither field is whitespace only, and a blank username is reported first |
| Validation.RegisterIff | apps/client/src/utils/validation.ts:28-45 | registration passes exactly when the trimmed email is in the email language, the trimmed username has at least 4 UTF-16 units, the raw password has at least 4 and is not blank; the username-required message cannot occur |
| Validation.BlankPasswordPassesLength | apps/client/src/utils/validation.ts:39-44 | four spaces pass the password length check and are then refused as a missing password |
| AuthSlice.InitialState | apps/client/src/store/slices/authSlice.ts:5-29 | the start-up session is authenticated exactly when a non-empty access token and a user are stored; it is never loading; a throwing read gives the signed-out state |
| AuthSlice.Auth.constructor | apps/client/src/store/slices/authSlice.ts:31 | the slice starts in the initial state read from storage, which is consistent |
| AuthSlice.Auth.SetCredentials | apps/client/src/store/slices/authSlice.ts:45-51 | user and both tokens are set, authenticated becomes true and loading false |
| AuthSlice.Auth.SetTokens | apps/client/src/store/slices/authSlice.ts:65-68 | only the two tokens change; user, authenticated and loading are untouched |
| AuthSlice.Auth.SetLoading | apps/client/src/store/slices/authSlice.ts:74-76 | only the loading flag changes |
| AuthSlice.Auth.Logout | apps/client/src/store/slices/authSlice.ts:77-82 | user and both tokens become null, authenticated and loading false |
| AuthSlice.Auth.UpdateUser | apps/client/src/store/slices/authSlice.ts:89-91 | only the user changes |
| AuthSlice.SelectIsAdmin | apps/client/src/store/slices/authSlice.ts:106-107 | true exactly when there is a user and its role is "admin" |
| AuthSlice.AdminWithoutSession | apps/client/src/store/slices/authSlice.ts:106-107 | the admin selector ignores the session flag: a user set after logout reads as admin while signed out |
| ProtectedRoute.Decide | apps/client/src/components/ProtectedRoute/ProtectedRoute.tsx:16-31 | the guard renders or redirects to /login or /unauthorized, and it redirects to /login exactly when the visitor is signed out |
| ProtectedRoute.RenderIff | apps/client/src/components/ProtectedRoute/ProtectedRoute.tsx:16-31 | the page renders exactly when the visitor is signed in and holds the role the route requires, if it requires "admin" or "user" |
| ProtectedRoute.SignedOutToLogin | apps/client/src/components/ProtectedRoute/ProtectedRoute.tsx:17-19 | a signed-out visitor goes to /login whatever the required role |
| ProtectedRoute.AdminRoute | apps/client/src/components/ProtectedRoute/ProtectedRoute.tsx:22-24 | an admin route admits exactly the admins and sends everyone else to /unauthorized |
| ProtectedRoute.UserRoute | apps/client/src/components/ProtectedRoute/ProtectedRoute.tsx:26-28 | a user route admits exactly role "user"; admins go to /unauthorized |
| ProtectedRoute.OtherRoutes | apps/client/src/components/ProtectedRoute/ProtectedRoute.tsx:31 | any other required role, "both" or none, admits every signed-in visitor |
| ProtectedRoute.RoleRoutesDisjoint | apps/client/src/components/ProtectedRoute/ProtectedRoute.tsx:22-28 | no visitor reaches both an admin-only and a user-only page |

## Left out

- Authentication on the server (password hashing, token signing and checking, the auth middleware) is left out: it calls into foreign libraries. The auth and user endpoints are not part of this model.
- Transport is left out: HTTP parsing, the router, rate limiting, Socket.IO connection handling, and the client's fetch layer and retries.
- The query-cache engine itself is left out. The model states which cached queries a set of tags stales; refetching, subscriptions and timing are not modelled.
- Concurrency is left out: requests are handled one at a time, and so are the broadcasts and the cache updates.
- Result order by `createdAt` is not modelled, and neither are timestamps. Queries that the server orders by creation time return sets.
- Attribute projections are modelled only where a handler names them (`id`/`name` of an included task); other entity rows are returned whole.
- The junction row that a many-to-many read attaches to each row is dropped: `tag.getSuggestedTasks()` and the `suggestedTasks` include return tasks carrying their `TagTask` row, and `call.getTags()` returns tags carrying their `CallTag` row; the model returns the task or the tag alone.
- CallTagController.GetCallTags: returns bare tags, without the `CallTag` row that `call.getTags()` attaches to each.
- TagTaskController.GetSuggestedTasksForTags: because that junction row is dropped, the model cannot show that `suggestedTasksMap.set` keeps the object from the last tag that lists a task, with its `TagTask` row, at the position of the task's first occurrence. The model keeps the first position, and the task's id and name are the same for every tag.
- The `message` texts of 200 answers ("Tags added to call successfully", "Suggested task added to tag successfully" and the like) are not modelled; a successful write returns `Ok(())`.
- Only the handlers named above are modelled. The plain getters of tags and tasks (`getAllTags`, `getTagById`, `getAllTasks`, `getTaskById`) are not part of this model.
- A failing datastore read (`findByPk`, `findAll`, `findOne`) is not modelled; only failing writes are.
- Of the writes outside a transaction, two are modelled as failing: the unique-name refusal of the tag table, which consumes a tag id as the database does, and a failing `callTask.update` in CallTaskController.UpdateCallTaskStatus, which answers 500 with the tables unchanged after the `callTaskStatusUpdated` event has gone out. Other failing inserts of calls, tags and suggested tasks are not modelled. Neither are failures of the other updates and destroys outside a transaction: `task.update`, `task.destroy`, and any failure of `tag.update` other than the unique-name clash.
- AuthSlice.StoredUser covers a missing entry, the text `null`, a user object and a read that throws. Stored text that parses to another JSON value (a number, a string) is not modelled; the client only ever stores a user object there.
- Request bodies are modelled as optional strings and optional numbers. Values of other JSON types (an array where a string belongs, a string id where a number belongs) and the coercion of ids from path strings are left out.
- Browser storage is left out: the slice's writes to `localStorage` are not modelled, and its reads at start-up are the parameters of AuthSlice.InitialState.
- ModalState.IsOpenIn: the model reads an absent name as closed. In the program the lookup follows the object's prototype chain, so a name inherited from `Object.prototype` ("constructor", "toString" and the like) reads as open. The app only asks about "login", "register", "call", "tag", "task" and "suggestedTasks", none of them inherited.
- ModalState.Modals.constructor: "every name starts closed" holds for every name not inherited from `Object.prototype`; the inherited names read as open in the program, as the line above says.
- Toasts, console output and React rendering are left out; the validators return the message they would show.
- Socket handlers never write event payloads into the cache; the model has no cache contents, only staleness.
- ErrorHandler.JsValue: JavaScript numbers are integers here, so a NaN status or a fractional one is not modelled.
- ErrorHandler.GetErrorMessage has no contract of its own; its behaviour is stated by the lemmas listed above.
- SocketIntegration.OneHandlerPerEvent: states which handlers an event reaches, not that it reaches each exactly once.
- TasksSection.SortedTasks: the engine's sort algorithm is not modelled; since `Array.prototype.sort` is stable, the model's stable insertion sort gives the same order.
- AuthSlice.SelectCurrentUser, AuthSlice.SelectIsAuthenticated and AuthSlice.SelectIsLoading are field reads and carry no contract.

=== FILE: admin_api.dfy ===
/**
 * The admin endpoint of the client's API slice: the list of every
 * tag-to-task link, whose entries are filed under composite string ids.
 */
module AdminApi {
  import opened Wrappers
  import opened JsText
  import opened CacheKeys

  /** A tag-to-task link as the list returns it. */
  datatype Link = Link(tagId: nat, taskId: nat)

  /** The template-string id `${tagId}-${taskId}` of a link. */
  function AssociationId(l: Link): (id: CacheId)
    ensures id.Text? && |id.s| > |NatToString(l.tagId)| && id.s[|NatToString(l.tagId)|] == '-'
    ensures IsDigit(id.s[0])
  {
    Text(NatToString(l.tagId) + "-" + NatToString(l.taskId))
  }

  /** Distinct links have distinct ids: the '-' sits right after the digits
      of the tag id, so it splits the id back into its two numbers. */
  lemma AssociationIdInjective(a: Link, b: Link)
    ensures Key(AssociationId(a)) == Key(AssociationId(b)) <==> a == b
  {
    var x, y := NatToString(a.tagId), NatToString(b.tagId);
    var s, t := Key(AssociationId(a)), Key(AssociationId(b));
    if s == t {
      assert s[|x|] == '-' && t[|y|] == '-';
      assert forall i :: 0 <= i < |x| ==> s[i] == x[i] && IsDigit(s[i]);
      assert forall i :: 0 <= i < |y| ==> t[i] == y[i] && IsDigit(t[i]);
      assert |x| == |y|;
      assert x == s[..|x|] && y == t[..|y|];
      NatToStringInjective(a.tagId, b.tagId);
      assert NatToString(a.taskId) == s[|x| + 1..] && NatToString(b.taskId) == t[|y| + 1..];
      NatToStringInjective(a.taskId, b.taskId);
    }
  }

  /** An association id is never the name a numeric id or LIST is filed under. */
  lemma AssociationIdIsNoOtherKey(l: Link, n: nat)
    ensures Key(AssociationId(l)) != Key(Num(n))
    ensures Key(AssociationId(l)) != Key(LIST)
  {
    var s, d := Key(AssociationId(l)), NatToString(n);
    var k := |NatToString(l.tagId)|;
    assert s[k] == '-';
    assert !IsDigit(Key(LIST)[0]);
  }

  /**
   * `getAllTagTaskAssociations`: TagTaskAssociation[`${tagId}-${taskId}`]
   * for each link, then TagTaskAssociation LIST, which is there with or
   * without a result. The ids are pairwise distinct when the links are, and
   * no numeric TagTaskAssociation id reaches the entry: only LIST, or the
   * whole type, does.
   */
  function GetAllTagTaskAssociations(result: Option<seq<Link>>): (tags: seq<Provided>)
    ensures |tags| == (if result.Some? then |result.value| else 0) + 1
    ensures result.Some? && (forall i, j :: 0 <= i < j < |result.value| ==> result.value[i] != result.value[j]) ==>
      forall i, j :: 0 <= i < j < |tags| ==> Key(tags[i].id) != Key(tags[j].id)
    ensures Hits(Item(TagTaskAssociation, LIST), tags)
    ensures forall n: nat :: !Hits(Item(TagTaskAssociation, Num(n)), tags)
    ensures forall inv :: Hits(inv, tags) ==> inv.kind == TagTaskAssociation
  {
    var links := if result.Some? then result.value else [];
    var tags := seq(|links|, i requires 0 <= i < |links| => Provided(TagTaskAssociation, AssociationId(links[i])))
                + [Provided(TagTaskAssociation, LIST)];
    AssociationTags(links, tags);
    tags
  }

  lemma AssociationTags(links: seq<Link>, tags: seq<Provided>)
    requires |tags| == |links| + 1 && tags[|links|] == Provided(TagTaskAssociation, LIST)
    requires forall i :: 0 <= i < |links| ==> tags[i] == Provided(TagTaskAssociation, AssociationId(links[i]))
    ensures (forall i, j :: 0 <= i < j < |links| ==> links[i] != links[j]) ==>
      forall i, j :: 0 <= i < j < |tags| ==> Key(tags[i].id) != Key(tags[j].id)
    ensures Hits(Item(TagTaskAssociation, LIST), tags)
    ensures forall n: nat :: !Hits(Item(TagTaskAssociation, Num(n)), tags)
    ensures forall inv :: Hits(inv, tags) ==> inv.kind == TagTaskAssociation
  {
    assert Matches(Item(TagTaskAssociation, LIST), tags[|links|]);
    if forall i, j :: 0 <= i < j < |links| ==> links[i] != links[j] {
      AssociationTagsDistinct(links, tags);
    }
    forall n: nat ensures !Hits(Item(TagTaskAssociation, Num(n)), tags) {
      AssociationTagsMissNum(links, tags, n);
    }
  }

  lemma AssociationTagsDistinct(links: seq<Link>, tags: seq<Provided>)
    requires |tags| == |links| + 1 && tags[|links|] == Provided(TagTaskAssociation, LIST)
    requires forall i :: 0 <= i < |links| ==> tags[i] == Provided(TagTaskAssociation, AssociationId(links[i]))
    requires forall i, j :: 0 <= i < j < |links| ==> links[i] != links[j]
    ensures forall i, j :: 0 <= i < j < |tags| ==> Key(tags[i].id) != Key(tags[j].id)
  {
    forall i, j | 0 <= i < j < |tags| ensures Key(tags[i].id) != Key(tags[j].id) {
      if j < |links| {
        AssociationIdInjective(links[i], links[j]);
      } else {
        AssociationIdIsNoOtherKey(links[i], 0);
      }
    }
  }

  lemma AssociationTagsMissNum(links: seq<Link>, tags: seq<Provided>, n: nat)
    requires |tags| == |links| + 1 && tags[|links|] == Provided(TagTaskAssociation, LIST)
    requires forall i :: 0 <= i < |links| ==> tags[i] == Provided(TagTaskAssociation, AssociationId(links[i]))
    ensures !Hits(Item(TagTaskAssociation, Num(n)), tags)
  {
    var d := NatToString(n);
    assert IsDigit(d[0]) && !IsDigit(Key(LIST)[0]);
    forall k | 0 <= k < |tags| ensures Key(tags[k].id) != d {
      if k < |links| {
        AssociationIdIsNoOtherKey(links[k], n);
      }
    }
  }
}

=== FILE: auth_slice.dfy ===
/**
 * The client's session record: the signed-in user, the two tokens, and the
 * authenticated and loading flags. The reducers overwrite fields of the
 * record in place; the selectors read it.
 */
module AuthSlice {
  import opened Wrappers
  import Http

  /** The signed-in user as the client holds it. The role is the text read
      back from storage, so it is not limited to "admin" and "user". */
  datatype User = User(id: int, username: string, email: string, role: string)

  datatype AuthState = AuthState(
    user: Option<User>,
    accessToken: Option<string>,
    refreshToken: Option<string>,
    isAuthenticated: bool,
    isLoading: bool)

  /** The stored user entry once read back: no entry (or an empty one), the
      JSON text `null`, a user, or a read that throws (storage refused or
      the text does not parse). */
  datatype StoredUser = NoEntry | StoredNull | Stored(u: User) | Unreadable

  /** The state of a signed-out client. */
  const SignedOut := AuthState(None, None, None, false, false)

  /** A session flagged authenticated has a user and an access token. */
  predicate Consistent(s: AuthState) {
    s.isAuthenticated ==> s.user.Some? && s.accessToken.Some?
  }

  /**
   * `getInitialState`: the stored tokens and user, authenticated when both
   * a non-empty access token and a user were stored; a read that throws
   * gives the signed-out state.
   */
  function InitialState(access: Option<string>, refresh: Option<string>, stored: StoredUser): (s: AuthState)
    ensures s.isAuthenticated <==> Http.Truthy(access) && stored.Stored?
    ensures !s.isLoading && Consistent(s)
    ensures stored.Unreadable? ==> s == SignedOut
    ensures !stored.Unreadable? ==> s.accessToken == access && s.refreshToken == refresh
    ensures s.user.Some? <==> stored.Stored?
    ensures s.user.Some? ==> s.user.value == stored.u
  {
    match stored
    case Unreadable => SignedOut
    case Stored(u) => AuthState(Some(u), access, refresh, Http.Truthy(access), false)
    case _ => AuthState(None, access, refresh, false, false)
  }

  class Auth {
    var user: Option<User>
    var accessToken: Option<string>
    var refreshToken: Option<string>
    var isAuthenticated: bool
    var isLoading: bool

    function State(): AuthState
      reads this
    {
      AuthState(user, accessToken, refreshToken, isAuthenticated, isLoading)
    }

    ghost predicate Valid()
      reads this
    {
      Consistent(State())
    }

    /** The slice as created at start-up from what storage holds. */
    constructor(access: Option<string>, refresh: Option<string>, stored: StoredUser)
      ensures State() == InitialState(access, refresh, stored)
      ensures Valid()
    {
      var s := InitialState(access, refresh, stored);
      user, accessToken, refreshToken := s.user, s.accessToken, s.refreshToken;
      isAuthenticated, isLoading := s.isAuthenticated, s.isLoading;
    }

    /** `setCredentials`: a signed-in session, whatever came before. */
    method SetCredentials(u: User, access: string, refresh: string)
      modifies this
      ensures State() == AuthState(Some(u), Some(access), Some(refresh), true, false)
      ensures Valid()
    {
      user := Some(u);
      accessToken := Some(access);
      refreshToken := Some(refresh);
      isAuthenticated := true;
      isLoading := false;
    }

    /** `setTokens`: only the two tokens change. */
    method SetTokens(access: string, refresh: string)
      modifies this
      ensures accessToken == Some(access) && refreshToken == Some(refresh)
      ensures user == old(user) && isAuthenticated == old(isAuthenticated) && isLoading == old(isLoading)
      ensures old(Valid()) ==> Valid()
    {
      accessToken := Some(access);
      refreshToken := Some(refresh);
    }

    /** `setLoading`: only the loading flag changes. */
    method SetLoading(loading: bool)
      modifies this
      ensures State() == old(State()).(isLoading := loading)
      ensures old(Valid()) ==> Valid()
    {
      isLoading := loading;
    }

    /** `logout`: back to the signed-out state, whatever came before. */
    method Logout()
      modifies this
      ensures State() == SignedOut
      ensures Valid()
    {
      user := None;
      accessToken := None;
      refreshToken := None;
      isAuthenticated := false;
      isLoading := false;
    }

    /** `updateUser`: only the user changes. */
    method UpdateUser(u: User)
      modifies this
      ensures State() == old(State()).(user := Some(u))
      ensures old(Valid()) ==> Valid()
    {
      user := Some(u);
    }
  }

  function SelectCurrentUser(s: AuthState): Option<User> {
    s.user
  }

  function SelectIsAuthenticated(s: AuthState): bool {
    s.isAuthenticated
  }

  /** `state.auth.user?.role === "admin"`. */
  function SelectIsAdmin(s: AuthState): (admin: bool)
    ensures admin <==> exists u :: s.user == Some(u) && u.role == "admin"
  {
    match s.user
    case None => false
    case Some(u) => u.role == "admin"
  }

  function SelectIsLoading(s: AuthState): bool {
    s.isLoading
  }

  /** The admin selector looks at the user alone, not at the session flag:
      a user set by `updateUser` after `logout` reads as an admin while the
      client is signed out. */
  lemma AdminWithoutSession(u: User)
    requires u.role == "admin"
    ensures SignedOut.(user := Some(u)) == AuthState(Some(u), None, None, false, false)
    ensures Consistent(SignedOut.(user := Some(u)))
    ensures SelectIsAdmin(SignedOut.(user := Some(u))) && !SelectIsAuthenticated(SignedOut.(user := Some(u)))
  {
  }
}

=== FILE: cache_keys.dfy ===
/**
 * The cache tags of the client's RTK Query API slice: the tag types it
 * declares, the ids a tag carries, and the rule by which an invalidated tag
 * marks a cached query entry stale.
 */
module CacheKeys {
  import opened Wrappers
  import opened JsText

  /** The `tagTypes` the API slice declares. */
  datatype TagType = User | Tag | Task | Call | CallTag | CallTask | SuggestedTask | TagTaskAssociation

  /** The `id` of a cache tag: an entity id, or a string such as "LIST". */
  datatype CacheId = Num(n: nat) | Text(s: string)

  const LIST: CacheId := Text("LIST")

  /** A tag a query entry provides: `{ type, id }`. */
  datatype Provided = Provided(kind: TagType, id: CacheId)

  /** A tag a mutation or a socket handler invalidates. `id` is `None` for a
      bare type string such as "Tag" and for an object without an `id`
      field; both invalidate every entry of the type. */
  datatype Invalidation = Invalidation(kind: TagType, id: Option<CacheId>)

  function Item(kind: TagType, id: CacheId): Invalidation {
    Invalidation(kind, Some(id))
  }

  function Whole(kind: TagType): Invalidation {
    Invalidation(kind, None)
  }

  /** The property name an id is filed under: the cache files provided tags
      in objects keyed by id, so a number is coerced to its decimal text. */
  function Key(id: CacheId): string {
    match id
    case Num(n) => NatToString(n)
    case Text(s) => s
  }

  /** An invalidated tag reaches a provided tag of its type when it has no
      id, or when both ids are filed under the same property name. */
  predicate Matches(inv: Invalidation, p: Provided) {
    inv.kind == p.kind && (inv.id.None? || Key(inv.id.value) == Key(p.id))
  }

  /** The invalidated tag `inv` marks an entry that provides `tags` stale. */
  predicate Hits(inv: Invalidation, tags: seq<Provided>) {
    exists p :: p in tags && Matches(inv, p)
  }

  /** Invalidating `invs` marks an entry that provides `tags` stale. */
  predicate Stales(invs: seq<Invalidation>, tags: seq<Provided>) {
    exists inv :: inv in invs && Hits(inv, tags)
  }

  /** The invalidated tag `inv` reaches the tag `kind`[`n`]. */
  predicate HitsNum(inv: Invalidation, kind: TagType, n: nat) {
    inv.kind == kind && (inv.id.None? || Key(inv.id.value) == NatToString(n))
  }

  /** Numeric ids are filed under the same name only when they are equal,
      and never under the name of LIST. */
  lemma NumKeys()
    ensures forall a: nat, b: nat :: Key(Num(a)) == Key(Num(b)) <==> a == b
    ensures forall a: nat :: Key(Num(a)) != Key(LIST)
  {
    forall a: nat, b: nat | Key(Num(a)) == Key(Num(b)) ensures a == b {
      NatToStringInjective(a, b);
    }
    forall a: nat ensures Key(Num(a)) != Key(LIST) {
      assert !IsDigit(Key(LIST)[0]);
    }
  }

  /** The tags of a list query, as `getAllCalls`, `getAllTags`, `getAllTasks`
      and `getSuggestedTasks` build them: `kind`[id] for each item of the
      result, then `kind` LIST; only `kind` LIST when there is no result. */
  function ListWithItems(kind: TagType, result: Option<seq<nat>>): (tags: seq<Provided>)
    ensures |tags| == (if result.Some? then |result.value| else 0) + 1
    ensures forall inv :: Hits(inv, tags) <==>
      || (inv.kind == kind && (inv.id.None? || Key(inv.id.value) == Key(LIST)))
      || (result.Some? && exists i :: 0 <= i < |result.value| && HitsNum(inv, kind, result.value[i]))
  {
    var items := if result.Some? then result.value else [];
    var tags := seq(|items|, i requires 0 <= i < |items| => Provided(kind, Num(items[i]))) + [Provided(kind, LIST)];
    ListHits(kind, items, tags);
    tags
  }

  lemma ListHits(kind: TagType, items: seq<nat>, tags: seq<Provided>)
    requires |tags| == |items| + 1 && tags[|items|] == Provided(kind, LIST)
    requires forall i :: 0 <= i < |items| ==> tags[i] == Provided(kind, Num(items[i]))
    ensures forall inv :: Hits(inv, tags) <==>
      || (inv.kind == kind && (inv.id.None? || Key(inv.id.value) == Key(LIST)))
      || exists i :: 0 <= i < |items| && HitsNum(inv, kind, items[i])
  {
    forall inv: Invalidation | Hits(inv, tags) && !(inv.kind == kind && (inv.id.None? || Key(inv.id.value) == Key(LIST)))
      ensures exists i :: 0 <= i < |items| && HitsNum(inv, kind, items[i])
    {
      var p :| p in tags && Matches(inv, p);
      var j :| 0 <= j < |tags| && tags[j] == p;
      assert j < |items| && HitsNum(inv, kind, items[j]);
    }
    forall inv: Invalidation | exists i :: 0 <= i < |items| && HitsNum(inv, kind, items[i])
      ensures Hits(inv, tags)
    {
      var i :| 0 <= i < |items| && HitsNum(inv, kind, items[i]);
      assert Matches(inv, tags[i]);
    }
    forall inv: Invalidation | inv.kind == kind && (inv.id.None? || Key(inv.id.value) == Key(LIST))
      ensures Hits(inv, tags)
    {
      assert Matches(inv, tags[|items|]);
    }
  }

  /** The single tag `kind`[`n`] of a by-id query. */
  function Single(kind: TagType, n: nat): (tags: seq<Provided>)
    ensures forall inv :: Hits(inv, tags) <==> HitsNum(inv, kind, n)
  {
    var tags := [Provided(kind, Num(n))];
    assert forall inv: Invalidation :: HitsNum(inv, kind, n) ==> Matches(inv, tags[0]);
    tags
  }

  /** A list of at most five invalidated tags stales an entry when one of
      its tags hits it. */
  lemma StalesExpand(invs: seq<Invalidation>, tags: seq<Provided>)
    requires |invs| <= 5
    ensures Stales(invs, tags) <==>
      || (|invs| > 0 && Hits(invs[0], tags)) || (|invs| > 1 && Hits(invs[1], tags))
      || (|invs| > 2 && Hits(invs[2], tags)) || (|invs| > 3 && Hits(invs[3], tags))
      || (|invs| > 4 && Hits(invs[4], tags))
  {
    if Stales(invs, tags) {
      var inv :| inv in invs && Hits(inv, tags);
      var i :| 0 <= i < |invs| && invs[i] == inv;
    }
  }
}

=== FILE: call_controller.dfy ===
/**
 * The handlers of calls: listing them, reading one, creating one. None of
 * them broadcasts anything.
 */
module CallController {
  import opened Wrappers
  import opened Http
  import opened Schema
  import opened Store
  import opened Sockets

  /** `GET /calls`: every call. */
  function GetAllCalls(t: Tables): (res: Response<set<Call>>)
    requires KeyedById(t)
    ensures res.Ok?
    ensures forall c :: c in res.data <==> c.id in t.calls && t.calls[c.id] == c
  {
    Ok(set k | k in t.calls :: t.calls[k])
  }

  /** `GET /calls/:id`: the call, or 404 when there is none. */
  function GetCallById(t: Tables, id: Id): (res: Response<Call>)
    requires KeyedById(t)
    ensures res.Ok? || res.NotFound?
    ensures res.NotFound? <==> id !in t.calls
    ensures res.NotFound? ==> res.message == "Call not found"
    ensures res.Ok? ==> res.data.id == id && t.calls[id] == res.data
  {
    if id !in t.calls then NotFound("Call not found") else Ok(t.calls[id])
  }

  /** `POST /calls` with body `{ name }`: a falsy name is refused and nothing
      is written; otherwise exactly one call is created with that name. */
  method CreateCall(db: Database, io: SocketService, name: Option<string>)
    returns (res: Response<Call>)
    requires db.Valid()
    modifies db
    ensures db.Valid()
    ensures Consistent(old(db.Snapshot())) ==> Consistent(db.Snapshot())
    ensures db.nextTagId == old(db.nextTagId) && db.nextTaskId == old(db.nextTaskId)
    ensures io.emitted == old(io.emitted)
    ensures !Truthy(name) ==>
      res == BadRequest("Call name is required") && db.Snapshot() == old(db.Snapshot()) &&
      db.nextCallId == old(db.nextCallId)
    ensures Truthy(name) ==>
      var call := Call(old(db.nextCallId), name.value);
      res == Created(call) && call.id !in old(db.calls) &&
      db.Snapshot() == old(db.Snapshot()).(calls := old(db.calls)[call.id := call]) &&
      db.nextCallId == old(db.nextCallId) + 1
  {
    if !Truthy(name) {
      return BadRequest("Call name is required");
    }
    var call := db.CreateCall(name.value);
    return Created(call);
  }
}

=== FILE: call_tag_controller.dfy ===
/**
 * The handlers that tag calls: adding several tags to a call in one
 * transaction, and listing the tags of a call.
 */
module CallTagController {
  import opened Wrappers
  import opened Http
  import opened Schema
  import opened Store
  import opened Sockets

  /** As many tags are found as ids were asked for exactly when the ids are
      distinct and all exist: a repeated id is reported like a missing one. */
  lemma {:induction false} FoundAllIffDistinctAndPresent(tags: map<Id, Tag>, ids: seq<Id>)
    ensures |FoundTagIds(tags, ids)| <= |ids|
    ensures |FoundTagIds(tags, ids)| == |ids| <==> Distinct(ids) && forall i :: 0 <= i < |ids| ==> ids[i] in tags
  {
    if ids == [] {
      assert FoundTagIds(tags, ids) == {};
    } else {
      var p, x := ids[..|ids| - 1], ids[|ids| - 1];
      assert ids == p + [x];
      FoundAllIffDistinctAndPresent(tags, p);
      DistinctSnoc(p, x);
      var fp := FoundTagIds(tags, p);
      if x in tags && x !in p {
        assert FoundTagIds(tags, ids) == fp + {x};
      } else {
        assert FoundTagIds(tags, ids) == fp;
      }
    }
  }

  /** The tags of `ids` not linked to the call yet: `call.addTags` inserts
      a row for each of these, in one statement, and skips the rest. */
  function NewTagIds(callTags: set<CallTag>, callId: Id, ids: set<Id>): (unlinked: set<Id>)
    ensures forall k :: k in unlinked <==> k in ids && CallTag(callId, k) !in callTags
  {
    set k | k in ids && CallTag(callId, k) !in callTags
  }

  /** Inserting only the unlinked tags leaves the same rows as linking
      every requested tag, and there is nothing to insert exactly when every
      requested tag is linked already. */
  lemma NewTagIdsSuffice(callTags: set<CallTag>, callId: Id, ids: set<Id>)
    ensures LinkTags(callTags, callId, NewTagIds(callTags, callId, ids)) == LinkTags(callTags, callId, ids)
    ensures NewTagIds(callTags, callId, ids) == {} <==> LinkTags(callTags, callId, ids) == callTags
  {
    if LinkTags(callTags, callId, ids) == callTags {
      forall k | k in ids ensures CallTag(callId, k) in callTags {
        assert CallTag(callId, k) in LinkTags(callTags, callId, ids);
      }
    }
  }

  /**
   * `POST /calls/:callId/tags` with body `{ tagIds }`; `tagIds` is `None`
   * when the field is absent or not an array. `storeFault` says that the
   * insert statement raises; the handler then rolls back and the exception
   * becomes a 500. Nothing is emitted on any path.
   */
  method AddTagsToCall(db: Database, io: SocketService, callId: Id, tagIds: Option<seq<Id>>,
                       storeFault: bool)
    returns (res: Response<()>)
    requires db.Valid()
    modifies db
    ensures db.Valid()
    ensures Consistent(old(db.Snapshot())) ==> Consistent(db.Snapshot())
    ensures io.emitted == old(io.emitted)
    ensures res.IsSuccess() ==> res == Ok(())
    ensures !res.IsSuccess() ==> db.Snapshot() == old(db.Snapshot())
    ensures tagIds.None? || tagIds.value == [] ==> res == BadRequest("Tag IDs array is required")
    ensures tagIds.Some? && tagIds.value != [] ==>
      if callId !in old(db.calls) then
        res == NotFound("Call not found")
      else if !(Distinct(tagIds.value) && forall i :: 0 <= i < |tagIds.value| ==> tagIds.value[i] in old(db.tags)) then
        res == BadRequest("One or more tags not found")
      else if storeFault && NewTagIds(old(db.callTags), callId, Elems(tagIds.value)) != {} then
        res == InternalError
      else
        res == Ok(()) &&
        db.Snapshot() == old(db.Snapshot()).(callTags := LinkTags(old(db.callTags), callId, Elems(tagIds.value)))
  {
    if tagIds.None? || tagIds.value == [] {
      return BadRequest("Tag IDs array is required");
    }
    var ids := tagIds.value;
    var tx := db.Transaction();
    if callId !in db.calls {
      db.Rollback(tx);
      return NotFound("Call not found");
    }
    var found := FoundTagIds(db.tags, ids);
    FoundAllIffDistinctAndPresent(db.tags, ids);
    if |found| != |ids| {
      db.Rollback(tx);
      return BadRequest("One or more tags not found");
    }
    assert found == Elems(ids);
    res := LinkTagsToCall(db, tx, callId, found, storeFault);
  }

  /** `call.addTags(tags)` and the commit: one insert statement for the
      links that are new, none when every tag is linked already. */
  method LinkTagsToCall(db: Database, tx: Tables, callId: Id, tagIds: set<Id>, storeFault: bool)
    returns (res: Response<()>)
    requires db.Valid() && tx == db.Snapshot()
    requires callId in db.calls && forall k :: k in tagIds ==> k in db.tags
    modifies db
    ensures db.Valid()
    ensures Consistent(old(db.Snapshot())) ==> Consistent(db.Snapshot())
    ensures storeFault && NewTagIds(old(db.callTags), callId, tagIds) != {} ==>
      res == InternalError && db.Snapshot() == old(db.Snapshot())
    ensures !(storeFault && NewTagIds(old(db.callTags), callId, tagIds) != {}) ==>
      res == Ok(()) && db.Snapshot() == old(db.Snapshot()).(callTags := LinkTags(old(db.callTags), callId, tagIds))
  {
    var unlinked := NewTagIds(db.callTags, callId, tagIds);
    if unlinked != {} {
      if storeFault {
        db.Rollback(tx);
        return InternalError;
      }
      db.AddCallTags(callId, unlinked);
    }
    assert LinkTags(old(db.callTags), callId, unlinked) == LinkTags(old(db.callTags), callId, tagIds);
    return Ok(());
  }

  /** `GET /calls/:callId/tags`: the tags linked to the call; 404 for an
      absent call. */
  function GetCallTags(t: Tables, callId: Id): (res: Response<set<Tag>>)
    requires KeyedById(t)
    ensures res.NotFound? <==> callId !in t.calls
    ensures res.NotFound? ==> res.message == "Call not found"
    ensures res.Ok? ==> forall tag :: tag in res.data <==>
      tag.id in t.tags && t.tags[tag.id] == tag && CallTag(callId, tag.id) in t.callTags
    ensures res.Ok? || res.NotFound?
  {
    if callId !in t.calls then NotFound("Call not found")
    else Ok(set k | k in t.tags && CallTag(callId, k) in t.callTags :: t.tags[k])
  }
}

=== FILE: call_task_controller.dfy ===
/**
 * The handlers that attach tasks to calls: listing the tasks of a call,
 * attaching an existing task or a new call-scoped one, and updating the
 * status of an attachment.
 */
module CallTaskController {
  import opened Wrappers
  import opened Http
  import opened Schema
  import opened Store
  import opened Sockets
  import opened Events

  /** The status a new link is written with: the request value, which
      defaults to "Open" only when the field is absent. `None` when the
      ENUM column rejects the value. */
  function RequestedStatus(taskStatus: Option<string>): (r: Option<TaskStatus>)
    ensures taskStatus.None? ==> r == Some(Open)
    ensures taskStatus.Some? ==> (r.Some? <==> taskStatus.value in ["Open", "In Progress", "Completed"])
    ensures r.Some? && taskStatus.Some? ==> StatusName(r.value) == taskStatus.value
  {
    if taskStatus.None? then Some(Open) else ParseTaskStatus(taskStatus.value)
  }

  /**
   * `POST /calls/:callId/tasks` with body `{ taskId, taskName, taskStatus }`.
   * A `taskId` that is absent or 0 and a `taskName` that is absent or "" are
   * falsy. `storeFault`, when present, is the index of the write of this
   * request that raises (the task insert comes before the link insert); the
   * handler then rolls back and the exception becomes a 500. A status the
   * ENUM column rejects makes the link insert raise.
   */
  method AddTaskToCall(db: Database, io: SocketService, callId: Id, taskId: Option<nat>,
                       taskName: Option<string>, taskStatus: Option<string>, storeFault: Option<nat>)
    returns (res: Response<()>)
    requires db.Valid()
    modifies db, io
    ensures db.Valid()
    ensures Consistent(old(db.Snapshot())) ==> Consistent(db.Snapshot())
    ensures db.nextCallId == old(db.nextCallId) && db.nextTagId == old(db.nextTagId)
    ensures !res.IsSuccess() ==> db.Snapshot() == old(db.Snapshot()) && io.emitted == old(io.emitted)
    ensures res.IsSuccess() ==> res == Created(())
    ensures callId !in old(db.calls) ==> res == NotFound("Call not found") && db.nextTaskId == old(db.nextTaskId)
    ensures callId in old(db.calls) && TruthyId(taskId) ==>
      var key := CallTaskKey(callId, taskId.value);
      db.nextTaskId == old(db.nextTaskId) &&
      if taskId.value !in old(db.tasks) then
        res == NotFound("Task not found")
      else if key in old(db.callTasks) then
        res == BadRequest("Task is already assigned to this call")
      else if RequestedStatus(taskStatus).None? || storeFault == Some(0) then
        res == InternalError
      else
        res == Created(()) &&
        db.Snapshot() == old(db.Snapshot()).(callTasks := old(db.callTasks)[key := RequestedStatus(taskStatus).value]) &&
        io.emitted == old(io.emitted) + [CallTaskAdded(callId, old(db.tasks)[taskId.value])]
    ensures callId in old(db.calls) && !TruthyId(taskId) && !Truthy(taskName) ==>
      res == BadRequest("Task name is required when creating a new task") && db.nextTaskId == old(db.nextTaskId)
    ensures callId in old(db.calls) && !TruthyId(taskId) && Truthy(taskName) ==>
      var task := Task(old(db.nextTaskId), taskName.value, false);
      var key := CallTaskKey(callId, task.id);
      if storeFault == Some(0) then
        res == InternalError && db.nextTaskId == old(db.nextTaskId)
      else if RequestedStatus(taskStatus).None? || storeFault == Some(1) then
        res == InternalError && db.nextTaskId == old(db.nextTaskId) + 1
      else
        res == Created(()) && db.nextTaskId == old(db.nextTaskId) + 1 && task.id !in old(db.tasks) &&
        db.Snapshot() == old(db.Snapshot()).(tasks := old(db.tasks)[task.id := task],
                                             callTasks := old(db.callTasks)[key := RequestedStatus(taskStatus).value]) &&
        io.emitted == old(io.emitted) + [CallTaskAdded(callId, task)]
  {
    var tx := db.Transaction();
    if callId !in db.calls {
      db.Rollback(tx);
      return NotFound("Call not found");
    }
    if TruthyId(taskId) {
      res := AttachExistingTask(db, io, tx, callId, taskId.value, taskStatus, storeFault == Some(0));
    } else {
      res := AttachNewTask(db, io, tx, callId, taskName, taskStatus, storeFault);
    }
  }

  /** The `taskId` branch of `AddTaskToCall`: the task must exist and must
      not be attached to the call yet; `linkFault` says the link insert raises. */
  method AttachExistingTask(db: Database, io: SocketService, tx: Tables, callId: Id, taskId: Id,
                            taskStatus: Option<string>, linkFault: bool)
    returns (res: Response<()>)
    requires db.Valid() && tx == db.Snapshot() && callId in db.calls
    modifies db, io
    ensures db.Valid()
    ensures Consistent(old(db.Snapshot())) ==> Consistent(db.Snapshot())
    ensures db.nextCallId == old(db.nextCallId) && db.nextTagId == old(db.nextTagId) && db.nextTaskId == old(db.nextTaskId)
    ensures !res.IsSuccess() ==> db.Snapshot() == old(db.Snapshot()) && io.emitted == old(io.emitted)
    ensures var key := CallTaskKey(callId, taskId);
      if taskId !in old(db.tasks) then
        res == NotFound("Task not found")
      else if key in old(db.callTasks) then
        res == BadRequest("Task is already assigned to this call")
      else if RequestedStatus(taskStatus).None? || linkFault then
        res == InternalError
      else
        res == Created(()) &&
        db.Snapshot() == old(db.Snapshot()).(callTasks := old(db.callTasks)[key := RequestedStatus(taskStatus).value]) &&
        io.emitted == old(io.emitted) + [CallTaskAdded(callId, old(db.tasks)[taskId])]
  {
    if taskId !in db.tasks {
      db.Rollback(tx);
      return NotFound("Task not found");
    }
    var task := db.tasks[taskId];
    if CallTaskKey(callId, task.id) in db.callTasks {
      db.Rollback(tx);
      return BadRequest("Task is already assigned to this call");
    }
    res := LinkTask(db, io, tx, callId, task, taskStatus, linkFault);
  }

  /** The `taskName` branch of `AddTaskToCall`: a call-scoped task is
      created, then linked; `storeFault` is the index of the write that
      raises. */
  method AttachNewTask(db: Database, io: SocketService, tx: Tables, callId: Id, taskName: Option<string>,
                       taskStatus: Option<string>, storeFault: Option<nat>)
    returns (res: Response<()>)
    requires db.Valid() && tx == db.Snapshot() && callId in db.calls
    modifies db, io
    ensures db.Valid()
    ensures Consistent(old(db.Snapshot())) ==> Consistent(db.Snapshot())
    ensures db.nextCallId == old(db.nextCallId) && db.nextTagId == old(db.nextTagId)
    ensures !res.IsSuccess() ==> db.Snapshot() == old(db.Snapshot()) && io.emitted == old(io.emitted)
    ensures !Truthy(taskName) ==>
      res == BadRequest("Task name is required when creating a new task") && db.nextTaskId == old(db.nextTaskId)
    ensures Truthy(taskName) ==>
      var task := Task(old(db.nextTaskId), taskName.value, false);
      var key := CallTaskKey(callId, task.id);
      if storeFault == Some(0) then
        res == InternalError && db.nextTaskId == old(db.nextTaskId)
      else if RequestedStatus(taskStatus).None? || storeFault == Some(1) then
        res == InternalError && db.nextTaskId == old(db.nextTaskId) + 1
      else
        res == Created(()) && db.nextTaskId == old(db.nextTaskId) + 1 && task.id !in old(db.tasks) &&
        db.Snapshot() == old(db.Snapshot()).(tasks := old(db.tasks)[task.id := task],
                                             callTasks := old(db.callTasks)[key := RequestedStatus(taskStatus).value]) &&
        io.emitted == old(io.emitted) + [CallTaskAdded(callId, task)]
  {
    if !Truthy(taskName) {
      db.Rollback(tx);
      return BadRequest("Task name is required when creating a new task");
    }
    if storeFault == Some(0) {
      db.Rollback(tx);
      return InternalError;
    }
    var task := db.CreateTask(taskName.value, false);
    res := LinkTask(db, io, tx, callId, task, taskStatus, storeFault == Some(1));
    if Consistent(tx) {
      ConsistentWhenLinksKept(tx, db.Snapshot());
    }
  }

  /** `call.addTask(task, { through: { taskStatus } })`, the commit and the
      broadcast that follows it; `linkFault` says that the insert raises,
      and a status the ENUM column rejects makes it raise too. On failure
      the transaction opened at `tx` is rolled back. */
  method LinkTask(db: Database, io: SocketService, tx: Tables, callId: Id, task: Task,
                  taskStatus: Option<string>, linkFault: bool)
    returns (res: Response<()>)
    requires db.Valid() && SchemaValid(tx) && db.Allocated(tx)
    requires callId in db.calls && task.id in db.tasks && db.tasks[task.id] == task
    requires CallTaskKey(callId, task.id) !in db.callTasks
    modifies db, io
    ensures db.Valid()
    ensures db.nextCallId == old(db.nextCallId) && db.nextTagId == old(db.nextTagId) && db.nextTaskId == old(db.nextTaskId)
    ensures res == InternalError || res == Created(())
    ensures res == InternalError <==> RequestedStatus(taskStatus).None? || linkFault
    ensures res == InternalError ==> db.Snapshot() == tx && io.emitted == old(io.emitted)
    ensures res == Created(()) ==>
      db.Snapshot() == old(db.Snapshot()).(callTasks := old(db.callTasks)[CallTaskKey(callId, task.id) := RequestedStatus(taskStatus).value]) &&
      io.emitted == old(io.emitted) + [CallTaskAdded(callId, task)]
  {
    var status := RequestedStatus(taskStatus);
    if status.None? || linkFault {
      db.Rollback(tx);
      return InternalError;
    }
    db.AddCallTask(CallTaskKey(callId, task.id), status.value);
    // committed; the broadcast follows the commit
    io.Emit(CallTaskAdded(callId, task));
    return Created(());
  }

  /**
   * `PATCH /calls/:callId/tasks/:taskId` with body `{ taskStatus }`. The
   * event carries the row as it was read, and is broadcast before the write;
   * `storeFault` says that the write raises, after the broadcast.
   */
  method UpdateCallTaskStatus(db: Database, io: SocketService, callId: Id, taskId: Id,
                              taskStatus: Option<string>, storeFault: bool)
    returns (res: Response<CallTask>)
    requires db.Valid()
    modifies db, io
    ensures db.Valid()
    ensures Consistent(old(db.Snapshot())) ==> Consistent(db.Snapshot())
    ensures db.nextCallId == old(db.nextCallId) && db.nextTagId == old(db.nextTagId) && db.nextTaskId == old(db.nextTaskId)
    ensures !res.Ok? ==> db.Snapshot() == old(db.Snapshot())
    ensures taskStatus.None? || ParseTaskStatus(taskStatus.value).None? ==>
      res == BadRequest("Valid status is required (Open, In Progress, or Completed)") && io.emitted == old(io.emitted)
    ensures taskStatus.Some? && ParseTaskStatus(taskStatus.value).Some? ==>
      var status := ParseTaskStatus(taskStatus.value).value;
      var key := CallTaskKey(callId, taskId);
      if key !in old(db.callTasks) then
        res == NotFound("Task assignment not found for this call") && io.emitted == old(io.emitted)
      else
        io.emitted == old(io.emitted) + [CallTaskStatusUpdated(callId, taskId, status, CallTask(callId, taskId, old(db.callTasks)[key]))] &&
        if storeFault then res == InternalError
        else res == Ok(CallTask(callId, taskId, status)) &&
             db.Snapshot() == old(db.Snapshot()).(callTasks := old(db.callTasks)[key := status])
  {
    if taskStatus.None? || ParseTaskStatus(taskStatus.value).None? {
      return BadRequest("Valid status is required (Open, In Progress, or Completed)");
    }
    var status := ParseTaskStatus(taskStatus.value).value;
    var key := CallTaskKey(callId, taskId);
    if key !in db.callTasks {
      return NotFound("Task assignment not found for this call");
    }
    var row := CallTask(callId, taskId, db.callTasks[key]);
    io.Emit(CallTaskStatusUpdated(callId, taskId, status, row));
    if storeFault {
      return InternalError;
    }
    db.SetCallTaskStatus(key, status);
    return Ok(row.(taskStatus := status));
  }

  /** One element of `GET /calls/:callId/tasks`: a `call_task` row with its
      task projected to id and name. */
  datatype CallTaskEntry = CallTaskEntry(callId: Id, taskId: Id, taskStatus: TaskStatus, task: TaskRef)

  /** `GET /calls/:callId/tasks`: one entry per task attached to the call,
      with the status of the attachment; 404 for an absent call. */
  function GetCallTasks(t: Tables, callId: Id): (res: Response<set<CallTaskEntry>>)
    requires SchemaValid(t)
    ensures res.Ok? || res.NotFound?
    ensures res.NotFound? <==> callId !in t.calls
    ensures res.NotFound? ==> res.message == "Call not found"
    ensures res.Ok? ==> forall e :: e in res.data <==>
      var key := CallTaskKey(e.callId, e.taskId);
      e.callId == callId && key in t.callTasks && t.callTasks[key] == e.taskStatus && e.task == RefOf(t.tasks[e.taskId])
  {
    if callId !in t.calls then NotFound("Call not found")
    else Ok(set k | k in t.callTasks && k.callId == callId ::
              CallTaskEntry(callId, k.taskId, t.callTasks[k], RefOf(t.tasks[k.taskId])))
  }
}

=== FILE: calls_api.dfy ===
/**
 * The call endpoints of the client's API slice: the cache tags each query
 * provides and each mutation invalidates.
 */
module CallsApi {
  import opened Wrappers
  import opened CacheKeys

  /** `getAllCalls`: Call[id] for each call, then Call LIST. */
  function GetAllCalls(result: Option<seq<nat>>): seq<Provided> {
    ListWithItems(Call, result)
  }

  /** `getCallById(id)`. */
  function GetCallById(id: nat): seq<Provided> {
    Single(Call, id)
  }

  /** `createCall`. */
  function CreateCall(): seq<Invalidation> {
    [Item(Call, LIST)]
  }

  /** `getCallTags(callId)`. */
  function GetCallTags(callId: nat): seq<Provided> {
    Single(CallTag, callId)
  }

  /** `addTagsToCall({ callId })`. */
  function AddTagsToCall(callId: nat): seq<Invalidation> {
    [Item(CallTag, Num(callId)), Item(Call, Num(callId))]
  }

  /** `getCallTasks(callId)`. */
  function GetCallTasks(callId: nat): seq<Provided> {
    Single(CallTask, callId)
  }

  /** `addTaskToCall({ callId })`. */
  function AddTaskToCall(callId: nat): seq<Invalidation> {
    [Item(CallTask, Num(callId)), Item(Call, Num(callId))]
  }

  /** `updateCallTaskStatus({ callId, taskId })`: its CallTask tag carries
      `callId` and `taskId` fields but no `id`, so it names the whole type. */
  function UpdateCallTaskStatus(callId: nat, taskId: nat): seq<Invalidation> {
    [Whole(CallTask), Item(Call, Num(callId))]
  }
}

=== FILE: error_handler.dfy ===
/**
 * The classification of a failed request into a message for the user. The
 * error reaches the client as an arbitrary JavaScript value, so the model
 * takes any such value, not only the two shapes the types promise.
 */
module ErrorHandler {
  import opened JsText
  import Wrappers

  /** A JavaScript value. Numbers are integers here. */
  datatype JsValue =
    | Undefined
    | Null
    | Bool(b: bool)
    | Number(n: int)
    | Str(s: string)
    | Object(fields: map<string, JsValue>)

  /** `!!v`. */
  predicate Truthy(v: JsValue) {
    match v
    case Undefined => false
    case Null => false
    case Bool(b) => b
    case Number(n) => n != 0
    case Str(s) => s != ""
    case Object(_) => true
  }

  /** The property `key` of an object; `undefined` when it is absent. */
  function Get(v: JsValue, key: string): (r: JsValue)
    requires v.Object?
    ensures key !in v.fields ==> r == Undefined
  {
    if key in v.fields then v.fields[key] else Undefined
  }

  /** `${v}` for the values an error status can hold. */
  function ToJsString(v: JsValue): (r: string)
    ensures v.Str? ==> r == v.s
    ensures v.Number? ==> r == IntToString(v.n)
  {
    match v
    case Undefined => "undefined"
    case Null => "null"
    case Bool(b) => if b then "true" else "false"
    case Number(n) => IntToString(n)
    case Str(s) => s
    case Object(_) => "[object Object]"
  }

  /** A non-null object with a `status` property. */
  predicate IsFetchBaseQueryError(error: JsValue) {
    error.Object? && "status" in error.fields
  }

  /** A non-null object with a `message` property and no `status`. */
  predicate IsSerializedError(error: JsValue) {
    error.Object? && "message" in error.fields && "status" !in error.fields
  }

  /** No value passes both guards: one demands `status`, the other its
      absence. */
  lemma GuardsExclusive(error: JsValue)
    ensures !(IsFetchBaseQueryError(error) && IsSerializedError(error))
    ensures error.Object? && "message" in error.fields ==> IsFetchBaseQueryError(error) || IsSerializedError(error)
  {
  }

  const UnknownError := "An unknown error occurred"
  const NetworkError := "Network error - please check your connection"
  const TimeoutError := "Request timeout - please try again"
  const GenericError := "An error occurred"
  const ServerErrorPrefix := "Server error: "

  /** `data.message` when `data` is a non-null object whose `message` is a
      string. */
  function DataMessage(error: JsValue): (m: Wrappers.Option<string>)
    requires error.Object?
    ensures m.Some? <==> Get(error, "data").Object? && Get(Get(error, "data"), "message").Str?
    ensures m.Some? ==> m.value == Get(Get(error, "data"), "message").s
  {
    var data := Get(error, "data");
    if data.Object? && Get(data, "message").Str? then Wrappers.Some(Get(data, "message").s) else Wrappers.None
  }

  /**
   * `getErrorMessage`. The result is a JavaScript value because
   * `error.message || "An error occurred"` passes on a truthy `message`
   * whatever its type; every other path yields a string.
   */
  function GetErrorMessage(error: JsValue): JsValue
  {
    if !Truthy(error) then Str(UnknownError)
    else if IsFetchBaseQueryError(error) then
      var status := Get(error, "status");
      if status == Str("FETCH_ERROR") then Str(NetworkError)
      else if status == Str("TIMEOUT_ERROR") then Str(TimeoutError)
      else match DataMessage(error)
        case Some(m) => Str(m)
        case None => Str(ServerErrorPrefix + ToJsString(status))
    else if IsSerializedError(error) then
      var message := Get(error, "message");
      if Truthy(message) then message else Str(GenericError)
    else Str(UnknownError)
  }

  /** A falsy value (`undefined` above all) gives the unknown-error text. */
  lemma FalsyIsUnknown(error: JsValue)
    requires !Truthy(error)
    ensures GetErrorMessage(error) == Str(UnknownError)
  {
  }

  /** A request that failed in transport or timed out gets its fixed text,
      whatever else the error holds. */
  lemma TransportFailures(fields: map<string, JsValue>)
    ensures GetErrorMessage(Object(fields["status" := Str("FETCH_ERROR")])) == Str(NetworkError)
    ensures GetErrorMessage(Object(fields["status" := Str("TIMEOUT_ERROR")])) == Str(TimeoutError)
  {
    assert Get(Object(fields["status" := Str("FETCH_ERROR")]), "status") == Str("FETCH_ERROR");
    assert Get(Object(fields["status" := Str("TIMEOUT_ERROR")]), "status") == Str("TIMEOUT_ERROR");
  }

  /** A server message in the body wins over the status, whatever it is,
      unless the request never reached the server. */
  lemma ServerMessageWins(status: JsValue, text: string)
    requires status != Str("FETCH_ERROR") && status != Str("TIMEOUT_ERROR")
    ensures GetErrorMessage(Object(map["status" := status, "data" := Object(map["message" := Str(text)])])) == Str(text)
  {
    var error := Object(map["status" := status, "data" := Object(map["message" := Str(text)])]);
    assert Truthy(error) && IsFetchBaseQueryError(error);
    assert Get(error, "status") == status;
    assert DataMessage(error) == Wrappers.Some(text);
  }

  /** A body whose `message` is not a string does not count: the status is
      reported instead. */
  lemma NonTextMessageIgnored(status: int, message: JsValue)
    requires !message.Str?
    ensures GetErrorMessage(Object(map["status" := Number(status), "data" := Object(map["message" := message])])) ==
      Str(ServerErrorPrefix + IntToString(status))
  {
    var error := Object(map["status" := Number(status), "data" := Object(map["message" := message])]);
    assert Get(error, "status") == Number(status);
    assert DataMessage(error).None?;
  }

  /** A server answer with a numeric status and no body is reported as
      "Server error: " and the decimal status. */
  lemma NumericStatusReported(status: int, fields: map<string, JsValue>)
    requires "data" !in fields
    ensures GetErrorMessage(Object(fields["status" := Number(status)])) ==
      Str(ServerErrorPrefix + IntToString(status))
  {
    var error := Object(fields["status" := Number(status)]);
    assert Truthy(error) && IsFetchBaseQueryError(error);
    assert Get(error, "data") == Undefined;
  }

  /** A serialized error gives its message, or the generic text when the
      message is empty. */
  lemma SerializedMessage(fields: map<string, JsValue>, text: string)
    requires "status" !in fields
    ensures GetErrorMessage(Object(fields["message" := Str(text)])) ==
      if text == "" then Str(GenericError) else Str(text)
  {
    var error := Object(fields["message" := Str(text)]);
    assert IsSerializedError(error) && Get(error, "message") == Str(text);
  }

  /** An object with neither `status` nor `message` is unknown. */
  lemma UnrecognisedIsUnknown(fields: map<string, JsValue>)
    requires "status" !in fields && "message" !in fields
    ensures GetErrorMessage(Object(fields)) == Str(UnknownError)
  {
  }

  /** Every message is a string unless a serialized error carries a truthy
      message that is not one, and it is empty only when the server sent an
      empty message. */
  lemma MessageIsText(error: JsValue)
    ensures GetErrorMessage(error).Str? || (IsSerializedError(error) && !Get(error, "message").Str?)
    ensures GetErrorMessage(error).Str? && GetErrorMessage(error).s == "" ==>
      IsFetchBaseQueryError(error) && DataMessage(error) == Wrappers.Some("")
  {
  }
}

=== FILE: events.dfy ===
/**
 * The domain events the server broadcasts over Socket.IO and the client
 * listens for: a closed union of the nine event kinds with their payloads.
 */
module Events {
  import opened Schema

  datatype Event =
    | TagCreated(tag: Tag)
    | TagUpdated(tag: Tag)
    | TaskCreated(task: Task)
    | TaskUpdated(task: Task)
    | CallCreated(call: Call)
    | CallTagsAdded(callId: Id, tagIds: seq<Id>)
    | CallTaskAdded(callId: Id, task: Task)
      /** `callTask` is the row as it was read, before the status update. */
    | CallTaskStatusUpdated(callId: Id, taskId: Id, taskStatus: TaskStatus, callTask: CallTask)
    | TagSuggestedTaskAdded(tagId: Id, taskId: Id)

  /** The Socket.IO event name of each kind. */
  function Name(e: Event): string {
    match e
    case TagCreated(_) => "tagCreated"
    case TagUpdated(_) => "tagUpdated"
    case TaskCreated(_) => "taskCreated"
    case TaskUpdated(_) => "taskUpdated"
    case CallCreated(_) => "callCreated"
    case CallTagsAdded(_, _) => "callTagsAdded"
    case CallTaskAdded(_, _) => "callTaskAdded"
    case CallTaskStatusUpdated(_, _, _, _) => "callTaskStatusUpdated"
    case TagSuggestedTaskAdded(_, _) => "tagSuggestedTaskAdded"
  }

  /** The nine names, in the order the client registers its listeners. */
  const EventNames: seq<string> := [
    "tagCreated", "tagUpdated", "taskCreated", "taskUpdated", "callCreated",
    "callTagsAdded", "callTaskAdded", "callTaskStatusUpdated", "tagSuggestedTaskAdded"
  ]

  predicate SameKind(a: Event, b: Event) {
    && a.TagCreated? == b.TagCreated? && a.TagUpdated? == b.TagUpdated?
    && a.TaskCreated? == b.TaskCreated? && a.TaskUpdated? == b.TaskUpdated?
    && a.CallCreated? == b.CallCreated? && a.CallTagsAdded? == b.CallTagsAdded?
    && a.CallTaskAdded? == b.CallTaskAdded?
    && a.CallTaskStatusUpdated? == b.CallTaskStatusUpdated?
    && a.TagSuggestedTaskAdded? == b.TagSuggestedTaskAdded?
  }

  /** Two events share a name exactly when they are of the same kind, and
      every name is one of the nine. */
  lemma NameIdentifiesKind(a: Event, b: Event)
    ensures Name(a) in EventNames
    ensures Name(a) == Name(b) <==> SameKind(a, b)
  {
  }
}

=== FILE: js_text.dfy ===
/**
 * The pieces of JavaScript string semantics that the controllers and the
 * client utilities rely on: `String.prototype.trim`, the regex class `\s`,
 * UTF-16 `length`, and the decimal rendering of integers (`${n}`, `String(n)`).
 */
module JsText {

  /** ECMAScript WhiteSpace and LineTerminator code points: exactly what
      `trim()` strips and what the regular-expression class `\s` matches. */
  predicate IsWhitespace(c: char) {
    || c == '\t' || c == '\n' || c == '\U{000B}' || c == '\U{000C}' || c == '\r' || c == ' '
    || c == '\U{00A0}' || c == '\U{1680}' || ('\U{2000}' <= c <= '\U{200A}')
    || c == '\U{2028}' || c == '\U{2029}' || c == '\U{202F}' || c == '\U{205F}'
    || c == '\U{3000}' || c == '\U{FEFF}'
  }

  /** Every character of `s` is whitespace (the empty string included). */
  predicate IsBlank(s: string) {
    forall i :: 0 <= i < |s| ==> IsWhitespace(s[i])
  }

  /** The index of the first character of `s` at or after `i` that is not
      whitespace, or `|s|` when there is none. */
  function ContentStart(s: string, i: nat): (k: nat)
    requires i <= |s|
    ensures i <= k <= |s|
    ensures forall j :: i <= j < k ==> IsWhitespace(s[j])
    ensures k < |s| ==> !IsWhitespace(s[k])
    decreases |s| - i
  {
    if i < |s| && IsWhitespace(s[i]) then ContentStart(s, i + 1) else i
  }

  /** Scanning down from `i` to `lo`: the index just past the last character
      of `s[lo..i]` that is not whitespace, or `lo` when there is none. */
  function ContentEnd(s: string, lo: nat, i: nat): (k: nat)
    requires lo <= i <= |s|
    ensures lo <= k <= i
    ensures forall j :: k <= j < i ==> IsWhitespace(s[j])
    ensures k > lo ==> !IsWhitespace(s[k - 1])
  {
    if i > lo && IsWhitespace(s[i - 1]) then ContentEnd(s, lo, i - 1) else i
  }

  /** `s.trim()`: the slice `s[i..i + |r|]` left after removing the
      whitespace at both ends; everything outside it is whitespace. */
  function Trim(s: string): (r: string)
    ensures |r| <= |s|
    ensures r != [] ==> !IsWhitespace(r[0]) && !IsWhitespace(r[|r| - 1])
    ensures var i := ContentStart(s, 0);
      && i + |r| <= |s| && r == s[i..i + |r|]
      && forall j :: 0 <= j < |s| && !(i <= j < i + |r|) ==> IsWhitespace(s[j])
  {
    var i := ContentStart(s, 0);
    s[i..ContentEnd(s, i, |s|)]
  }

  /** `s.trim() === ""` holds exactly when `s` is all whitespace. */
  lemma TrimEmptyIffBlank(s: string)
    ensures Trim(s) == [] <==> IsBlank(s)
  {
    var r := Trim(s);
    var i := ContentStart(s, 0);
    if r != [] {
      assert s[i] == r[0];
    }
  }

  /** Trimming is idempotent. */
  lemma TrimIdempotent(s: string)
    ensures Trim(Trim(s)) == Trim(s)
  {
    var r := Trim(s);
    assert ContentStart(r, 0) == 0;
    assert ContentEnd(r, 0, |r|) == |r|;
  }

  /** `s.length`: the number of UTF-16 code units, two for a code point
      outside the Basic Multilingual Plane. */
  function Utf16Length(s: string): (n: nat)
    ensures |s| <= n <= 2 * |s|
    ensures n == |s| <==> forall i :: 0 <= i < |s| ==> s[i] as int <= 0xFFFF
  {
    if s == [] then 0
    else (if s[0] as int > 0xFFFF then 2 else 1) + Utf16Length(s[1..])
  }

  predicate IsDigit(c: char) {
    '0' <= c <= '9'
  }

  function DigitChar(d: nat): (c: char)
    requires d < 10
    ensures IsDigit(c) && c as int - '0' as int == d
  {
    ('0' as int + d) as char
  }

  /** The decimal rendering of a natural number, as `${n}` and `String(n)` give it. */
  function NatToString(n: nat): (r: string)
    ensures r != [] && forall i :: 0 <= i < |r| ==> IsDigit(r[i])
    ensures n < 10 <==> |r| == 1
  {
    if n < 10 then [DigitChar(n)] else NatToString(n / 10) + [DigitChar(n % 10)]
  }

  /** Distinct numbers have distinct decimal renderings. */
  lemma {:induction false} NatToStringInjective(a: nat, b: nat)
    requires NatToString(a) == NatToString(b)
    ensures a == b
  {
    var s := NatToString(a);
    if a >= 10 && b >= 10 {
      assert s[|s| - 1] == DigitChar(a % 10) && s[|s| - 1] == DigitChar(b % 10);
      assert NatToString(a / 10) == s[..|s| - 1] == NatToString(b / 10);
      NatToStringInjective(a / 10, b / 10);
    }
  }

  /** The decimal rendering of an integer, with a leading '-' when negative. */
  function IntToString(n: int): (r: string)
    ensures r != []
    ensures n >= 0 ==> r == NatToString(n)
    ensures n < 0 ==> r[0] == '-' && r[1..] == NatToString(-n)
  {
    if n < 0 then "-" + NatToString(-n) else NatToString(n)
  }
}

=== FILE: modal_state.dfy ===
/**
 * The open/closed flags of the named modal dialogs of a page: a record from
 * modal names to flags, which starts empty and which the page opens,
 * closes and clears.
 */
module ModalState {
  /** `modals[name] || false`: a name with no entry is closed. */
  function IsOpenIn(modals: map<string, bool>, name: string): (open: bool)
    ensures open ==> name in modals
    ensures name in modals ==> open == modals[name]
  {
    name in modals && modals[name]
  }

  class Modals {
    var modals: map<string, bool>

    /** `useState({})`: every name is closed. */
    constructor()
      ensures modals == map[]
      ensures forall name :: !IsModalOpen(name)
    {
      modals := map[];
    }

    function IsModalOpen(name: string): bool
      reads this
    {
      IsOpenIn(modals, name)
    }

    /** `{ ...prev, [name]: true }`. */
    method OpenModal(name: string)
      modifies this
      ensures modals == old(modals)[name := true]
      ensures IsModalOpen(name)
      ensures forall other :: other != name ==> IsModalOpen(other) == old(IsModalOpen(other))
    {
      modals := modals[name := true];
    }

    /** `{ ...prev, [name]: false }`. */
    method CloseModal(name: string)
      modifies this
      ensures modals == old(modals)[name := false]
      ensures !IsModalOpen(name)
      ensures forall other :: other != name ==> IsModalOpen(other) == old(IsModalOpen(other))
    {
      modals := modals[name := false];
    }

    /** `setModals({})`. */
    method CloseAllModals()
      modifies this
      ensures modals == map[]
      ensures forall name :: !IsModalOpen(name)
    {
      modals := map[];
    }
  }

  /** Opening a modal twice is opening it once, and so is closing; each
      leaves the flags of the other names as they were. */
  lemma OpenCloseIdempotent(modals: map<string, bool>, name: string)
    ensures modals[name := true][name := true] == modals[name := true]
    ensures modals[name := false][name := false] == modals[name := false]
    ensures forall other :: other != name ==>
      IsOpenIn(modals[name := true], other) == IsOpenIn(modals, other) == IsOpenIn(modals[name := false], other)
  {
  }

  /** Closing after opening and closing alone give the same answer for
      every name, though the first leaves an entry behind; for a name that
      had no entry, opening then closing changes no answer. */
  lemma CloseUndoesOpen(modals: map<string, bool>, name: string, other: string)
    ensures IsOpenIn(modals[name := true][name := false], other) == IsOpenIn(modals[name := false], other)
    ensures name !in modals ==> IsOpenIn(modals[name := true][name := false], other) == IsOpenIn(modals, other)
  {
  }
}

=== FILE: protected_route.dfy ===
/**
 * The guard around a protected page: it sends a signed-out visitor to the
 * login page, a visitor without the required role to the unauthorized
 * page, and renders the page for everyone else.
 */
module ProtectedRoute {
  import opened Wrappers
  import opened AuthSlice

  datatype Outcome = Render | Redirect(to: string)

  const LoginPath := "/login"
  const UnauthorizedPath := "/unauthorized"

  /** The role a visitor's user holds, read with `user?.role`. */
  predicate HasRole(user: Option<User>, role: string) {
    user.Some? && user.value.role == role
  }

  /**
   * The if-chain of the guard, on what the session hook hands it. The
   * required role is free text: the routes pass "admin", "user" and also
   * "both", which no branch names, or nothing.
   */
  function Decide(isAuthenticated: bool, isAdmin: bool, user: Option<User>, requiredRole: Option<string>): (o: Outcome)
    ensures o == Render || o == Redirect(LoginPath) || o == Redirect(UnauthorizedPath)
    ensures o == Redirect(LoginPath) <==> !isAuthenticated
  {
    if !isAuthenticated then Redirect(LoginPath)
    else if requiredRole == Some("admin") && !isAdmin then Redirect(UnauthorizedPath)
    else if requiredRole == Some("user") && !HasRole(user, "user") then Redirect(UnauthorizedPath)
    else Render
  }

  /** The guard fed from the session record through its selectors. */
  function Guard(s: AuthState, requiredRole: Option<string>): Outcome {
    Decide(SelectIsAuthenticated(s), SelectIsAdmin(s), SelectCurrentUser(s), requiredRole)
  }

  /** The page renders exactly when the visitor is signed in and holds the
      role the route names, if it names "admin" or "user". */
  lemma RenderIff(isAuthenticated: bool, isAdmin: bool, user: Option<User>, requiredRole: Option<string>)
    ensures Decide(isAuthenticated, isAdmin, user, requiredRole) == Render <==>
      && isAuthenticated
      && (requiredRole == Some("admin") ==> isAdmin)
      && (requiredRole == Some("user") ==> HasRole(user, "user"))
  {
  }

  /** A signed-out visitor goes to the login page whatever the route asks. */
  lemma SignedOutToLogin(s: AuthState, requiredRole: Option<string>)
    requires !s.isAuthenticated
    ensures Guard(s, requiredRole) == Redirect(LoginPath)
  {
  }

  /** An admin-only route turns away every signed-in user whose role is not
      "admin", and admits every admin. */
  lemma AdminRoute(s: AuthState)
    requires s.isAuthenticated
    ensures Guard(s, Some("admin")) == Render <==> HasRole(s.user, "admin")
    ensures Guard(s, Some("admin")) != Render ==> Guard(s, Some("admin")) == Redirect(UnauthorizedPath)
  {
  }

  /** A user-only route turns away every signed-in visitor whose role is not
      "user", admins included. */
  lemma UserRoute(s: AuthState)
    requires s.isAuthenticated
    ensures Guard(s, Some("user")) == Render <==> HasRole(s.user, "user")
    ensures HasRole(s.user, "admin") ==> Guard(s, Some("user")) == Redirect(UnauthorizedPath)
  {
  }

  /** Any other required role, "both" or none, admits every signed-in
      visitor. */
  lemma OtherRoutes(s: AuthState, requiredRole: Option<string>)
    requires s.isAuthenticated
    requires requiredRole != Some("admin") && requiredRole != Some("user")
    ensures Guard(s, requiredRole) == Render
  {
  }

  /** No visitor reaches both an admin-only and a user-only page. */
  lemma RoleRoutesDisjoint(s: AuthState)
    ensures !(Guard(s, Some("admin")) == Render && Guard(s, Some("user")) == Render)
  {
  }
}

=== FILE: query_cache.dfy ===
/**
 * The client's query cache as its invalidation rules see it: every cached
 * query entry with the tags it provides, every mutation with the tags it
 * invalidates, and which entries each mutation marks stale.
 */
module QueryCache {
  import opened Wrappers
  import opened CacheKeys
  import CallsApi
  import TagsApi
  import TasksApi
  import AdminApi

  /** A cached query entry: the endpoint, its argument, and for the list
      queries the ids of the items it holds (`None` before a result). */
  datatype Query =
    | GetAllCalls(calls: Option<seq<nat>>)
    | GetCallById(id: nat)
    | GetCallTags(callId: nat)
    | GetCallTasks(callId: nat)
    | GetAllTags(tags: Option<seq<nat>>)
    | GetTagById(id: nat)
    | GetTagSuggestedTasks(tagId: nat)
    | GetAllTasks(tasks: Option<seq<nat>>)
    | GetTaskById(id: nat)
    | GetSuggestedTasks(tasks: Option<seq<nat>>)
    | GetAllTagTaskAssociations(links: Option<seq<AdminApi.Link>>)

  function Provides(q: Query): seq<Provided> {
    match q
    case GetAllCalls(r) => CallsApi.GetAllCalls(r)
    case GetCallById(id) => CallsApi.GetCallById(id)
    case GetCallTags(callId) => CallsApi.GetCallTags(callId)
    case GetCallTasks(callId) => CallsApi.GetCallTasks(callId)
    case GetAllTags(r) => TagsApi.GetAllTags(r)
    case GetTagById(id) => TagsApi.GetTagById(id)
    case GetTagSuggestedTasks(tagId) => TagsApi.GetTagSuggestedTasks(tagId)
    case GetAllTasks(r) => TasksApi.GetAllTasks(r)
    case GetTaskById(id) => TasksApi.GetTaskById(id)
    case GetSuggestedTasks(r) => TasksApi.GetSuggestedTasks(r)
    case GetAllTagTaskAssociations(r) => AdminApi.GetAllTagTaskAssociations(r)
  }

  /** A mutation with its arguments. */
  datatype Mutation =
    | CreateCall
    | AddTagsToCall(callId: nat)
    | AddTaskToCall(callId: nat)
    | UpdateCallTaskStatus(callId: nat, taskId: nat)
    | CreateTag
    | UpdateTag(id: nat)
    | AddSuggestedTaskToTag(tagId: nat)
    | DeleteTag(id: nat)
    | CreateSuggestedTask
    | UpdateSuggestedTask(id: nat)
    | GetSuggestedTasksForTags

  function Invalidates(m: Mutation): seq<Invalidation> {
    match m
    case CreateCall => CallsApi.CreateCall()
    case AddTagsToCall(callId) => CallsApi.AddTagsToCall(callId)
    case AddTaskToCall(callId) => CallsApi.AddTaskToCall(callId)
    case UpdateCallTaskStatus(callId, taskId) => CallsApi.UpdateCallTaskStatus(callId, taskId)
    case CreateTag => TagsApi.CreateTag()
    case UpdateTag(id) => TagsApi.UpdateTag(id)
    case AddSuggestedTaskToTag(tagId) => TagsApi.AddSuggestedTaskToTag(tagId)
    case DeleteTag(id) => TagsApi.DeleteTag(id)
    case CreateSuggestedTask => TasksApi.CreateSuggestedTask()
    case UpdateSuggestedTask(id) => TasksApi.UpdateSuggestedTask(id)
    case GetSuggestedTasksForTags => TasksApi.GetSuggestedTasksForTags()
  }

  /** A finished mutation `m` marks the entry `q` stale. */
  predicate StaledBy(m: Mutation, q: Query) {
    Stales(Invalidates(m), Provides(q))
  }

  /** The list query `q` holds the item `id` of its own kind. */
  predicate Lists(q: Query, id: nat) {
    match q
    case GetAllCalls(r) => r.Some? && id in r.value
    case GetAllTags(r) => r.Some? && id in r.value
    case GetAllTasks(r) => r.Some? && id in r.value
    case GetSuggestedTasks(r) => r.Some? && id in r.value
    case _ => false
  }

  /** The tag type every tag provided by `q` has. */
  function KindOf(q: Query): TagType {
    match q
    case GetAllCalls(_) => Call
    case GetCallById(_) => Call
    case GetCallTags(_) => CallTag
    case GetCallTasks(_) => CallTask
    case GetAllTags(_) => Tag
    case GetTagById(_) => Tag
    case GetTagSuggestedTasks(_) => TagTaskAssociation
    case GetAllTasks(_) => Task
    case GetTaskById(_) => Task
    case GetSuggestedTasks(_) => SuggestedTask
    case GetAllTagTaskAssociations(_) => TagTaskAssociation
  }

  /** The entries that provide the LIST tag of their type. */
  predicate IsList(q: Query) {
    q.GetAllCalls? || q.GetAllTags? || q.GetAllTasks? || q.GetSuggestedTasks? || q.GetAllTagTaskAssociations?
  }

  /** The entry `q` is filed under the numeric id `n` of its type. */
  predicate ByNum(q: Query, n: nat) {
    match q
    case GetCallById(id) => id == n
    case GetCallTags(callId) => callId == n
    case GetCallTasks(callId) => callId == n
    case GetTagById(id) => id == n
    case GetTagSuggestedTasks(tagId) => tagId == n
    case GetTaskById(id) => id == n
    case GetAllTagTaskAssociations(_) => false
    case _ => Lists(q, n)
  }

  /** An invalidated LIST tag reaches exactly the list entries of its type. */
  lemma ListTagHits(kind: TagType, q: Query)
    ensures Hits(Item(kind, LIST), Provides(q)) <==> KindOf(q) == kind && IsList(q)
  {
    NumKeys();
    match q
    case GetAllCalls(r) =>
    case GetCallById(id) =>
    case GetCallTags(callId) =>
    case GetCallTasks(callId) =>
    case GetAllTags(r) =>
    case GetTagById(id) =>
    case GetTagSuggestedTasks(tagId) =>
    case GetAllTasks(r) =>
    case GetTaskById(id) =>
    case GetSuggestedTasks(r) =>
    case GetAllTagTaskAssociations(r) =>
  }

  /** An invalidated numeric tag reaches the by-id entry of its type and id
      and the list entries of its type that hold the id. */
  lemma NumTagHits(kind: TagType, n: nat, q: Query)
    ensures Hits(Item(kind, Num(n)), Provides(q)) <==> KindOf(q) == kind && ByNum(q, n)
  {
    match q
    case GetAllCalls(r) => NumHitsList(kind, n, Call, r);
    case GetCallById(id) => NumKeys();
    case GetCallTags(callId) => NumKeys();
    case GetCallTasks(callId) => NumKeys();
    case GetAllTags(r) => NumHitsList(kind, n, Tag, r);
    case GetTagById(id) => NumKeys();
    case GetTagSuggestedTasks(tagId) => NumKeys();
    case GetAllTasks(r) => NumHitsList(kind, n, Task, r);
    case GetTaskById(id) => NumKeys();
    case GetSuggestedTasks(r) => NumHitsList(kind, n, SuggestedTask, r);
    case GetAllTagTaskAssociations(r) =>
  }

  lemma NumHitsList(kind: TagType, n: nat, listKind: TagType, r: Option<seq<nat>>)
    ensures Hits(Item(kind, Num(n)), ListWithItems(listKind, r)) <==> kind == listKind && r.Some? && n in r.value
  {
    NumKeys();
  }

  /** An invalidated tag without an id reaches every entry of its type. */
  lemma WholeHits(kind: TagType, q: Query)
    ensures Hits(Whole(kind), Provides(q)) <==> KindOf(q) == kind
  {
    assert Matches(Whole(kind), Provides(q)[0]) <==> KindOf(q) == kind;
    ListTagHits(kind, q);
  }

  /** `createCall` stales the call list and nothing else. */
  lemma CreateCallStales(q: Query)
    ensures StaledBy(CreateCall, q) <==> q.GetAllCalls?
  {
    StalesExpand(Invalidates(CreateCall), Provides(q));
    ListTagHits(Call, q);
  }

  /** `addTagsToCall` stales the call's tags, the call, and the call lists
      that hold the call. */
  lemma AddTagsToCallStales(callId: nat, q: Query)
    ensures StaledBy(AddTagsToCall(callId), q) <==>
      q == GetCallTags(callId) || q == GetCallById(callId) || (q.GetAllCalls? && Lists(q, callId))
  {
    StalesExpand(Invalidates(AddTagsToCall(callId)), Provides(q));
    NumTagHits(CallTag, callId, q);
    NumTagHits(Call, callId, q);
  }

  /** `addTaskToCall` stales the call's tasks, the call, and the call lists
      that hold the call. */
  lemma AddTaskToCallStales(callId: nat, q: Query)
    ensures StaledBy(AddTaskToCall(callId), q) <==>
      q == GetCallTasks(callId) || q == GetCallById(callId) || (q.GetAllCalls? && Lists(q, callId))
  {
    StalesExpand(Invalidates(AddTaskToCall(callId)), Provides(q));
    NumTagHits(CallTask, callId, q);
    NumTagHits(Call, callId, q);
  }

  /** `updateCallTaskStatus` stales the tasks of EVERY call, not only of
      `callId`, besides the call and the call lists that hold it. */
  lemma UpdateCallTaskStatusStales(callId: nat, taskId: nat, q: Query)
    ensures StaledBy(UpdateCallTaskStatus(callId, taskId), q) <==>
      q.GetCallTasks? || q == GetCallById(callId) || (q.GetAllCalls? && Lists(q, callId))
  {
    StalesExpand(Invalidates(UpdateCallTaskStatus(callId, taskId)), Provides(q));
    WholeHits(CallTask, q);
    NumTagHits(Call, callId, q);
  }

  /** No query provides CallTag LIST or CallTask LIST: invalidating either
      stales nothing. */
  lemma UnprovidedListsStaleNothing(q: Query)
    ensures !Hits(Item(CallTag, LIST), Provides(q))
    ensures !Hits(Item(CallTask, LIST), Provides(q))
  {
    ListTagHits(CallTag, q);
    ListTagHits(CallTask, q);
  }

  /** `createTag` stales the tag list only: its CallTag LIST part reaches
      no entry. */
  lemma CreateTagStales(q: Query)
    ensures StaledBy(CreateTag, q) <==> q.GetAllTags?
  {
    StalesExpand(Invalidates(CreateTag), Provides(q));
    ListTagHits(Tag, q);
    UnprovidedListsStaleNothing(q);
  }

  /** `updateTag` stales the tag, the tag list and the call list. */
  lemma UpdateTagStales(id: nat, q: Query)
    ensures StaledBy(UpdateTag(id), q) <==> q == GetTagById(id) || q.GetAllTags? || q.GetAllCalls?
  {
    StalesExpand(Invalidates(UpdateTag(id)), Provides(q));
    NumTagHits(Tag, id, q);
    ListTagHits(Tag, q);
    ListTagHits(Call, q);
    UnprovidedListsStaleNothing(q);
  }

  /** `addSuggestedTaskToTag` stales the tag's tasks, the list of every link
      and the suggested-task list. */
  lemma AddSuggestedTaskToTagStales(tagId: nat, q: Query)
    ensures StaledBy(AddSuggestedTaskToTag(tagId), q) <==>
      q == GetTagSuggestedTasks(tagId) || q.GetAllTagTaskAssociations? || q.GetSuggestedTasks?
  {
    StalesExpand(Invalidates(AddSuggestedTaskToTag(tagId)), Provides(q));
    NumTagHits(TagTaskAssociation, tagId, q);
    ListTagHits(TagTaskAssociation, q);
    ListTagHits(SuggestedTask, q);
  }

  /** `deleteTag` stales the tag and the tag list. */
  lemma DeleteTagStales(id: nat, q: Query)
    ensures StaledBy(DeleteTag(id), q) <==> q == GetTagById(id) || q.GetAllTags?
  {
    StalesExpand(Invalidates(DeleteTag(id)), Provides(q));
    NumTagHits(Tag, id, q);
    ListTagHits(Tag, q);
    UnprovidedListsStaleNothing(q);
  }

  /** `createSuggestedTask` stales the suggested-task list and the task list. */
  lemma CreateSuggestedTaskStales(q: Query)
    ensures StaledBy(CreateSuggestedTask, q) <==> q.GetSuggestedTasks? || q.GetAllTasks?
  {
    StalesExpand(Invalidates(CreateSuggestedTask), Provides(q));
    ListTagHits(SuggestedTask, q);
    ListTagHits(Task, q);
  }

  /** `updateSuggestedTask` stales the task and both task lists; its
      CallTask LIST part reaches no entry, so the tasks of a call that show
      the renamed task are not refreshed. */
  lemma UpdateSuggestedTaskStales(id: nat, q: Query)
    ensures StaledBy(UpdateSuggestedTask(id), q) <==> q.GetSuggestedTasks? || q.GetAllTasks? || q == GetTaskById(id)
  {
    StalesExpand(Invalidates(UpdateSuggestedTask(id)), Provides(q));
    NumTagHits(SuggestedTask, id, q);
    ListTagHits(SuggestedTask, q);
    NumTagHits(Task, id, q);
    ListTagHits(Task, q);
    UnprovidedListsStaleNothing(q);
  }

  /** `getSuggestedTasksForTags` is a mutation that invalidates nothing. */
  lemma GetSuggestedTasksForTagsStalesNothing(q: Query)
    ensures !StaledBy(GetSuggestedTasksForTags, q)
  {
  }
}

=== FILE: schema.dfy ===
/**
 * The relational schema of the server: the three entity tables, the three
 * junction tables with their composite primary keys, the integrity rules the
 * datastore enforces (foreign keys, `Tag.name` unique) and the
 * ON DELETE CASCADE behaviour of every foreign key.
 */
module Schema {
  import opened Wrappers

  /** An auto-incremented INTEGER primary key. */
  type Id = nat

  /** The ENUM("Open", "In Progress", "Completed") column `taskStatus`. */
  datatype TaskStatus = Open | InProgress | Completed

  function StatusName(s: TaskStatus): string {
    match s
    case Open => "Open"
    case InProgress => "In Progress"
    case Completed => "Completed"
  }

  /** The value the ENUM column accepts for a string, if any. */
  function ParseTaskStatus(s: string): (r: Option<TaskStatus>)
    ensures r.Some? <==> s == "Open" || s == "In Progress" || s == "Completed"
    ensures r.Some? ==> StatusName(r.value) == s
  {
    if s == "Open" then Some(Open)
    else if s == "In Progress" then Some(InProgress)
    else if s == "Completed" then Some(Completed)
    else None
  }

  /** Parsing the name of a status gives the status back. */
  lemma ParseStatusName(s: TaskStatus)
    ensures ParseTaskStatus(StatusName(s)) == Some(s)
  {
  }

  datatype Call = Call(id: Id, name: string)
  datatype Tag = Tag(id: Id, name: string)
  /** `isSuggested` marks a reusable catalog task; call-scoped tasks have it false. */
  datatype Task = Task(id: Id, name: string, isSuggested: bool)

  /** A task as the association queries project it (`attributes: ["id", "name"]`). */
  datatype TaskRef = TaskRef(id: Id, name: string)

  function RefOf(t: Task): (r: TaskRef)
    ensures r.id == t.id && r.name == t.name
  {
    TaskRef(t.id, t.name)
  }

  /** A `call_tag` row: primary key (callId, tagId), no other attribute. */
  datatype CallTag = CallTag(callId: Id, tagId: Id)
  /** The primary key (callId, taskId) of a `call_task` row. */
  datatype CallTaskKey = CallTaskKey(callId: Id, taskId: Id)
  /** A `call_task` row; `taskStatus` is NOT NULL. */
  datatype CallTask = CallTask(callId: Id, taskId: Id, taskStatus: TaskStatus)
  /** A `tag_task` row: primary key (tagId, taskId), no other attribute. */
  datatype TagTask = TagTask(tagId: Id, taskId: Id)

  /**
   * The content of the datastore. Entity tables are keyed by their primary
   * key; a junction table is a set of keys (CallTag, TagTask) or a map from
   * its key to its attribute (CallTask), so a second row with the same
   * composite key cannot be represented.
   */
  datatype Tables = Tables(
    calls: map<Id, Call>,
    tags: map<Id, Tag>,
    tasks: map<Id, Task>,
    callTags: set<CallTag>,
    callTasks: map<CallTaskKey, TaskStatus>,
    tagTasks: set<TagTask>)

  const Empty := Tables(map[], map[], map[], {}, map[], {})

  /** Each entity row is stored under its own `id`. */
  predicate KeyedById(t: Tables) {
    && (forall k :: k in t.calls ==> t.calls[k].id == k)
    && (forall k :: k in t.tags ==> t.tags[k].id == k)
    && (forall k :: k in t.tasks ==> t.tasks[k].id == k)
  }

  /** Every junction row references an existing row at both ends. */
  predicate ForeignKeysHold(t: Tables) {
    && (forall r :: r in t.callTags ==> r.callId in t.calls && r.tagId in t.tags)
    && (forall k :: k in t.callTasks ==> k.callId in t.calls && k.taskId in t.tasks)
    && (forall r :: r in t.tagTasks ==> r.tagId in t.tags && r.taskId in t.tasks)
  }

  /** The UNIQUE constraint on `tags.name`. */
  predicate TagNamesUnique(t: Tables) {
    forall a, b :: a in t.tags && b in t.tags && a != b ==> t.tags[a].name != t.tags[b].name
  }

  /** What the datastore itself guarantees of its content. */
  predicate SchemaValid(t: Tables) {
    KeyedById(t) && ForeignKeysHold(t) && TagNamesUnique(t)
  }

  /** Only suggested tasks are linked to tags. The schema does not say this;
      the controllers keep it. */
  predicate SuggestedLinksOnly(t: Tables)
    requires ForeignKeysHold(t)
  {
    forall r :: r in t.tagTasks ==> t.tasks[r.taskId].isSuggested
  }

  /** The schema's rules plus the rule the controllers add. */
  predicate Consistent(t: Tables) {
    SchemaValid(t) && SuggestedLinksOnly(t)
  }

  /** A valid change that keeps the `tag_task` rows and the `isSuggested`
      flag of every existing task keeps the store consistent. */
  lemma ConsistentWhenLinksKept(a: Tables, b: Tables)
    requires Consistent(a) && SchemaValid(b) && b.tagTasks == a.tagTasks
    requires forall k :: k in a.tasks ==> k in b.tasks && b.tasks[k].isSuggested == a.tasks[k].isSuggested
    ensures Consistent(b)
  {
  }

  /** The `call_task` table as a set of rows. Its composite primary key makes
      the status of a (callId, taskId) pair unique. */
  function CallTaskRows(t: Tables): (rows: set<CallTask>)
    ensures forall r :: r in rows <==> CallTaskKey(r.callId, r.taskId) in t.callTasks
                                       && t.callTasks[CallTaskKey(r.callId, r.taskId)] == r.taskStatus
    ensures forall a, b :: a in rows && b in rows && a.callId == b.callId && a.taskId == b.taskId ==> a == b
  {
    set k | k in t.callTasks :: CallTask(k.callId, k.taskId, t.callTasks[k])
  }

  /** The elements of `s` are pairwise distinct. */
  predicate Distinct(s: seq<Id>) {
    forall i, j :: 0 <= i < j < |s| ==> s[i] != s[j]
  }

  /** Appending `x` keeps a sequence distinct exactly when `x` is new. */
  lemma DistinctSnoc(p: seq<Id>, x: Id)
    ensures Distinct(p + [x]) <==> Distinct(p) && x !in p
  {
    var s := p + [x];
    if Distinct(s) {
      forall i, j | 0 <= i < j < |p| ensures p[i] != p[j] {
        assert s[i] == p[i] && s[j] == p[j];
      }
    }
    if x in p {
      var j :| 0 <= j < |p| && p[j] == x;
      assert s[j] == s[|p|];
    }
    if Distinct(p) && x !in p {
      forall i, j | 0 <= i < j < |s| ensures s[i] != s[j] {
        assert s[i] == p[i];
        if j < |p| { assert s[j] == p[j]; }
      }
    }
  }

  /** The set of the elements of `s`. */
  function Elems(s: seq<Id>): (r: set<Id>)
    ensures forall k :: k in r <==> k in s
  {
    set k | k in s
  }

  lemma ElemsSnoc(s: seq<Id>, x: Id)
    ensures Elems(s + [x]) == Elems(s) + {x}
  {
  }

  /** The ids of the tag rows that `Tag.findAll({ where: { id: ids } })` finds:
      each existing tag once, however often `ids` names it. */
  function FoundTagIds(tags: map<Id, Tag>, ids: seq<Id>): (found: set<Id>)
    ensures forall k :: k in found <==> k in ids && k in tags
  {
    set k | k in ids && k in tags
  }

  /** The `call_tag` rows with the tags `tagIds` linked to the call `callId`
      on top of the existing links. */
  function LinkTags(callTags: set<CallTag>, callId: Id, tagIds: set<Id>): (r: set<CallTag>)
    ensures forall x :: x in r <==> x in callTags || (x.callId == callId && x.tagId in tagIds)
  {
    callTags + set k | k in tagIds :: CallTag(callId, k)
  }

  /**
   * Linking tags to a call only adds rows, adding the same tags again
   * changes nothing, and linking existing tags to an existing call keeps
   * every `call_tag` row's foreign keys.
   */
  lemma LinkTagsKeepsRows(t: Tables, callId: Id, tagIds: set<Id>)
    ensures t.callTags <= LinkTags(t.callTags, callId, tagIds)
    ensures LinkTags(LinkTags(t.callTags, callId, tagIds), callId, tagIds) == LinkTags(t.callTags, callId, tagIds)
    ensures ForeignKeysHold(t) && callId in t.calls && tagIds <= t.tags.Keys ==>
      ForeignKeysHold(t.(callTags := LinkTags(t.callTags, callId, tagIds)))
  {
  }

  /** The schema alone admits a link from a tag to a task that is not suggested. */
  lemma SchemaAdmitsUnsuggestedLink()
    ensures exists t :: SchemaValid(t) && !SuggestedLinksOnly(t)
  {
    var t := Empty.(tags := map[1 := Tag(1, "Billing")],
                    tasks := map[1 := Task(1, "Call back", false)],
                    tagTasks := {TagTask(1, 1)});
    assert SchemaValid(t);
    assert !t.tasks[1].isSuggested;
  }

  /** Destroying a call: ON DELETE CASCADE on `call_tag.callId` and
      `call_task.callId` removes the call's junction rows, and nothing else. */
  function DestroyCall(t: Tables, id: Id): (r: Tables)
    ensures id !in r.calls && r.calls == t.calls - {id}
    ensures forall x :: x in r.callTags <==> x in t.callTags && x.callId != id
    ensures forall k :: k in r.callTasks <==> k in t.callTasks && k.callId != id
    ensures forall k :: k in r.callTasks ==> r.callTasks[k] == t.callTasks[k]
    ensures r.tags == t.tags && r.tasks == t.tasks && r.tagTasks == t.tagTasks
    ensures SchemaValid(t) ==> SchemaValid(r)
    ensures Consistent(t) ==> Consistent(r)
  {
    t.(calls := t.calls - {id},
       callTags := (set x | x in t.callTags && x.callId != id),
       callTasks := map k | k in t.callTasks && k.callId != id :: t.callTasks[k])
  }

  /** Destroying a tag: ON DELETE CASCADE on `call_tag.tagId` and
      `tag_task.tagId` removes the tag's junction rows, and nothing else. */
  function DestroyTag(t: Tables, id: Id): (r: Tables)
    ensures id !in r.tags && r.tags == t.tags - {id}
    ensures forall x :: x in r.callTags <==> x in t.callTags && x.tagId != id
    ensures forall x :: x in r.tagTasks <==> x in t.tagTasks && x.tagId != id
    ensures r.calls == t.calls && r.tasks == t.tasks && r.callTasks == t.callTasks
    ensures SchemaValid(t) ==> SchemaValid(r)
    ensures Consistent(t) ==> Consistent(r)
  {
    t.(tags := t.tags - {id},
       callTags := (set x | x in t.callTags && x.tagId != id),
       tagTasks := set x | x in t.tagTasks && x.tagId != id)
  }

  /** Destroying a task: ON DELETE CASCADE on `call_task.taskId` and
      `tag_task.taskId` removes the task's junction rows, and nothing else. */
  function DestroyTask(t: Tables, id: Id): (r: Tables)
    ensures id !in r.tasks && r.tasks == t.tasks - {id}
    ensures forall k :: k in r.callTasks <==> k in t.callTasks && k.taskId != id
    ensures forall k :: k in r.callTasks ==> r.callTasks[k] == t.callTasks[k]
    ensures forall x :: x in r.tagTasks <==> x in t.tagTasks && x.taskId != id
    ensures r.calls == t.calls && r.tags == t.tags && r.callTags == t.callTags
    ensures SchemaValid(t) ==> SchemaValid(r)
    ensures Consistent(t) ==> Consistent(r)
  {
    t.(tasks := t.tasks - {id},
       callTasks := (map k | k in t.callTasks && k.taskId != id :: t.callTasks[k]),
       tagTasks := set x | x in t.tagTasks && x.taskId != id)
  }
}

=== FILE: socket_integration.dfy ===
/**
 * The client's bridge from Socket.IO events to the query cache: the tags
 * each event handler invalidates, which cached entries that stales, and the
 * registration of the nine handlers on the socket and their removal.
 */
module SocketIntegration {
  import opened CacheKeys
  import opened QueryCache
  import Events
  import Schema
  import Wrappers
  import AdminApi

  /** The tags the handler of `e` invalidates, in dispatch order. A handler
      that dispatches twice invalidates the two lists one after the other.
      No handler writes its payload into the cache. */
  function EventInvalidations(e: Events.Event): seq<Invalidation> {
    match e
    case TagCreated(_) => [Item(Tag, LIST)]
    case TagUpdated(_) => [Whole(Tag), Whole(CallTag), Whole(Call)]
    case TaskCreated(_) => [Item(Task, LIST), Item(SuggestedTask, LIST)]
    case TaskUpdated(t) => [Item(Task, LIST), Item(Task, Num(t.id)), Item(SuggestedTask, LIST), Item(CallTask, LIST)]
    case CallCreated(_) => [Item(Call, LIST)]
    case CallTagsAdded(c, _) => [Item(CallTag, Num(c))] + [Item(Call, Num(c))]
    case CallTaskAdded(c, _) => [Item(CallTask, Num(c))] + [Item(Call, Num(c))]
    case CallTaskStatusUpdated(c, _, _, _) => [Item(CallTask, Num(c)), Item(Call, Num(c))]
    case TagSuggestedTaskAdded(g, _) => [Item(TagTaskAssociation, Num(g))] + [Item(TagTaskAssociation, LIST)]
  }

  /** Receiving `e` marks the entry `q` stale. */
  predicate EventStales(e: Events.Event, q: Query) {
    Stales(EventInvalidations(e), Provides(q))
  }

  /** `tagCreated` stales the tag list and nothing else. */
  lemma TagCreatedStales(tag: Schema.Tag, q: Query)
    ensures EventStales(Events.TagCreated(tag), q) <==> q.GetAllTags?
  {
    StalesExpand(EventInvalidations(Events.TagCreated(tag)), Provides(q));
    ListTagHits(Tag, q);
  }

  /** `tagUpdated` stales every entry of the Tag, CallTag and Call types,
      whatever tag was renamed. */
  lemma TagUpdatedStales(tag: Schema.Tag, q: Query)
    ensures EventStales(Events.TagUpdated(tag), q) <==>
      q.GetAllTags? || q.GetTagById? || q.GetCallTags? || q.GetAllCalls? || q.GetCallById?
  {
    StalesExpand(EventInvalidations(Events.TagUpdated(tag)), Provides(q));
    WholeHits(Tag, q);
    WholeHits(CallTag, q);
    WholeHits(Call, q);
  }

  /** `taskCreated` stales the task list and the suggested-task list. */
  lemma TaskCreatedStales(task: Schema.Task, q: Query)
    ensures EventStales(Events.TaskCreated(task), q) <==> q.GetAllTasks? || q.GetSuggestedTasks?
  {
    StalesExpand(EventInvalidations(Events.TaskCreated(task)), Provides(q));
    ListTagHits(Task, q);
    ListTagHits(SuggestedTask, q);
  }

  /** `taskUpdated` stales both task lists and the task itself; its
      CallTask LIST part reaches no entry. */
  lemma TaskUpdatedStales(task: Schema.Task, q: Query)
    ensures EventStales(Events.TaskUpdated(task), q) <==>
      q.GetAllTasks? || q.GetSuggestedTasks? || q == GetTaskById(task.id)
  {
    StalesExpand(EventInvalidations(Events.TaskUpdated(task)), Provides(q));
    ListTagHits(Task, q);
    NumTagHits(Task, task.id, q);
    ListTagHits(SuggestedTask, q);
    UnprovidedListsStaleNothing(q);
  }

  /** The `updateSuggestedTask` mutation and the `taskUpdated` event it
      causes stale the same entries. */
  lemma TaskUpdatedMatchesMutation(task: Schema.Task, q: Query)
    ensures EventStales(Events.TaskUpdated(task), q) <==> StaledBy(UpdateSuggestedTask(task.id), q)
  {
    TaskUpdatedStales(task, q);
    UpdateSuggestedTaskStales(task.id, q);
  }

  /** `callCreated` stales the call list and nothing else. */
  lemma CallCreatedStales(call: Schema.Call, q: Query)
    ensures EventStales(Events.CallCreated(call), q) <==> q.GetAllCalls?
  {
    StalesExpand(EventInvalidations(Events.CallCreated(call)), Provides(q));
    ListTagHits(Call, q);
  }

  /** `callTagsAdded` stales what the `addTagsToCall` mutation stales: the
      call's tags, the call, and the call lists that hold it. */
  lemma CallTagsAddedStales(callId: nat, tagIds: seq<nat>, q: Query)
    ensures EventStales(Events.CallTagsAdded(callId, tagIds), q) <==> StaledBy(AddTagsToCall(callId), q)
    ensures EventStales(Events.CallTagsAdded(callId, tagIds), q) <==>
      q == GetCallTags(callId) || q == GetCallById(callId) || (q.GetAllCalls? && Lists(q, callId))
  {
    StalesExpand(EventInvalidations(Events.CallTagsAdded(callId, tagIds)), Provides(q));
    NumTagHits(CallTag, callId, q);
    NumTagHits(Call, callId, q);
    AddTagsToCallStales(callId, q);
  }

  /** `callTaskAdded` stales what the `addTaskToCall` mutation stales: the
      call's tasks, the call, and the call lists that hold it. */
  lemma CallTaskAddedStales(callId: nat, task: Schema.Task, q: Query)
    ensures EventStales(Events.CallTaskAdded(callId, task), q) <==> StaledBy(AddTaskToCall(callId), q)
    ensures EventStales(Events.CallTaskAdded(callId, task), q) <==>
      q == GetCallTasks(callId) || q == GetCallById(callId) || (q.GetAllCalls? && Lists(q, callId))
  {
    StalesExpand(EventInvalidations(Events.CallTaskAdded(callId, task)), Provides(q));
    NumTagHits(CallTask, callId, q);
    NumTagHits(Call, callId, q);
    AddTaskToCallStales(callId, q);
  }

  /** `callTaskStatusUpdated` stales only the tasks of its own call, where
      the `updateCallTaskStatus` mutation stales the tasks of every call. */
  lemma CallTaskStatusUpdatedStales(callId: nat, taskId: nat, status: Schema.TaskStatus,
                                    row: Schema.CallTask, q: Query)
    ensures EventStales(Events.CallTaskStatusUpdated(callId, taskId, status, row), q) <==>
      q == GetCallTasks(callId) || q == GetCallById(callId) || (q.GetAllCalls? && Lists(q, callId))
    ensures EventStales(Events.CallTaskStatusUpdated(callId, taskId, status, row), q) ==>
      StaledBy(UpdateCallTaskStatus(callId, taskId), q)
  {
    StalesExpand(EventInvalidations(Events.CallTaskStatusUpdated(callId, taskId, status, row)), Provides(q));
    NumTagHits(CallTask, callId, q);
    NumTagHits(Call, callId, q);
    UpdateCallTaskStatusStales(callId, taskId, q);
  }

  /** The tasks of another call are refreshed by the mutation but not by
      the event that reports it to the other clients. */
  lemma StatusEventNarrowerThanMutation(callId: nat, taskId: nat, status: Schema.TaskStatus,
                                        row: Schema.CallTask, other: nat)
    requires other != callId
    ensures StaledBy(UpdateCallTaskStatus(callId, taskId), GetCallTasks(other))
    ensures !EventStales(Events.CallTaskStatusUpdated(callId, taskId, status, row), GetCallTasks(other))
  {
    CallTaskStatusUpdatedStales(callId, taskId, status, row, GetCallTasks(other));
    UpdateCallTaskStatusStales(callId, taskId, GetCallTasks(other));
  }

  /** `tagSuggestedTaskAdded` stales the tag's tasks and the list of every
      link, but not the suggested-task list that the mutation stales. */
  lemma TagSuggestedTaskAddedStales(tagId: nat, taskId: nat, q: Query)
    ensures EventStales(Events.TagSuggestedTaskAdded(tagId, taskId), q) <==>
      q == GetTagSuggestedTasks(tagId) || q.GetAllTagTaskAssociations?
    ensures EventStales(Events.TagSuggestedTaskAdded(tagId, taskId), q) ==> StaledBy(AddSuggestedTaskToTag(tagId), q)
  {
    StalesExpand(EventInvalidations(Events.TagSuggestedTaskAdded(tagId, taskId)), Provides(q));
    NumTagHits(TagTaskAssociation, tagId, q);
    ListTagHits(TagTaskAssociation, q);
    AddSuggestedTaskToTagStales(tagId, q);
  }

  /** The list of every link is refreshed on `tagSuggestedTaskAdded` only
      through its LIST tag: the numeric tag the handler also invalidates
      never reaches it. */
  lemma AdminListReachedOnlyThroughList(tagId: nat, links: Wrappers.Option<seq<AdminApi.Link>>)
    ensures EventStales(Events.TagSuggestedTaskAdded(tagId, 0), GetAllTagTaskAssociations(links))
    ensures !Hits(Item(TagTaskAssociation, Num(tagId)), Provides(GetAllTagTaskAssociations(links)))
  {
    TagSuggestedTaskAddedStales(tagId, 0, GetAllTagTaskAssociations(links));
  }

  /** A handler registered with `socket.on`: the closure of one run of the
      effect (`run`) for one event name. Closures of different runs differ. */
  datatype Handler = Handler(run: nat, event: string)

  datatype Listener = Listener(event: string, handler: Handler)

  /** The listeners one run of the effect registers, in registration order. */
  function Registered(run: nat): (ls: seq<Listener>)
    ensures |ls| == |Events.EventNames|
    ensures forall i :: 0 <= i < |ls| ==> ls[i] == Listener(Events.EventNames[i], Handler(run, Events.EventNames[i]))
  {
    seq(|Events.EventNames|, i requires 0 <= i < |Events.EventNames| =>
      Listener(Events.EventNames[i], Handler(run, Events.EventNames[i])))
  }

  /** `ls` without its first occurrence of `l`. */
  function RemoveFirst(ls: seq<Listener>, l: Listener): seq<Listener> {
    if ls == [] then []
    else if ls[0] == l then ls[1..]
    else [ls[0]] + RemoveFirst(ls[1..], l)
  }

  /** `ls` after removing the first occurrence of each of `rs`, in order. */
  function RemoveEach(ls: seq<Listener>, rs: seq<Listener>): seq<Listener>
    decreases |rs|
  {
    if rs == [] then ls else RemoveEach(RemoveFirst(ls, rs[0]), rs[1..])
  }

  /** Removing an element that is only in the appended part takes it out
      of that part. */
  lemma {:induction false} RemoveFirstAppended(ls: seq<Listener>, rs: seq<Listener>, l: Listener)
    requires l !in ls
    ensures RemoveFirst(ls + rs, l) == ls + RemoveFirst(rs, l)
  {
    if ls == [] {
      assert ls + rs == rs;
    } else {
      assert (ls + rs)[0] == ls[0] != l && (ls + rs)[1..] == ls[1..] + rs;
      RemoveFirstAppended(ls[1..], rs, l);
      assert ls == [ls[0]] + ls[1..];
    }
  }

  /** Removing, in order, the listeners that were appended gives back the
      listeners there were before, when none of those was among them. */
  lemma {:induction false} RemoveEachAppended(ls: seq<Listener>, rs: seq<Listener>)
    requires forall l :: l in rs ==> l !in ls
    ensures RemoveEach(ls + rs, rs) == ls
    decreases |rs|
  {
    if rs != [] {
      RemoveFirstAppended(ls, rs, rs[0]);
      assert RemoveFirst(rs, rs[0]) == rs[1..];
      RemoveEachAppended(ls, rs[1..]);
    }
  }

  /** The listener registry of the client socket. */
  class ClientSocket {
    var listeners: seq<Listener>

    constructor()
      ensures listeners == []
    {
      listeners := [];
    }

    /** `socket.on(event, handler)` appends a listener. */
    method On(event: string, handler: Handler)
      modifies this
      ensures listeners == old(listeners) + [Listener(event, handler)]
    {
      listeners := listeners + [Listener(event, handler)];
    }

    /** `socket.off(event, handler)` removes the first listener of that event
        with that very handler, if there is one. */
    method Off(event: string, handler: Handler)
      modifies this
      ensures listeners == RemoveFirst(old(listeners), Listener(event, handler))
    {
      listeners := RemoveFirst(listeners, Listener(event, handler));
    }
  }

  /** The handlers the listeners `ls` run when `event` arrives, in order. */
  function ListenersFor(ls: seq<Listener>, event: string): (hs: seq<Handler>)
    ensures |hs| <= |ls|
    ensures forall h :: h in hs <==> Listener(event, h) in ls
  {
    if ls == [] then []
    else if ls[0].event == event then [ls[0].handler] + ListenersFor(ls[1..], event)
    else ListenersFor(ls[1..], event)
  }

  /**
   * The effect of the hook, run with the current socket (`null` before it
   * exists) and connection flag. Without a connected socket it registers
   * nothing; otherwise it registers the nine handlers of this run.
   */
  method SetUp(socket: ClientSocket?, isConnected: bool, run: nat) returns (active: bool)
    modifies socket
    ensures active <==> socket != null && isConnected
    ensures socket != null && !active ==> socket.listeners == old(socket.listeners)
    ensures active ==> socket.listeners == old(socket.listeners) + Registered(run)
  {
    if socket == null || !isConnected {
      return false;
    }
    socket.On("tagCreated", Handler(run, "tagCreated"));
    socket.On("tagUpdated", Handler(run, "tagUpdated"));
    socket.On("taskCreated", Handler(run, "taskCreated"));
    socket.On("taskUpdated", Handler(run, "taskUpdated"));
    socket.On("callCreated", Handler(run, "callCreated"));
    socket.On("callTagsAdded", Handler(run, "callTagsAdded"));
    socket.On("callTaskAdded", Handler(run, "callTaskAdded"));
    socket.On("callTaskStatusUpdated", Handler(run, "callTaskStatusUpdated"));
    socket.On("tagSuggestedTaskAdded", Handler(run, "tagSuggestedTaskAdded"));
    assert socket.listeners == old(socket.listeners) + Registered(run);
    return true;
  }

  /** The cleanup the effect returns: one `off` for each `on`. */
  method CleanUp(socket: ClientSocket, run: nat)
    modifies socket
    ensures socket.listeners == RemoveEach(old(socket.listeners), Registered(run))
  {
    ghost var r := Registered(run);
    ghost var ls := socket.listeners;
    assert r[0..] == r;
    socket.Off("tagCreated", Handler(run, "tagCreated"));
    RemoveEachStep(ls, r, 0);
    ls := socket.listeners;
    socket.Off("tagUpdated", Handler(run, "tagUpdated"));
    RemoveEachStep(ls, r, 1);
    ls := socket.listeners;
    socket.Off("taskCreated", Handler(run, "taskCreated"));
    RemoveEachStep(ls, r, 2);
    ls := socket.listeners;
    socket.Off("taskUpdated", Handler(run, "taskUpdated"));
    RemoveEachStep(ls, r, 3);
    ls := socket.listeners;
    socket.Off("callCreated", Handler(run, "callCreated"));
    RemoveEachStep(ls, r, 4);
    ls := socket.listeners;
    socket.Off("callTagsAdded", Handler(run, "callTagsAdded"));
    RemoveEachStep(ls, r, 5);
    ls := socket.listeners;
    socket.Off("callTaskAdded", Handler(run, "callTaskAdded"));
    RemoveEachStep(ls, r, 6);
    ls := socket.listeners;
    socket.Off("callTaskStatusUpdated", Handler(run, "callTaskStatusUpdated"));
    RemoveEachStep(ls, r, 7);
    ls := socket.listeners;
    socket.Off("tagSuggestedTaskAdded", Handler(run, "tagSuggestedTaskAdded"));
    RemoveEachStep(ls, r, 8);
    ls := socket.listeners;
    assert r[9..] == [];
  }

  /** One `off` after another: removing the `k`-th listener of `rs` and
      then the rest is removing `rs` from the `k`-th on. */
  lemma RemoveEachStep(ls: seq<Listener>, rs: seq<Listener>, k: nat)
    requires k < |rs|
    ensures RemoveEach(ls, rs[k..]) == RemoveEach(RemoveFirst(ls, rs[k]), rs[k + 1..])
  {
    assert rs[k..][0] == rs[k] && rs[k..][1..] == rs[k + 1..];
  }

  /** A run of the effect followed by its cleanup leaves the listeners as
      they were, whatever other listeners the socket holds: every `on` has
      its `off` and the closures of the run are new. */
  lemma SetUpCleanUpRestores(ls: seq<Listener>, run: nat)
    requires forall l :: l in ls ==> l.handler.run != run
    ensures RemoveEach(ls + Registered(run), Registered(run)) == ls
  {
    RemoveEachAppended(ls, Registered(run));
  }

  /** After a run of the effect on a socket with no other listeners, every
      event reaches its own handler of that run, and no other handler. */
  lemma OneHandlerPerEvent(run: nat, e: Events.Event)
    ensures forall h :: h in ListenersFor(Registered(run), Events.Name(e)) <==> h == Handler(run, Events.Name(e))
  {
    var r, name := Registered(run), Events.Name(e);
    Events.NameIdentifiesKind(e, e);
    var i :| 0 <= i < |Events.EventNames| && Events.EventNames[i] == name;
    assert r[i] == Listener(name, Handler(run, name));
  }
}

=== FILE: store.dfy ===
/**
 * The relational datastore as the controllers use it through their models:
 * lookups are reads of the table fields, and each write a controller issues
 * (`create`, `add…` on an association, `update`, `destroy`) is one method.
 * A transaction is its rollback point, the snapshot of the tables taken when
 * it opens; committing keeps the writes, rolling back restores the snapshot.
 */
module Store {
  import opened Wrappers
  import opened Schema

  class Database {
    var calls: map<Id, Call>
    var tags: map<Id, Tag>
    var tasks: map<Id, Task>
    var callTags: set<CallTag>
    var callTasks: map<CallTaskKey, TaskStatus>
    var tagTasks: set<TagTask>
    /** The auto-increment sequences. A rollback does not give ids back. */
    var nextCallId: Id
    var nextTagId: Id
    var nextTaskId: Id

    function Snapshot(): Tables
      reads this
    {
      Tables(calls, tags, tasks, callTags, callTasks, tagTasks)
    }

    /** Every stored id was handed out by its sequence. */
    predicate Allocated(t: Tables)
      reads this
    {
      && (forall k :: k in t.calls ==> k < nextCallId)
      && (forall k :: k in t.tags ==> k < nextTagId)
      && (forall k :: k in t.tasks ==> k < nextTaskId)
    }

    predicate Valid()
      reads this
    {
      SchemaValid(Snapshot()) && Allocated(Snapshot())
    }

    constructor ()
      ensures Valid() && Snapshot() == Empty
    {
      calls, tags, tasks := map[], map[], map[];
      callTags, callTasks, tagTasks := {}, map[], {};
      nextCallId, nextTagId, nextTaskId := 1, 1, 1;
    }

    /** Opens a transaction: its rollback point is the current content. */
    method Transaction() returns (tx: Tables)
      ensures tx == Snapshot()
    {
      tx := Snapshot();
    }

    /** Rolls a transaction back: the tables return to the rollback point;
        the sequences keep the ids they handed out. */
    method Rollback(tx: Tables)
      requires SchemaValid(tx) && Allocated(tx)
      modifies this
      ensures Valid() && Snapshot() == tx
      ensures nextCallId == old(nextCallId) && nextTagId == old(nextTagId) && nextTaskId == old(nextTaskId)
    {
      calls, tags, tasks := tx.calls, tx.tags, tx.tasks;
      callTags, callTasks, tagTasks := tx.callTags, tx.callTasks, tx.tagTasks;
    }

    /** `Call.create({ name })`. */
    method CreateCall(name: string) returns (c: Call)
      requires Valid()
      modifies this
      ensures Valid()
      ensures c == Call(old(nextCallId), name) && c.id !in old(calls)
      ensures Snapshot() == old(Snapshot()).(calls := old(calls)[c.id := c])
      ensures nextCallId == old(nextCallId) + 1 && nextTagId == old(nextTagId) && nextTaskId == old(nextTaskId)
    {
      c := Call(nextCallId, name);
      calls := calls[c.id := c];
      nextCallId := nextCallId + 1;
    }

    /** `Tag.create({ name })`; `None` when the UNIQUE constraint on
        `name` rejects the insert, which then writes nothing. */
    method CreateTag(name: string) returns (r: Option<Tag>)
      requires Valid()
      modifies this
      ensures Valid()
      ensures r.None? <==> exists k :: k in old(tags) && old(tags)[k].name == name
      ensures r.None? ==> Snapshot() == old(Snapshot())
      ensures r.Some? ==> r.value == Tag(old(nextTagId), name) && r.value.id !in old(tags)
      ensures r.Some? ==> Snapshot() == old(Snapshot()).(tags := old(tags)[r.value.id := r.value])
      ensures nextTagId == old(nextTagId) + 1 && nextCallId == old(nextCallId) && nextTaskId == old(nextTaskId)
    {
      var id := nextTagId;
      nextTagId := nextTagId + 1;
      if exists k :: k in tags && tags[k].name == name {
        r := None;
      } else {
        r := Some(Tag(id, name));
        tags := tags[id := r.value];
      }
    }

    /** `Task.create({ name, isSuggested })`. */
    method CreateTask(name: string, isSuggested: bool) returns (t: Task)
      requires Valid()
      modifies this
      ensures Valid()
      ensures t == Task(old(nextTaskId), name, isSuggested) && t.id !in old(tasks)
      ensures Snapshot() == old(Snapshot()).(tasks := old(tasks)[t.id := t])
      ensures nextTaskId == old(nextTaskId) + 1 && nextCallId == old(nextCallId) && nextTagId == old(nextTagId)
    {
      t := Task(nextTaskId, name, isSuggested);
      tasks := tasks[t.id := t];
      nextTaskId := nextTaskId + 1;
    }

    /** Inserts the `call_tag` rows linking the tags `tagIds` to a call,
        in one statement. */
    method AddCallTags(callId: Id, tagIds: set<Id>)
      requires Valid() && callId in calls && forall k :: k in tagIds ==> k in tags
      modifies this`callTags
      ensures Valid()
      ensures callTags == LinkTags(old(callTags), callId, tagIds)
    {
      callTags := LinkTags(callTags, callId, tagIds);
    }

    /** Inserts one `call_task` row with its status. */
    method AddCallTask(key: CallTaskKey, status: TaskStatus)
      requires Valid() && key.callId in calls && key.taskId in tasks
      modifies this`callTasks
      ensures Valid()
      ensures callTasks == old(callTasks)[key := status]
    {
      callTasks := callTasks[key := status];
    }

    /** `callTask.update({ taskStatus })`. */
    method SetCallTaskStatus(key: CallTaskKey, status: TaskStatus)
      requires Valid() && key in callTasks
      modifies this`callTasks
      ensures Valid()
      ensures callTasks == old(callTasks)[key := status]
    {
      callTasks := callTasks[key := status];
    }

    /** Inserts one `tag_task` row. Nothing here asks that the task be suggested. */
    method AddTagTask(row: TagTask)
      requires Valid() && row.tagId in tags && row.taskId in tasks
      modifies this`tagTasks
      ensures Valid()
      ensures tagTasks == old(tagTasks) + {row}
    {
      tagTasks := tagTasks + {row};
    }

    /** `task.update({ name })`. */
    method RenameTask(id: Id, name: string)
      requires Valid() && id in tasks
      modifies this`tasks
      ensures Valid()
      ensures tasks == old(tasks)[id := old(tasks)[id].(name := name)]
    {
      tasks := tasks[id := tasks[id].(name := name)];
    }

    /** `tag.update({ name })`; false when the UNIQUE constraint on `name`
        rejects it because another tag has exactly that name. */
    method RenameTag(id: Id, name: string) returns (ok: bool)
      requires Valid() && id in tags
      modifies this`tags
      ensures Valid()
      ensures ok <==> forall k :: k in old(tags) && k != id ==> old(tags)[k].name != name
      ensures tags == if ok then old(tags)[id := Tag(id, name)] else old(tags)
    {
      ok := forall k :: k in tags && k != id ==> tags[k].name != name;
      if ok {
        tags := tags[id := Tag(id, name)];
      }
    }

    /** `task.destroy()`, with the cascades of the junction tables. */
    method DestroyTask(id: Id)
      requires Valid()
      modifies this`tasks, this`callTasks, this`tagTasks
      ensures Valid()
      ensures Snapshot() == Schema.DestroyTask(old(Snapshot()), id)
    {
      var t := Schema.DestroyTask(Snapshot(), id);
      tasks, callTasks, tagTasks := t.tasks, t.callTasks, t.tagTasks;
    }
  }
}

/** The server's Socket.IO broadcaster, seen as the log of what it emitted. */
module Sockets {
  import opened Events

  class SocketService {
    var emitted: seq<Event>

    constructor ()
      ensures emitted == []
    {
      emitted := [];
    }

    /** `io.emit(name, payload)` to every connected client. */
    method Emit(e: Event)
      modifies this
      ensures emitted == old(emitted) + [e]
    {
      emitted := emitted + [e];
    }
  }
}

=== FILE: tag_controller.dfy ===
/**
 * The handlers that create and rename tags. Neither broadcasts anything.
 */
module TagController {
  import opened Wrappers
  import opened Http
  import opened JsText
  import opened Schema
  import opened Store
  import opened Sockets

  /** `POST /tags` with body `{ name }`: only a falsy name is refused; the
      name is neither trimmed nor checked against the other tags, so a taken
      name reaches the UNIQUE constraint, whose error becomes a 500. */
  method CreateTag(db: Database, io: SocketService, name: Option<string>)
    returns (res: Response<Tag>)
    requires db.Valid()
    modifies db
    ensures db.Valid()
    ensures Consistent(old(db.Snapshot())) ==> Consistent(db.Snapshot())
    ensures db.nextCallId == old(db.nextCallId) && db.nextTaskId == old(db.nextTaskId)
    ensures io.emitted == old(io.emitted)
    ensures !res.IsSuccess() ==> db.Snapshot() == old(db.Snapshot())
    ensures !Truthy(name) ==> res == BadRequest("Tag name is required") && db.nextTagId == old(db.nextTagId)
    ensures Truthy(name) ==>
      var tag := Tag(old(db.nextTagId), name.value);
      db.nextTagId == old(db.nextTagId) + 1 &&
      if exists k :: k in old(db.tags) && old(db.tags)[k].name == name.value then
        res == InternalError
      else
        res == Created(tag) && tag.id !in old(db.tags) &&
        db.Snapshot() == old(db.Snapshot()).(tags := old(db.tags)[tag.id := tag])
  {
    if !Truthy(name) {
      return BadRequest("Tag name is required");
    }
    var tag := db.CreateTag(name.value);
    if tag.None? {
      return InternalError;
    }
    return Created(tag.value);
  }

  /** Another tag than `id` is named `name`: the `Op.ne` lookup. */
  predicate NameTakenByOther(tags: map<Id, Tag>, id: Id, name: string) {
    exists k :: k in tags && k != id && tags[k].name == name
  }

  /**
   * `PUT /tags/:id` with body `{ name }`: checks, in this order, a blank
   * name (400), an absent tag (404) and another tag already named like the
   * trimmed name (400); then stores the name as given, untrimmed. A name
   * that only the untrimmed form shares with another tag passes the check
   * and reaches the UNIQUE constraint, whose error becomes a 500.
   */
  method UpdateTag(db: Database, io: SocketService, id: Id, name: Option<string>)
    returns (res: Response<Tag>)
    requires db.Valid()
    modifies db
    ensures db.Valid()
    ensures Consistent(old(db.Snapshot())) ==> Consistent(db.Snapshot())
    ensures db.nextCallId == old(db.nextCallId) && db.nextTagId == old(db.nextTagId) && db.nextTaskId == old(db.nextTaskId)
    ensures io.emitted == old(io.emitted)
    ensures !res.Ok? ==> db.Snapshot() == old(db.Snapshot())
    ensures
      if name.None? || IsBlank(name.value) then
        res == BadRequest("Tag name is required")
      else if id !in old(db.tags) then
        res == NotFound("Tag not found")
      else if NameTakenByOther(old(db.tags), id, Trim(name.value)) then
        res == BadRequest("Tag with this name already exists")
      else if NameTakenByOther(old(db.tags), id, name.value) then
        res == InternalError
      else
        res == Ok(Tag(id, name.value)) &&
        db.Snapshot() == old(db.Snapshot()).(tags := old(db.tags)[id := Tag(id, name.value)])
  {
    if name.Some? {
      TrimEmptyIffBlank(name.value);
    }
    if !Truthy(name) || Trim(name.value) == "" {
      return BadRequest("Tag name is required");
    }
    if id !in db.tags {
      return NotFound("Tag not found");
    }
    if NameTakenByOther(db.tags, id, Trim(name.value)) {
      return BadRequest("Tag with this name already exists");
    }
    var ok := db.RenameTag(id, name.value);
    if !ok {
      return InternalError;
    }
    return Ok(Tag(id, name.value));
  }

  /** Renaming a tag to its own current name is allowed: only other tags
      count as a clash. */
  lemma RenameToOwnNameAllowed(tags: map<Id, Tag>, id: Id)
    requires id in tags && tags[id].id == id
    requires forall a, b :: a in tags && b in tags && a != b ==> tags[a].name != tags[b].name
    ensures !NameTakenByOther(tags, id, tags[id].name)
  {
  }

  /** The clash check looks at the trimmed name while the write stores the
      untrimmed one: with a tag named " a", renaming another tag to " a"
      passes the check and is refused by the UNIQUE constraint. */
  lemma TrimmedCheckMissesUntrimmedClash()
    ensures var tags := map[1 := Tag(1, " a"), 2 := Tag(2, "b")];
      !NameTakenByOther(tags, 2, Trim(" a")) && NameTakenByOther(tags, 2, " a")
  {
    var tags := map[1 := Tag(1, " a"), 2 := Tag(2, "b")];
    assert ContentStart(" a", 0) == 1;
    assert ContentEnd(" a", 1, 2) == 2;
    assert Trim(" a") == "a";
    assert tags[1].name == " a" && " a" != "a";
  }
}

=== FILE: tag_task_controller.dfy ===
/**
 * The handlers of the tag-to-suggested-task links: listing the tasks of a
 * tag, linking a suggested task to a tag, collecting the suggested tasks of
 * several tags for a call, and listing every link.
 */
module TagTaskController {
  import opened Wrappers
  import opened Http
  import opened Schema
  import opened Store
  import opened Sockets
  import opened Events

  /** `GET /tags/:tagId/tasks`: the tasks linked to the tag; 404 for an
      absent tag. The association has no scope, so the schema alone does
      not make these suggested tasks. */
  function GetTagSuggestedTasks(t: Tables, tagId: Id): (res: Response<set<Task>>)
    requires KeyedById(t)
    ensures res.Ok? || res.NotFound?
    ensures res.NotFound? <==> tagId !in t.tags
    ensures res.NotFound? ==> res.message == "Tag not found"
    ensures res.Ok? ==> forall task :: task in res.data <==>
      task.id in t.tasks && t.tasks[task.id] == task && TagTask(tagId, task.id) in t.tagTasks
  {
    if tagId !in t.tags then NotFound("Tag not found")
    else Ok(set k | k in t.tasks && TagTask(tagId, k) in t.tagTasks :: t.tasks[k])
  }

  /** In a consistent store every task a tag lists is a suggested one. */
  lemma TagTasksAreSuggested(t: Tables, tagId: Id)
    requires Consistent(t)
    ensures GetTagSuggestedTasks(t, tagId).Ok? ==> forall task :: task in GetTagSuggestedTasks(t, tagId).data ==> task.isSuggested
  {
  }

  /**
   * `POST /tags/:tagId/tasks` with body `{ taskId }` (absent or 0 is falsy).
   * Only a suggested task can be linked, and only once; `storeFault` says
   * that the insert raises, which rolls back and becomes a 500.
   */
  method AddSuggestedTaskToTag(db: Database, io: SocketService, tagId: Id, taskId: Option<nat>, storeFault: bool)
    returns (res: Response<()>)
    requires db.Valid()
    modifies db, io
    ensures db.Valid()
    ensures Consistent(old(db.Snapshot())) ==> Consistent(db.Snapshot())
    ensures db.nextCallId == old(db.nextCallId) && db.nextTagId == old(db.nextTagId) && db.nextTaskId == old(db.nextTaskId)
    ensures !res.IsSuccess() ==> db.Snapshot() == old(db.Snapshot()) && io.emitted == old(io.emitted)
    ensures !TruthyId(taskId) ==> res == BadRequest("Task ID is required")
    ensures TruthyId(taskId) ==>
      var id := taskId.value;
      if tagId !in old(db.tags) then
        res == NotFound("Tag not found")
      else if id !in old(db.tasks) || !old(db.tasks)[id].isSuggested then
        res == NotFound("Suggested task not found")
      else if TagTask(tagId, id) in old(db.tagTasks) then
        res == BadRequest("Task is already linked to this tag")
      else if storeFault then
        res == InternalError
      else
        res == Ok(()) &&
        db.Snapshot() == old(db.Snapshot()).(tagTasks := old(db.tagTasks) + {TagTask(tagId, id)}) &&
        io.emitted == old(io.emitted) + [TagSuggestedTaskAdded(tagId, id)]
  {
    if !TruthyId(taskId) {
      return BadRequest("Task ID is required");
    }
    var id := taskId.value;
    var tx := db.Transaction();
    if tagId !in db.tags {
      db.Rollback(tx);
      return NotFound("Tag not found");
    }
    if id !in db.tasks || !db.tasks[id].isSuggested {
      db.Rollback(tx);
      return NotFound("Suggested task not found");
    }
    if TagTask(tagId, id) in db.tagTasks {
      db.Rollback(tx);
      return BadRequest("Task is already linked to this tag");
    }
    if storeFault {
      db.Rollback(tx);
      return InternalError;
    }
    db.AddTagTask(TagTask(tagId, id));
    io.Emit(TagSuggestedTaskAdded(tagId, id));
    return Ok(());
  }

  /** The same link requested twice: once the first request has linked the
      pair, the second is refused with 400, whether or not its insert would
      fail, and leaves the tables and the event log as the first left them. */
  method LinkingTwiceIsRefused(db: Database, io: SocketService, tagId: Id, taskId: nat, storeFault: bool)
    returns (first: Response<()>, second: Response<()>, ghost between: Tables, ghost emittedBetween: seq<Event>)
    requires db.Valid()
    modifies db, io
    ensures db.Valid()
    ensures first == Ok(()) ==> TagTask(tagId, taskId) in between.tagTasks
    ensures first == Ok(()) ==>
      between == old(db.Snapshot()).(tagTasks := old(db.tagTasks) + {TagTask(tagId, taskId)}) &&
      emittedBetween == old(io.emitted) + [TagSuggestedTaskAdded(tagId, taskId)]
    ensures first == Ok(()) ==> second == BadRequest("Task is already linked to this tag")
    ensures first == Ok(()) ==> db.Snapshot() == between && io.emitted == emittedBetween
  {
    first := AddSuggestedTaskToTag(db, io, tagId, Some(taskId), false);
    between, emittedBetween := db.Snapshot(), io.emitted;
    second := AddSuggestedTaskToTag(db, io, tagId, Some(taskId), storeFault);
  }

  /** The keys of a JavaScript `Map` after `set` was called with the keys of
      `s` in order: each key once, at the place of its first `set`. */
  function InsertionOrder(s: seq<Id>): (r: seq<Id>)
    ensures Distinct(r)
    ensures Elems(r) == Elems(s)
    decreases |s|
  {
    if s == [] then []
    else
      var p, x := s[..|s| - 1], s[|s| - 1];
      assert s == p + [x];
      var q := InsertionOrder(p);
      if x in q then q else (DistinctSnoc(q, x); q + [x])
  }

  lemma InsertionOrderSnoc(s: seq<Id>, x: Id)
    ensures InsertionOrder(s + [x]) == if x in InsertionOrder(s) then InsertionOrder(s) else InsertionOrder(s) + [x]
    ensures Elems(s + [x]) == Elems(s) + {x}
  {
    assert (s + [x])[..|s|] == s;
  }

  /** The position of the first occurrence of `x` in `s`. */
  function FirstIndex(s: seq<Id>, x: Id): (i: nat)
    requires x in s
    ensures i < |s| && s[i] == x && forall j :: 0 <= j < i ==> s[j] != x
  {
    if s[0] == x then 0 else 1 + FirstIndex(s[1..], x)
  }

  /** Appending to a sequence moves no first occurrence. */
  lemma FirstIndexSnoc(p: seq<Id>, x: Id, y: Id)
    requires y in p
    ensures FirstIndex(p + [x], y) == FirstIndex(p, y)
  {
    var s := p + [x];
    var i, j := FirstIndex(s, y), FirstIndex(p, y);
    assert s[j] == y;
  }

  /** The keys of the `Map` come in the order of their first occurrence. */
  lemma {:induction false} InsertionOrderByFirstOccurrence(s: seq<Id>)
    ensures forall i, j :: 0 <= i < j < |InsertionOrder(s)| ==>
      FirstIndex(s, InsertionOrder(s)[i]) < FirstIndex(s, InsertionOrder(s)[j])
  {
    if s != [] {
      var p, x := s[..|s| - 1], s[|s| - 1];
      assert s == p + [x];
      InsertionOrderByFirstOccurrence(p);
      var q, r := InsertionOrder(p), InsertionOrder(s);
      forall i, j | 0 <= i < j < |r| ensures FirstIndex(s, r[i]) < FirstIndex(s, r[j]) {
        assert r[i] == q[i] && r[i] in p;
        FirstIndexSnoc(p, x, r[i]);
        if j < |q| {
          assert r[j] == q[j] && r[j] in p;
          FirstIndexSnoc(p, x, r[j]);
        } else {
          assert r[j] == x && x !in p;
        }
      }
    }
  }

  /** The ids of the tasks linked to the tag `tagId`. */
  function LinkedTaskIds(tagTasks: set<TagTask>, tagId: Id): (r: set<Id>)
    ensures forall k :: k in r <==> TagTask(tagId, k) in tagTasks
  {
    set x | x in tagTasks && x.tagId == tagId :: x.taskId
  }

  /** The ids of the tasks linked to at least one existing tag of `tagIds`. */
  function TasksOfTags(t: Tables, tagIds: set<Id>): (r: set<Id>)
    ensures forall k :: k in r <==> exists g :: g in tagIds && g in t.tags && TagTask(g, k) in t.tagTasks
  {
    set x | x in t.tagTasks && x.tagId in tagIds && x.tagId in t.tags :: x.taskId
  }

  lemma TasksOfOneMoreTag(t: Tables, tagIds: set<Id>, g: Id)
    requires g in t.tags
    ensures TasksOfTags(t, tagIds + {g}) == TasksOfTags(t, tagIds) + LinkedTaskIds(t.tagTasks, g)
  {
  }

  /** `Array.from(map.values())`: the values in the order of their keys. */
  function ValuesInOrder(keys: seq<Id>, vals: map<Id, TaskRef>): (r: seq<TaskRef>)
    requires forall i :: 0 <= i < |keys| ==> keys[i] in vals
    ensures |r| == |keys| && forall i :: 0 <= i < |keys| ==> r[i] == vals[keys[i]]
  {
    seq(|keys|, i requires 0 <= i < |keys| => vals[keys[i]])
  }

  /** The `Map` holds exactly the keys of `keys`, each mapped to its task
      projected to id and name. */
  ghost predicate MapOfTasks(tasks: map<Id, Task>, keys: seq<Id>, vals: map<Id, TaskRef>) {
    && (forall k :: k in vals <==> k in keys)
    && (forall k :: k in vals ==> k in tasks && vals[k] == RefOf(tasks[k]))
  }

  /** `s` lists the elements of `S`, each once. */
  predicate Lists(s: seq<Id>, S: set<Id>) {
    Distinct(s) && Elems(s) == S
  }

  /** The parts joined end to end. */
  function Concat(parts: seq<seq<Id>>): seq<Id> {
    if parts == [] then [] else Concat(parts[..|parts| - 1]) + parts[|parts| - 1]
  }

  /**
   * The tags `tagOrder` were visited in that order, each once; `parts[i]`
   * lists the tasks of `tagOrder[i]` in the order they were visited, and
   * `visited` is those lists end to end.
   */
  ghost predicate Grouped(t: Tables, tagOrder: seq<Id>, parts: seq<seq<Id>>, visited: seq<Id>) {
    && Distinct(tagOrder)
    && |parts| == |tagOrder|
    && (forall i :: 0 <= i < |parts| ==> Lists(parts[i], LinkedTaskIds(t.tagTasks, tagOrder[i])))
    && visited == Concat(parts)
    && Elems(visited) == TasksOfTags(t, Elems(tagOrder))
  }

  /**
   * `POST /tasks/suggested-for-tags` with body `{ tagIds }` (`None` when
   * absent or not an array). The datastore returns the found tags, and the
   * tasks of each, in an order of its choosing: `tagOrder` is the order of
   * the tags and `parts[i]` the order of the tasks of `tagOrder[i]`, so the
   * nested loops visit the task ids `visited`, all the tasks of one tag
   * before those of the next. The result holds each task once, in the order
   * of its first occurrence there.
   */
  method GetSuggestedTasksForTags(db: Database, tagIds: Option<seq<Id>>)
    returns (res: Response<seq<TaskRef>>, ghost tagOrder: seq<Id>, ghost parts: seq<seq<Id>>, ghost visited: seq<Id>)
    requires db.Valid()
    ensures tagIds.None? || tagIds.value == [] ==> res == BadRequest("Tag IDs array is required")
    ensures tagIds.Some? && tagIds.value != [] ==> res.Ok?
    ensures res.Ok? ==> Lists(tagOrder, FoundTagIds(db.tags, tagIds.value))
    ensures res.Ok? ==> |parts| == |tagOrder|
    ensures res.Ok? ==> forall i :: 0 <= i < |parts| ==> Lists(parts[i], LinkedTaskIds(db.tagTasks, tagOrder[i]))
    ensures res.Ok? ==> visited == Concat(parts)
    ensures res.Ok? ==> Elems(visited) == TasksOfTags(db.Snapshot(), Elems(tagIds.value))
    ensures res.Ok? ==> |res.data| == |InsertionOrder(visited)|
    ensures res.Ok? ==> forall i :: 0 <= i < |res.data| ==>
      InsertionOrder(visited)[i] in db.tasks && res.data[i] == RefOf(db.tasks[InsertionOrder(visited)[i]])
  {
    tagOrder, parts, visited := [], [], [];
    if tagIds.None? || tagIds.value == [] {
      return BadRequest("Tag IDs array is required"), tagOrder, parts, visited;
    }
    var found := FoundTagIds(db.tags, tagIds.value);
    var pendingTags := found;
    var keys: seq<Id> := [];
    var vals: map<Id, TaskRef> := map[];
    while pendingTags != {}
      invariant pendingTags !! Elems(tagOrder) && pendingTags + Elems(tagOrder) == found
      invariant Grouped(db.Snapshot(), tagOrder, parts, visited)
      invariant keys == InsertionOrder(visited) && MapOfTasks(db.tasks, keys, vals)
      decreases pendingTags
    {
      var g :| g in pendingTags;
      ghost var part;
      keys, vals, part := SetTasksOfTag(db.tasks, LinkedTaskIds(db.tagTasks, g), keys, vals, visited);
      NextTag(db.Snapshot(), tagOrder, parts, visited, g, part);
      tagOrder, parts, visited := tagOrder + [g], parts + [part], visited + part;
      pendingTags := pendingTags - {g};
    }
    TasksOfFoundTags(db.Snapshot(), tagIds.value);
    return Ok(ValuesInOrder(keys, vals)), tagOrder, parts, visited;
  }

  /** The first part opens the concatenation. */
  lemma {:induction false} ConcatFirst(parts: seq<seq<Id>>)
    requires |parts| > 0
    ensures Concat(parts) == parts[0] + Concat(parts[1..])
  {
    if |parts| > 1 {
      var init := parts[..|parts| - 1];
      ConcatFirst(init);
      assert init[0] == parts[0] && init[1..] == parts[1..][..|parts[1..]| - 1];
    }
  }

  /** The `Map` keeps the keys it already holds at the front. */
  lemma {:induction false} InsertionOrderPrefix(a: seq<Id>, b: seq<Id>)
    ensures |InsertionOrder(a)| <= |InsertionOrder(a + b)|
    ensures InsertionOrder(a + b)[..|InsertionOrder(a)|] == InsertionOrder(a)
  {
    if b == [] {
      assert a + b == a;
    } else {
      var c, x := b[..|b| - 1], b[|b| - 1];
      assert a + b == (a + c) + [x];
      InsertionOrderPrefix(a, c);
      InsertionOrderSnoc(a + c, x);
    }
  }

  /** Setting keys that are pairwise distinct leaves them in their order. */
  lemma {:induction false} InsertionOrderOfDistinct(s: seq<Id>)
    requires Distinct(s)
    ensures InsertionOrder(s) == s
  {
    if s != [] {
      var p, x := s[..|s| - 1], s[|s| - 1];
      assert s == p + [x];
      DistinctSnoc(p, x);
      InsertionOrderOfDistinct(p);
      InsertionOrderSnoc(p, x);
    }
  }

  /** The tasks of the first tag visited open the answer, in the order that
      tag listed them: the tasks of several tags are never interleaved
      before the first tag is done. */
  lemma FirstTagFirst(parts: seq<seq<Id>>, visited: seq<Id>)
    requires |parts| > 0 && Distinct(parts[0]) && visited == Concat(parts)
    ensures |parts[0]| <= |InsertionOrder(visited)|
    ensures InsertionOrder(visited)[..|parts[0]|] == parts[0]
  {
    ConcatFirst(parts);
    InsertionOrderPrefix(parts[0], Concat(parts[1..]));
    InsertionOrderOfDistinct(parts[0]);
  }

  /** Visiting one more tag `g`, with its tasks in the order `part`. */
  lemma NextTag(t: Tables, tagOrder: seq<Id>, parts: seq<seq<Id>>, visited: seq<Id>, g: Id, part: seq<Id>)
    requires Grouped(t, tagOrder, parts, visited)
    requires g in t.tags && g !in tagOrder && Lists(part, LinkedTaskIds(t.tagTasks, g))
    ensures Grouped(t, tagOrder + [g], parts + [part], visited + part)
    ensures Elems(tagOrder + [g]) == Elems(tagOrder) + {g}
  {
    DistinctSnoc(tagOrder, g);
    ElemsSnoc(tagOrder, g);
    assert (parts + [part])[..|parts|] == parts;
    TasksOfOneMoreTag(t, Elems(tagOrder), g);
    assert Elems(visited + part) == Elems(visited) + Elems(part);
  }

  /** Visiting the found tags reaches the tasks of the requested ones. */
  lemma TasksOfFoundTags(t: Tables, tagIds: seq<Id>)
    ensures TasksOfTags(t, FoundTagIds(t.tags, tagIds)) == TasksOfTags(t, Elems(tagIds))
  {
  }

  /** The inner loop: `suggestedTasksMap.set(task.id, task)` for each task
      `linked` to one tag, in the order `part` the datastore returns them. */
  method SetTasksOfTag(tasks: map<Id, Task>, linked: set<Id>, keys0: seq<Id>, vals0: map<Id, TaskRef>,
                       ghost visited0: seq<Id>)
    returns (keys: seq<Id>, vals: map<Id, TaskRef>, ghost part: seq<Id>)
    requires forall k :: k in linked ==> k in tasks
    requires keys0 == InsertionOrder(visited0) && MapOfTasks(tasks, keys0, vals0)
    ensures Lists(part, linked)
    ensures keys == InsertionOrder(visited0 + part) && MapOfTasks(tasks, keys, vals)
  {
    keys, vals, part := keys0, vals0, [];
    assert visited0 + part == visited0;
    var pendingTasks := linked;
    while pendingTasks != {}
      invariant forall k :: k in pendingTasks ==> k in tasks
      invariant Setting(tasks, visited0, pendingTasks, linked, part, keys, vals)
      decreases pendingTasks
    {
      var k :| k in pendingTasks;
      NextTask(tasks, visited0, pendingTasks, linked, part, keys, vals, k);
      if k !in vals {
        keys := keys + [k];
      }
      vals := vals[k := RefOf(tasks[k])];
      part := part + [k];
      pendingTasks := pendingTasks - {k};
    }
  }

  /** Midway through the inner loop: the tasks `part` of the tag were set,
      in that order, and `pending` are still to come. */
  ghost predicate Setting(tasks: map<Id, Task>, visited0: seq<Id>, pending: set<Id>, linked: set<Id>,
                          part: seq<Id>, keys: seq<Id>, vals: map<Id, TaskRef>) {
    && pending !! Elems(part) && pending + Elems(part) == linked && Distinct(part)
    && keys == InsertionOrder(visited0 + part) && MapOfTasks(tasks, keys, vals)
  }

  /** Setting one more task `k` of the current tag. */
  lemma NextTask(tasks: map<Id, Task>, visited0: seq<Id>, pending: set<Id>, linked: set<Id>,
                 part: seq<Id>, keys: seq<Id>, vals: map<Id, TaskRef>, k: Id)
    requires Setting(tasks, visited0, pending, linked, part, keys, vals) && k in pending && k in tasks
    ensures Setting(tasks, visited0, pending - {k}, linked, part + [k],
                    if k in vals then keys else keys + [k], vals[k := RefOf(tasks[k])])
  {
    SetKeepsMapOfTasks(tasks, keys, vals, visited0 + part, k);
    DistinctSnoc(part, k);
    ElemsSnoc(part, k);
    assert visited0 + part + [k] == visited0 + (part + [k]);
  }

  /** One `set` on the `Map` keeps it in step with the ids seen so far. */
  lemma SetKeepsMapOfTasks(tasks: map<Id, Task>, keys: seq<Id>, vals: map<Id, TaskRef>, visited: seq<Id>, k: Id)
    requires k in tasks && keys == InsertionOrder(visited) && MapOfTasks(tasks, keys, vals)
    ensures k in vals ==> keys == InsertionOrder(visited + [k]) && MapOfTasks(tasks, keys, vals[k := RefOf(tasks[k])])
    ensures k !in vals ==> keys + [k] == InsertionOrder(visited + [k]) && MapOfTasks(tasks, keys + [k], vals[k := RefOf(tasks[k])])
    ensures Elems(visited + [k]) == Elems(visited) + {k}
  {
    InsertionOrderSnoc(visited, k);
    SetKeepsMap(tasks, keys, vals, k);
  }

  lemma SetKeepsMap(tasks: map<Id, Task>, keys: seq<Id>, vals: map<Id, TaskRef>, k: Id)
    requires k in tasks && MapOfTasks(tasks, keys, vals)
    ensures k in vals <==> k in keys
    ensures k in vals ==> MapOfTasks(tasks, keys, vals[k := RefOf(tasks[k])])
    ensures k !in vals ==> MapOfTasks(tasks, keys + [k], vals[k := RefOf(tasks[k])])
  {
    var keys', vals' := keys + [k], vals[k := RefOf(tasks[k])];
    assert forall x :: x in keys' <==> x in keys || x == k;
  }

  /** The result of `GetSuggestedTasksForTags` holds each task once, holds
      exactly the tasks linked to one of the requested tags, and lists them in
      the order of their first occurrence. */
  lemma SuggestedTasksForTagsShape(t: Tables, tagIds: seq<Id>, visited: seq<Id>, data: seq<TaskRef>)
    requires KeyedById(t)
    requires Elems(visited) == TasksOfTags(t, Elems(tagIds))
    requires |data| == |InsertionOrder(visited)|
    requires forall i :: 0 <= i < |data| ==>
      InsertionOrder(visited)[i] in t.tasks && data[i] == RefOf(t.tasks[InsertionOrder(visited)[i]])
    ensures forall i, j :: 0 <= i < j < |data| ==> data[i].id != data[j].id
    ensures forall k :: k in TasksOfTags(t, Elems(tagIds)) <==> exists i :: 0 <= i < |data| && data[i].id == k
    ensures forall i, j :: 0 <= i < j < |data| ==> FirstIndex(visited, data[i].id) < FirstIndex(visited, data[j].id)
  {
    var order := InsertionOrder(visited);
    assert forall i :: 0 <= i < |data| ==> data[i].id == order[i];
    InsertionOrderByFirstOccurrence(visited);
    forall k | k in TasksOfTags(t, Elems(tagIds)) ensures exists i :: 0 <= i < |data| && data[i].id == k {
      assert k in Elems(order);
      var i :| 0 <= i < |order| && order[i] == k;
      assert data[i].id == k;
    }
  }

  /** One element of `GET /tag-tasks`: a link with its tag and its task
      projected to id and name. */
  datatype Association = Association(tagId: Id, taskId: Id, tag: Tag, task: TaskRef)

  /** `GET /tag-tasks`: the links whose task is suggested, joined with their
      tag and task; links to other tasks are dropped by the inner join. */
  function GetAllTagTaskAssociations(t: Tables): (res: Response<set<Association>>)
    requires SchemaValid(t)
    ensures res.Ok?
    ensures forall a :: a in res.data <==>
      TagTask(a.tagId, a.taskId) in t.tagTasks && t.tasks[a.taskId].isSuggested &&
      a.tag == t.tags[a.tagId] && a.task == RefOf(t.tasks[a.taskId])
  {
    Ok(set x | x in t.tagTasks && t.tasks[x.taskId].isSuggested ::
         Association(x.tagId, x.taskId, t.tags[x.tagId], RefOf(t.tasks[x.taskId])))
  }

  /** In a consistent store the inner join drops nothing: every link is listed. */
  lemma AllAssociationsListed(t: Tables, x: TagTask)
    requires Consistent(t) && x in t.tagTasks
    ensures Association(x.tagId, x.taskId, t.tags[x.tagId], RefOf(t.tasks[x.taskId])) in GetAllTagTaskAssociations(t).data
  {
  }
}

=== FILE: tags_api.dfy ===
/**
 * The tag endpoints of the client's API slice: the cache tags each query
 * provides and each mutation invalidates.
 */
module TagsApi {
  import opened Wrappers
  import opened CacheKeys

  /** `getAllTags`: Tag[id] for each tag, then Tag LIST. */
  function GetAllTags(result: Option<seq<nat>>): seq<Provided> {
    ListWithItems(Tag, result)
  }

  /** `getTagById(id)`. */
  function GetTagById(id: nat): seq<Provided> {
    Single(Tag, id)
  }

  /** `createTag`. */
  function CreateTag(): seq<Invalidation> {
    [Item(Tag, LIST), Item(CallTag, LIST)]
  }

  /** `updateTag({ id })`. */
  function UpdateTag(id: nat): seq<Invalidation> {
    [Item(Tag, Num(id)), Item(Tag, LIST), Item(Call, LIST), Item(CallTag, LIST)]
  }

  /** `getTagSuggestedTasks(tagId)`. */
  function GetTagSuggestedTasks(tagId: nat): seq<Provided> {
    Single(TagTaskAssociation, tagId)
  }

  /** `addSuggestedTaskToTag({ tagId })`. */
  function AddSuggestedTaskToTag(tagId: nat): seq<Invalidation> {
    [Item(TagTaskAssociation, Num(tagId)), Item(TagTaskAssociation, LIST), Item(SuggestedTask, LIST)]
  }

  /** `deleteTag(id)`. */
  function DeleteTag(id: nat): seq<Invalidation> {
    [Item(Tag, Num(id)), Item(Tag, LIST), Item(CallTag, LIST)]
  }
}

=== FILE: task_controller.dfy ===
/**
 * The handlers of the suggested-task catalog: listing, creating, renaming
 * and deleting the tasks that carry `isSuggested`.
 */
module TaskController {
  import opened Wrappers
  import opened Http
  import opened JsText
  import opened Schema
  import opened Store
  import opened Sockets
  import opened Events

  /** `!name || name.trim() === ""`: the name is absent or all whitespace. */
  predicate BlankName(name: Option<string>) {
    !Truthy(name) || Trim(name.value) == ""
  }

  lemma BlankNameMeansWhitespace(name: Option<string>)
    ensures BlankName(name) <==> name.None? || IsBlank(name.value)
  {
    if name.Some? {
      TrimEmptyIffBlank(name.value);
    }
  }

  /** `GET /tasks/suggested`: exactly the tasks with `isSuggested` set. */
  function GetSuggestedTasks(t: Tables): (res: Response<set<Task>>)
    requires KeyedById(t)
    ensures res.Ok?
    ensures forall task :: task in res.data <==> task.id in t.tasks && t.tasks[task.id] == task && task.isSuggested
  {
    Ok(set k | k in t.tasks && t.tasks[k].isSuggested :: t.tasks[k])
  }

  /** `POST /tasks/suggested` with body `{ name }`: a name that is absent or
      all whitespace is refused; otherwise a suggested task is created with
      the name exactly as given and broadcast. */
  method CreateSuggestedTask(db: Database, io: SocketService, name: Option<string>)
    returns (res: Response<Task>)
    requires db.Valid()
    modifies db, io
    ensures db.Valid()
    ensures Consistent(old(db.Snapshot())) ==> Consistent(db.Snapshot())
    ensures db.nextCallId == old(db.nextCallId) && db.nextTagId == old(db.nextTagId)
    ensures name.None? || IsBlank(name.value) ==>
      res == BadRequest("Task name is required") && db.Snapshot() == old(db.Snapshot()) &&
      db.nextTaskId == old(db.nextTaskId) && io.emitted == old(io.emitted)
    ensures name.Some? && !IsBlank(name.value) ==>
      var task := Task(old(db.nextTaskId), name.value, true);
      res == Created(task) && task.id !in old(db.tasks) &&
      db.Snapshot() == old(db.Snapshot()).(tasks := old(db.tasks)[task.id := task]) &&
      db.nextTaskId == old(db.nextTaskId) + 1 &&
      io.emitted == old(io.emitted) + [TaskCreated(task)]
  {
    BlankNameMeansWhitespace(name);
    if BlankName(name) {
      return BadRequest("Task name is required");
    }
    var task := db.CreateTask(name.value, true);
    io.Emit(TaskCreated(task));
    return Created(task);
  }

  /** `PUT /tasks/suggested/:id` with body `{ name }`: checks, in this order,
      a blank name (400), an absent task (404) and a task that is not
      suggested (400); then renames the task and broadcasts it. */
  method UpdateSuggestedTask(db: Database, io: SocketService, id: Id, name: Option<string>)
    returns (res: Response<Task>)
    requires db.Valid()
    modifies db, io
    ensures db.Valid()
    ensures Consistent(old(db.Snapshot())) ==> Consistent(db.Snapshot())
    ensures db.nextCallId == old(db.nextCallId) && db.nextTagId == old(db.nextTagId) && db.nextTaskId == old(db.nextTaskId)
    ensures !res.Ok? ==> db.Snapshot() == old(db.Snapshot()) && io.emitted == old(io.emitted)
    ensures
      if name.None? || IsBlank(name.value) then
        res == BadRequest("Task name is required")
      else if id !in old(db.tasks) then
        res == NotFound("Task not found")
      else if !old(db.tasks)[id].isSuggested then
        res == BadRequest("Only suggested tasks can be updated")
      else
        var task := old(db.tasks)[id].(name := name.value);
        res == Ok(task) && task.isSuggested &&
        db.Snapshot() == old(db.Snapshot()).(tasks := old(db.tasks)[id := task]) &&
        io.emitted == old(io.emitted) + [TaskUpdated(task)]
  {
    BlankNameMeansWhitespace(name);
    if BlankName(name) {
      return BadRequest("Task name is required");
    }
    if id !in db.tasks {
      return NotFound("Task not found");
    }
    if !db.tasks[id].isSuggested {
      return BadRequest("Only suggested tasks can be updated");
    }
    db.RenameTask(id, name.value);
    var task := db.tasks[id];
    io.Emit(TaskUpdated(task));
    return Ok(task);
  }

  /** `DELETE /tasks/suggested/:id`: only a suggested task is destroyed,
      with its `call_task` and `tag_task` rows; nothing is broadcast. */
  method DeleteSuggestedTask(db: Database, io: SocketService, id: Id)
    returns (res: Response<()>)
    requires db.Valid()
    modifies db
    ensures db.Valid()
    ensures Consistent(old(db.Snapshot())) ==> Consistent(db.Snapshot())
    ensures db.nextCallId == old(db.nextCallId) && db.nextTagId == old(db.nextTagId) && db.nextTaskId == old(db.nextTaskId)
    ensures io.emitted == old(io.emitted)
    ensures !res.Ok? ==> db.Snapshot() == old(db.Snapshot())
    ensures
      if id !in old(db.tasks) then
        res == NotFound("Task not found")
      else if !old(db.tasks)[id].isSuggested then
        res == BadRequest("Only suggested tasks can be deleted")
      else
        res == Ok(()) && db.Snapshot() == DestroyTask(old(db.Snapshot()), id)
  {
    if id !in db.tasks {
      return NotFound("Task not found");
    }
    if !db.tasks[id].isSuggested {
      return BadRequest("Only suggested tasks can be deleted");
    }
    db.DestroyTask(id);
    return Ok(());
  }

  /** After a delete, no `call_task` or `tag_task` row names the task, and
      every other row is kept. */
  lemma DeleteLeavesNoDanglingRows(t: Tables, id: Id)
    requires SchemaValid(t)
    ensures var r := DestroyTask(t, id);
      SchemaValid(r) && id !in r.tasks &&
      (forall k :: k in r.callTasks ==> k.taskId != id) &&
      (forall x :: x in r.tagTasks ==> x.taskId != id) &&
      (forall k :: k in t.callTasks && k.taskId != id ==> k in r.callTasks && r.callTasks[k] == t.callTasks[k]) &&
      (forall x :: x in t.tagTasks && x.taskId != id ==> x in r.tagTasks)
  {
  }
}

=== FILE: tasks_api.dfy ===
/**
 * The task endpoints of the client's API slice: the cache tags each query
 * provides and each mutation invalidates.
 */
module TasksApi {
  import opened Wrappers
  import opened CacheKeys

  /** `getAllTasks`: Task[id] for each task, then Task LIST. */
  function GetAllTasks(result: Option<seq<nat>>): seq<Provided> {
    ListWithItems(Task, result)
  }

  /** `getTaskById(id)`. */
  function GetTaskById(id: nat): seq<Provided> {
    Single(Task, id)
  }

  /** `getSuggestedTasks`: SuggestedTask[id] for each task, then SuggestedTask LIST. */
  function GetSuggestedTasks(result: Option<seq<nat>>): seq<Provided> {
    ListWithItems(SuggestedTask, result)
  }

  /** `createSuggestedTask`. */
  function CreateSuggestedTask(): seq<Invalidation> {
    [Item(SuggestedTask, LIST), Item(Task, LIST)]
  }

  /** `updateSuggestedTask({ id })`. */
  function UpdateSuggestedTask(id: nat): seq<Invalidation> {
    [Item(SuggestedTask, Num(id)), Item(SuggestedTask, LIST), Item(Task, Num(id)), Item(Task, LIST), Item(CallTask, LIST)]
  }

  /** `getSuggestedTasksForTags` is declared as a mutation without
      `invalidatesTags`; as a mutation it provides nothing either. */
  function GetSuggestedTasksForTags(): seq<Invalidation> {
    []
  }
}

=== FILE: tasks_section.dfy ===
/**
 * The order in which the tasks of a call are listed: a copy of the call's
 * tasks sorted by status, open ones first, then those in progress, then
 * the completed ones. The sort is stable, so tasks of the same status keep
 * the order in which they came.
 */
module TasksSection {
  import opened Wrappers
  import opened Schema

  /** A task of a call as the list receives it; `taskStatus` is `None` when
      the field is missing or empty. */
  datatype CallTaskView = CallTaskView(callId: Id, taskId: Id, taskStatus: Option<TaskStatus>)

  /** The `statusOrder` rank of a task; a missing status ranks as Open. */
  function Rank(t: CallTaskView): (r: nat)
    ensures r <= 2
  {
    match t.taskStatus
    case None => 0
    case Some(Open) => 0
    case Some(InProgress) => 1
    case Some(Completed) => 2
  }

  /** Open (or missing) before In Progress before Completed. */
  lemma RankOrder(t: CallTaskView)
    ensures Rank(t) == 0 <==> t.taskStatus.None? || t.taskStatus == Some(Open)
    ensures Rank(t) == 1 <==> t.taskStatus == Some(InProgress)
    ensures Rank(t) == 2 <==> t.taskStatus == Some(Completed)
  {
  }

  /** The comparator: negative, zero or positive as `a` ranks before, with
      or after `b`. */
  function Compare(a: CallTaskView, b: CallTaskView): int {
    Rank(a) - Rank(b)
  }

  predicate SortedByRank(s: seq<CallTaskView>) {
    forall i, j :: 0 <= i < j < |s| ==> Compare(s[i], s[j]) <= 0
  }

  /** `x` placed in the sorted `s` after every task that does not rank
      after it. */
  function Insert(x: CallTaskView, s: seq<CallTaskView>): seq<CallTaskView> {
    if s == [] then [x]
    else if Compare(x, s[0]) < 0 then [x] + s
    else [s[0]] + Insert(x, s[1..])
  }

  /**
   * `[...tasks].sort(comparator)`: a new sequence; the input is a value and
   * stays as it was. A stable sort, taking the tasks one at a time in
   * their order and inserting each after the tasks that do not rank
   * after it.
   */
  function SortedTasks(tasks: seq<CallTaskView>): seq<CallTaskView> {
    if tasks == [] then []
    else Insert(tasks[|tasks| - 1], SortedTasks(tasks[..|tasks| - 1]))
  }

  /** The tasks of rank `k`, in their order. */
  function Bucket(s: seq<CallTaskView>, k: nat): seq<CallTaskView> {
    if s == [] then []
    else Bucket(s[..|s| - 1], k) + (if Rank(s[|s| - 1]) == k then [s[|s| - 1]] else [])
  }

  /** Bucket `k` holds only tasks of rank `k`. */
  lemma {:induction false} BucketRanks(s: seq<CallTaskView>, k: nat)
    ensures forall t :: t in Bucket(s, k) ==> Rank(t) == k
  {
    if s != [] {
      BucketRanks(s[..|s| - 1], k);
    }
  }

  /** Inserting into a list whose first part does not rank after `x` and
      whose rest ranks after it puts `x` between the two. */
  lemma {:induction false} InsertBetween(x: CallTaskView, a: seq<CallTaskView>, c: seq<CallTaskView>)
    requires forall t :: t in a ==> Rank(t) <= Rank(x)
    requires forall t :: t in c ==> Rank(t) > Rank(x)
    ensures Insert(x, a + c) == a + [x] + c
  {
    if a == [] {
      assert a + c == c;
      if c != [] {
        assert c[0] in c;
      }
    } else {
      assert (a + c)[0] == a[0] && (a + c)[1..] == a[1..] + c;
      assert a[0] in a;
      InsertBetween(x, a[1..], c);
      assert a == [a[0]] + a[1..];
    }
  }

  /** The sort is stable: it lists the open tasks, then those in progress,
      then the completed ones, each group in input order. */
  lemma {:induction false} SortedTasksIsBuckets(tasks: seq<CallTaskView>)
    ensures SortedTasks(tasks) == Bucket(tasks, 0) + Bucket(tasks, 1) + Bucket(tasks, 2)
  {
    if tasks != [] {
      var p, x := tasks[..|tasks| - 1], tasks[|tasks| - 1];
      SortedTasksIsBuckets(p);
      var b0, b1, b2 := Bucket(p, 0), Bucket(p, 1), Bucket(p, 2);
      BucketRanks(p, 0);
      BucketRanks(p, 1);
      BucketRanks(p, 2);
      InsertIntoGroups(x, b0, b1, b2);
      var r := Rank(x);
      BucketSnoc(tasks, r);
      if r == 0 {
        BucketSnocOther(tasks, 1);
        BucketSnocOther(tasks, 2);
      } else if r == 1 {
        BucketSnocOther(tasks, 0);
        BucketSnocOther(tasks, 2);
      } else {
        BucketSnocOther(tasks, 0);
        BucketSnocOther(tasks, 1);
      }
    }
  }

  /** Inserting a task into the three groups appends it to its own group. */
  lemma InsertIntoGroups(x: CallTaskView, b0: seq<CallTaskView>, b1: seq<CallTaskView>, b2: seq<CallTaskView>)
    requires forall t :: t in b0 ==> Rank(t) == 0
    requires forall t :: t in b1 ==> Rank(t) == 1
    requires forall t :: t in b2 ==> Rank(t) == 2
    ensures Rank(x) == 0 ==> Insert(x, b0 + b1 + b2) == (b0 + [x]) + b1 + b2
    ensures Rank(x) == 1 ==> Insert(x, b0 + b1 + b2) == b0 + (b1 + [x]) + b2
    ensures Rank(x) == 2 ==> Insert(x, b0 + b1 + b2) == b0 + b1 + (b2 + [x])
  {
    var s := b0 + b1 + b2;
    if Rank(x) == 0 {
      var c := b1 + b2;
      assert s == b0 + c;
      InsertFirstGroup(x, b0, c);
    } else if Rank(x) == 1 {
      var a := b0 + b1;
      assert s == a + b2;
      InsertBetween(x, a, b2);
    } else {
      InsertLastGroup(x, s);
    }
  }

  lemma InsertFirstGroup(x: CallTaskView, b0: seq<CallTaskView>, c: seq<CallTaskView>)
    requires Rank(x) == 0
    requires forall t :: t in b0 ==> Rank(t) == 0
    requires forall t :: t in c ==> Rank(t) > 0
    ensures Insert(x, b0 + c) == b0 + [x] + c
  {
    InsertBetween(x, b0, c);
  }

  lemma InsertLastGroup(x: CallTaskView, a: seq<CallTaskView>)
    requires forall t :: t in a ==> Rank(t) <= Rank(x)
    ensures Insert(x, a) == a + [x]
  {
    InsertBetween(x, a, []);
    assert a + [] == a;
  }

  /** The last task of a non-empty list ends its own bucket. */
  lemma BucketSnoc(tasks: seq<CallTaskView>, k: nat)
    requires tasks != [] && Rank(tasks[|tasks| - 1]) == k
    ensures Bucket(tasks, k) == Bucket(tasks[..|tasks| - 1], k) + [tasks[|tasks| - 1]]
  {
  }

  /** The last task of a non-empty list is not in the other buckets. */
  lemma BucketSnocOther(tasks: seq<CallTaskView>, k: nat)
    requires tasks != [] && Rank(tasks[|tasks| - 1]) != k
    ensures Bucket(tasks, k) == Bucket(tasks[..|tasks| - 1], k)
  {
  }

  /** Inserting adds the task once and keeps every other. */
  lemma {:induction false} InsertPermutation(x: CallTaskView, s: seq<CallTaskView>)
    ensures multiset(Insert(x, s)) == multiset(s) + multiset{x}
  {
    if s != [] && Compare(x, s[0]) >= 0 {
      InsertPermutation(x, s[1..]);
      assert s == [s[0]] + s[1..];
    }
  }

  /** The sorted copy holds every task exactly as often as the input. */
  lemma {:induction false} SortedTasksPermutation(tasks: seq<CallTaskView>)
    ensures multiset(SortedTasks(tasks)) == multiset(tasks)
  {
    if tasks != [] {
      var p, x := tasks[..|tasks| - 1], tasks[|tasks| - 1];
      SortedTasksPermutation(p);
      InsertPermutation(x, SortedTasks(p));
      assert tasks == p + [x];
    }
  }

  /** Tasks of lower rank come first in the concatenated buckets. */
  lemma BucketsSorted(tasks: seq<CallTaskView>)
    ensures SortedByRank(Bucket(tasks, 0) + Bucket(tasks, 1) + Bucket(tasks, 2))
  {
    var b0, b1, b2 := Bucket(tasks, 0), Bucket(tasks, 1), Bucket(tasks, 2);
    var s := b0 + b1 + b2;
    BucketRanks(tasks, 0);
    BucketRanks(tasks, 1);
    BucketRanks(tasks, 2);
    forall i, j | 0 <= i < j < |s| ensures Compare(s[i], s[j]) <= 0 {
      assert s[i] in b0 || s[i] in b1 || s[i] in b2;
      assert s[j] in b0 || s[j] in b1 || s[j] in b2;
      if i < |b0| { assert s[i] in b0; }
      else if i < |b0| + |b1| { assert s[i] == b1[i - |b0|]; assert j >= |b0|; assert s[j] in b1 + b2; }
      else { assert s[j] == b2[j - |b0| - |b1|]; }
    }
  }

  /** The sorted copy ranks its tasks in non-decreasing order, is a
      permutation of the input, and keeps equal-rank tasks in input order. */
  lemma SortedTasksCorrect(tasks: seq<CallTaskView>)
    ensures SortedByRank(SortedTasks(tasks))
    ensures multiset(SortedTasks(tasks)) == multiset(tasks)
    ensures forall k :: Bucket(SortedTasks(tasks), k) == Bucket(tasks, k)
  {
    SortedTasksIsBuckets(tasks);
    SortedTasksPermutation(tasks);
    BucketsSorted(tasks);
    forall k ensures Bucket(SortedTasks(tasks), k) == Bucket(tasks, k) {
      BucketOfBuckets(tasks, k);
    }
  }

  /** Picking rank `k` out of the concatenated buckets gives bucket `k`. */
  lemma BucketOfBuckets(tasks: seq<CallTaskView>, k: nat)
    ensures Bucket(Bucket(tasks, 0) + Bucket(tasks, 1) + Bucket(tasks, 2), k) == Bucket(tasks, k)
  {
    var b0, b1, b2 := Bucket(tasks, 0), Bucket(tasks, 1), Bucket(tasks, 2);
    BucketAppend(b0 + b1, b2, k);
    BucketAppend(b0, b1, k);
    BucketIdempotent(tasks, 0, k);
    BucketIdempotent(tasks, 1, k);
    BucketIdempotent(tasks, 2, k);
    if k > 2 {
      BucketEmpty(tasks, k);
    }
  }

  lemma {:induction false} BucketAppend(a: seq<CallTaskView>, b: seq<CallTaskView>, k: nat)
    ensures Bucket(a + b, k) == Bucket(a, k) + Bucket(b, k)
    decreases |b|
  {
    if b == [] {
      assert a + b == a;
    } else {
      var p, x := b[..|b| - 1], b[|b| - 1];
      assert (a + b)[..|a + b| - 1] == a + p && (a + b)[|a + b| - 1] == x;
      BucketAppend(a, p, k);
    }
  }

  /** Bucket `j` holds only tasks of rank `j`: picking rank `k` out of it
      gives it back when `k == j` and nothing otherwise. */
  lemma {:induction false} BucketIdempotent(tasks: seq<CallTaskView>, j: nat, k: nat)
    ensures Bucket(Bucket(tasks, j), k) == if j == k then Bucket(tasks, j) else []
  {
    if tasks != [] {
      var p, x := tasks[..|tasks| - 1], tasks[|tasks| - 1];
      BucketIdempotent(p, j, k);
      BucketAppend(Bucket(p, j), if Rank(x) == j then [x] else [], k);
    }
  }

  lemma {:induction false} BucketEmpty(tasks: seq<CallTaskView>, k: nat)
    requires k > 2
    ensures Bucket(tasks, k) == []
  {
    if tasks != [] {
      BucketEmpty(tasks[..|tasks| - 1], k);
    }
  }
}

=== FILE: validation.dfy ===
/**
 * The client-side checks of the login and registration forms. Each check
 * that fails shows its message and stops; the model returns that message
 * in place of showing it.
 */
module Validation {
  import opened JsText

  datatype Outcome = Pass | Fail(message: string)

  /** A character of the class `[^\s@]`. */
  predicate Plain(c: char) {
    !IsWhitespace(c) && c != '@'
  }

  /** One `[^\s@]+` run. */
  ghost predicate Piece(s: string) {
    s != [] && forall i :: 0 <= i < |s| ==> Plain(s[i])
  }

  /** The language of `^[^\s@]+@[^\s@]+\.[^\s@]+$`. */
  ghost predicate InEmailLanguage(s: string) {
    exists a, b, c :: Piece(a) && Piece(b) && Piece(c) && s == a + "@" + b + "." + c
  }

  /** `EMAIL_REGEX.test(s)`, decided by positions: one '@' after a non-empty
      prefix, a '.' after a non-empty stretch following it and before a
      non-empty suffix, and no other '@' and no whitespace anywhere. */
  predicate IsEmail(s: string) {
    exists i, j | 0 < i && i + 1 < j && j + 1 < |s| ::
      s[i] == '@' && s[j] == '.' && forall k :: 0 <= k < |s| && k != i ==> Plain(s[k])
  }

  /** The positional test accepts exactly the strings of the regular
      language. */
  lemma EmailDecision(s: string)
    ensures IsEmail(s) <==> InEmailLanguage(s)
  {
    if IsEmail(s) {
      EmailSplit(s);
    }
    if InEmailLanguage(s) {
      var a, b, c :| Piece(a) && Piece(b) && Piece(c) && s == a + "@" + b + "." + c;
      EmailJoin(a, b, c);
    }
  }

  lemma EmailSplit(s: string)
    requires IsEmail(s)
    ensures InEmailLanguage(s)
  {
    var i, j :| 0 < i && i + 1 < j && j + 1 < |s| &&
      s[i] == '@' && s[j] == '.' && forall k :: 0 <= k < |s| && k != i ==> Plain(s[k]);
    var a, b, c := s[..i], s[i + 1..j], s[j + 1..];
    assert s == a + "@" + b + "." + c;
    assert forall k :: 0 <= k < |b| ==> b[k] == s[i + 1 + k];
    assert forall k :: 0 <= k < |c| ==> c[k] == s[j + 1 + k];
    assert Piece(a) && Piece(b) && Piece(c);
  }

  lemma EmailJoin(a: string, b: string, c: string)
    requires Piece(a) && Piece(b) && Piece(c)
    ensures IsEmail(a + "@" + b + "." + c)
  {
    var s := a + "@" + b + "." + c;
    var i, j := |a|, |a| + 1 + |b|;
    assert s[i] == '@' && s[j] == '.';
    forall k | 0 <= k < |s| && k != i ensures Plain(s[k]) {
      if k < i {
        assert s[k] == a[k];
      } else if k < j {
        assert s[k] == b[k - i - 1];
      } else if k > j {
        assert s[k] == c[k - j - 1];
      }
    }
  }

  /** Strings with one '@' and a '.' in the domain pass; a second '@', a
      space, or an empty part fails. */
  lemma EmailExamples()
    ensures IsEmail("ana@example.com")
    ensures !IsEmail("ana@@example.com") && !IsEmail("ana b@example.com")
    ensures !IsEmail("@example.com") && !IsEmail("ana@.com") && !IsEmail("ana@example.")
  {
    assert "ana@example.com"[3] == '@' && "ana@example.com"[11] == '.';
    assert forall k :: 0 <= k < 15 && k != 3 ==> Plain("ana@example.com"[k]);
    assert !Plain("ana@@example.com"[3]) && !Plain("ana@@example.com"[4]);
    assert !Plain("ana b@example.com"[3]);
    assert forall k :: 0 < k < 12 ==> "@example.com"[k] != '@';
    assert forall k :: 0 <= k < 8 && k != 3 ==> "ana@.com"[k] != '@';
    assert forall k :: 4 < k < 7 ==> "ana@.com"[k] != '.';
    assert forall k :: 0 <= k < 12 && k != 3 ==> "ana@example."[k] != '@';
    assert forall k :: 4 < k < 11 ==> "ana@example."[k] != '.';
  }

  /** `validateLogin`: both fields must hold more than whitespace. */
  function ValidateLogin(username: string, password: string): Outcome {
    if Trim(username) == "" then Fail("Username is required")
    else if Trim(password) == "" then Fail("Password is required")
    else Pass
  }

  /** Login passes exactly when neither field is blank. */
  lemma LoginIff(username: string, password: string)
    ensures ValidateLogin(username, password).Pass? <==> !IsBlank(username) && !IsBlank(password)
    ensures IsBlank(username) ==> ValidateLogin(username, password) == Fail("Username is required")
  {
    TrimEmptyIffBlank(username);
    TrimEmptyIffBlank(password);
  }

  /** `validateRegister`: the email (trimmed), the username (trimmed, in
      UTF-16 units), the password (untrimmed), then the login checks. */
  function ValidateRegister(email: string, username: string, password: string): Outcome {
    if !IsEmail(Trim(email)) then Fail("Please enter a valid email address")
    else if Utf16Length(Trim(username)) < 4 then Fail("Username must be at least 4 characters long")
    else if Utf16Length(password) < 4 then Fail("Password must be at least 4 characters long")
    else ValidateLogin(username, password)
  }

  /** Registration passes exactly when every check does; of the login
      checks only the password one can still fail. */
  lemma RegisterIff(email: string, username: string, password: string)
    ensures ValidateRegister(email, username, password).Pass? <==>
      && InEmailLanguage(Trim(email))
      && Utf16Length(Trim(username)) >= 4
      && Utf16Length(password) >= 4
      && !IsBlank(password)
    ensures ValidateRegister(email, username, password) != Fail("Username is required")
  {
    EmailDecision(Trim(email));
    LoginIff(username, password);
    TrimEmptyIffBlank(username);
  }

  /** A password of four spaces passes the length check, which counts the
      untrimmed text, and is then refused as missing. */
  lemma BlankPasswordPassesLength(email: string, username: string)
    requires IsEmail(Trim(email)) && Utf16Length(Trim(username)) >= 4
    ensures Utf16Length("    ") >= 4
    ensures ValidateRegister(email, username, "    ") == Fail("Password is required")
  {
    assert IsBlank("    ");
    TrimEmptyIffBlank("    ");
    TrimEmptyIffBlank(username);
  }
}

=== FILE: wrappers.dfy ===
/** An optional value: an absent request field, a row that was not found. */
module Wrappers {

  datatype Option<+T> = None | Some(value: T)
}

/** What an Express handler sends back: a status code and a body. */
module Http {
  import opened Wrappers

  /** The success statuses carry the JSON `data`; the error statuses carry the
      `message` the handler puts in the body. `InternalError` is the 500 that
      the error middleware sends for an exception the handler re-throws. */
  datatype Response<+T> =
    | Ok(data: T)
    | Created(data: T)
    | BadRequest(message: string)
    | NotFound(message: string)
    | InternalError
  {
    predicate IsSuccess() {
      Ok? || Created?
    }

    function StatusCode(): (code: int)
      ensures IsSuccess() <==> 200 <= code < 300
    {
      match this
      case Ok(_) => 200
      case Created(_) => 201
      case BadRequest(_) => 400
      case NotFound(_) => 404
      case InternalError => 500
    }
  }

  /** A request-body string field that is truthy: present and not "". */
  predicate Truthy(field: Option<string>) {
    field.Some? && field.value != ""
  }

  /** A request-body numeric field that is truthy: present and not 0. */
  predicate TruthyId(field: Option<nat>) {
    field.Some? && field.value != 0
  }
}
